=== FILE: README.md ===
# Fidget's register allocator, VM tape and 2-D render arithmetic in Dafny

This project models the core of fidget, a library for evaluating implicit
surfaces:

- **The single-pass register allocator.** `RegisterAllocator` walks a
  globally allocated SSA tape from the root towards the leaves. It lowers
  every SSA operation into operations of a small virtual machine that has at
  most `reg_limit` registers, and spills values to memory slots with `Load`
  and `Store` when it runs out. Slot numbers below `reg_limit` are registers;
  numbers from `reg_limit` up are memory. Both kinds are counted by the
  tape's `slot_count`.
- **The VM tape and instruction set** that the allocator emits into.
- **The expression-graph node helpers**: children of a node, and the
  Graphviz colour, shape and edge lines of a node.
- **The 2-D renderer's arithmetic**:
  - the bit and debug render modes, which decide from an interval bound
    whether a tile is filled, empty or must be subdivided, and colour single
    pixels;
  - the tile-size preconditions;
  - the index arithmetic that cuts the image into tiles and subtiles and
    writes rendered tiles into the final, vertically flipped image.

The allocator is an immutable value. Each operation returns the new state,
and methods return it together with their result. The central invariant
`Alloc.Inv` (with `Alloc.Valid` = `Inv(a, {}, {})`) says:

- `registers[r] == n` exactly when `allocations[n] == r`, for every register
  below the limit;
- the spare-register stack and the spare-memory stack hold no duplicates and
  nothing bound;
- a memory slot is held by at most one node, and every slot number is below
  `slot_count`;
- the LRU order lists every register exactly once.

Each lowering step is proved to keep this invariant. It is also proved to
emit exactly one VM operation that is the counterpart of the SSA
operation, among `Load`/`Store` spills only.

Files:

| file | module | models |
|---|---|---|
| `results.dfy` | `Results` | `Option` / `Result` |
| `vm_op.dfy` | `VmOp` | `vm::Op`, the VM instruction set |
| `vm_tape.dfy` | `VmTape` | `vm::Tape` |
| `lru.dfy` | `Lru` | the abstract LRU order over registers |
| `ssa_op.dfy` | `SsaOp` | the SSA operations, read off the allocator's dispatch |
| `alloc.dfy` | `Alloc` | allocator state, invariant, primitive steps, construction and reuse |
| `lowering.dfy` | `Lowering` | `get_out_reg`, `op_reg_fn`, `op_reg_reg`, `op_out_only` and `op` |
| `context_op.dfy` | `ContextOp` | `context::Op` and its Graphviz helpers |
| `render2d.dfy` | `Render2d` | render modes, debug pixels, tile sizes and image assembly |

Where the source panics (`assert!`, `unwrap`, `panic!`), the model does one
of two things:

- it returns an error value (`Err(UnassignedOutput)`, `Err(InputOutOfRange)`,
  `Err(OutOfRegisters)`, the `Err` of `DotColorToRgb`, `AsDebugColor` and `IsFilled`, and the
  `SizeError`s of `CheckTileSizes`);
- or, when the panic guards an internal consistency check, it states the
  check as a precondition and proves that every caller meets it (the asserts
  of `get_memory`, `get_spare_register`, `get_register`, `rebind_register`,
  `bind_register`, `release_reg`, `release_mem` and `op_reg_fn`). The
  asserts of `op_reg_reg` at lines 585 and 597 are proved to hold with two
  or more registers (`SecondRegister`); with one register they are the
  `OutOfRegisters` error. Lowering also requires SSA input, as the source
  documents it.

## Model

| member | source | states |
|---|---|---|
| VmOp.Output | fidget/src/core/vm/op.rs:6-81 | only `Store` writes no register; every variant other than `Load`/`Store` writes its first field |
| VmOp.Inputs | fidget/src/core/vm/op.rs:6-81 | at most two registers are read; exactly two for the two-register variants; one for the one-register, register/immediate and `Store` variants |
| VmOp.Immediate | fidget/src/core/vm/op.rs:39-76 | an op carries an immediate exactly when it is a `*Imm` variant or `CopyImm` |
| VmOp.OperandLayout | fidget/src/core/vm/op.rs:6-81 | the operand layout of every variant: `(out, reg, imm)` for `*Imm`, `(out, lhs, rhs)` for the register pairs, `Load` writes its register and reads none, `Store` reads its register and writes none, `SubImmReg`/`DivImmReg` put the immediate on the left |
| VmOp.NonSpillsFilters | fidget/src/core/vm/op.rs:78-81 | the non-spill filter keeps only ops other than `Load`/`Store`, each taken from the input, and is empty exactly when every op is a spill |
| VmOp.NonSpillsAppend | fidget/src/core/vm/op.rs:78-81 | filtering spills distributes over concatenation |
| VmTape.Default | fidget/src/core/vm/tape.rs:6-15 | the default tape is empty with no slots and register limit 0 |
| VmTape.New | fidget/src/core/vm/tape.rs:18-25 | a new tape is empty, already counts one slot and has the given register limit |
| VmTape.Reset | fidget/src/core/vm/tape.rs:27-31 | a reset tape, whatever it held, equals a new tape with the given limit |
| VmTape.Push | fidget/src/core/vm/tape.rs:61-63 | push grows the tape by one, keeps every earlier op in place, puts the op last and changes neither slot count nor register limit |
| VmTape.IsEmptyIffLenZero | fidget/src/core/vm/tape.rs:42-51 | `is_empty` holds exactly when `len` is 0 |
| VmTape.PushAllOrder | fidget/src/core/vm/tape.rs:52-71 | iterating a tape yields its ops in push order, after the ops already there |
| VmTape.PushEvaluatesFirst | fidget/src/core/vm/tape.rs:52-59 | the op pushed last is evaluated first: evaluation order is iteration order reversed |
| Lru.New | fidget/src/core/vm/alloc.rs:65 | a new LRU order over `n` registers lists each register below `n` exactly once |
| Lru.OrderIsPermutation | fidget/src/core/vm/alloc.rs:30-35 | an LRU order is exactly a permutation of the registers below the limit |
| Lru.OrderIffDistinct | fidget/src/core/vm/alloc.rs:30-35 | an LRU order over `n` registers is exactly a sequence of length `n`, without repetitions, of registers below `n` |
| Lru.PokeAllSplits | fidget/src/core/vm/alloc.rs:161 | after a run of pokes the order is the unpoked registers in their old order, then the poked ones from least to most recently poked |
| Lru.PokingEveryRegisterForgets | fidget/src/core/vm/alloc.rs:65 | once every register has been poked, the order no longer depends on the order it started from |
| Lru.Poke | fidget/src/core/vm/alloc.rs:161 | poke keeps a permutation, makes the register the newest and keeps the relative order of all the others |
| Lru.Pop | fidget/src/core/vm/alloc.rs:148-151 | pop returns the least recently used register, makes it the newest and keeps the others' relative order |
| Lru.OldestIsNotNewest | fidget/src/core/vm/alloc.rs:185-207 | with two or more registers the oldest register is not the newest one |
| SsaOp.ArgsShape | fidget/src/core/vm/alloc.rs:281-312 | every SSA op falls in exactly one of the dispatch classes (out-only, one register, register/immediate, register pair), with zero, one, one and two argument nodes respectively |
| Alloc.GetAllocation | fidget/src/core/vm/alloc.rs:158-167 | a node is in a register iff its entry is below `reg_limit`, unassigned iff the entry is `u32::MAX`, in memory otherwise; only the register case pokes the LRU, and the register really holds that node |
| Alloc.GetMemory | fidget/src/core/vm/alloc.rs:133-142 | the slot handed out is a memory slot (at least `reg_limit`, the assert at line 139), held by no node and not spare; when the spare stack is non-empty its top (the most recently freed slot) is popped and the rest of the stack is left; otherwise the slot is `slot_count`, which grows by one |
| Alloc.GetSpareRegister | fidget/src/core/vm/alloc.rs:171-182 | when the spare stack is non-empty its top (the most recently freed register) is popped and the rest is left; otherwise a fresh register is numbered `slot_count` while that is below `reg_limit`; none exactly when both are exhausted; the register returned is unbound (the assert at line 175) and nothing is emitted |
| Alloc.GetRegister | fidget/src/core/vm/alloc.rs:185-207 | returns an unbound register below the limit: the top of the spare stack if there is one, else a fresh register numbered `slot_count`, and the register is poked in the LRU order (line 188); it evicts exactly when no register is spare or fresh, and then the LRU order is the one `pop` leaves (line 192), the evicted node moves to the top spare memory slot or else to slot `slot_count`, and exactly one `Load(reg, mem)` is emitted; the spare path emits nothing and moves no node |
| Alloc.EvictOldest | fidget/src/core/vm/alloc.rs:190-206 | eviction: the least recently used register is popped from the LRU order (the order becomes `pop`'s), its node moves to the slot `get_memory` hands out (the top spare slot, or else a fresh slot `slot_count`), the register is unbound, and `Load(reg, mem)` is emitted |
| Alloc.BindRegister | fidget/src/core/vm/alloc.rs:223-232 | binding sets both directions of the register/node map, makes the register newest and keeps the invariant |
| Alloc.RebindRegister | fidget/src/core/vm/alloc.rs:209-221 | rebinding unassigns the register's previous node, binds the register to the new node in both maps, makes it newest and keeps the invariant |
| Alloc.ReleaseReg | fidget/src/core/vm/alloc.rs:234-248 | releasing unbinds the register in both maps, pushes it on the spare stack and keeps the invariant |
| Alloc.ReleaseMem | fidget/src/core/vm/alloc.rs:250-256 | releasing a memory slot no node holds pushes it on the spare stack and keeps the invariant |
| Alloc.PushStore | fidget/src/core/vm/alloc.rs:315-318 | emits exactly `Store(reg, mem)`, returns `mem` to the spare-memory pool and changes nothing else |
| Alloc.BindKeepsInv | fidget/src/core/vm/alloc.rs:223-232 | binding a handed-out register to a node without a register preserves the register/node bijection and both pools |
| Alloc.RebindKeepsInv | fidget/src/core/vm/alloc.rs:209-221 | rebinding preserves the register/node bijection and both pools |
| Alloc.ReleaseRegKeepsInv | fidget/src/core/vm/alloc.rs:234-248 | releasing a bound register preserves the register/node bijection and both pools |
| Alloc.EvictKeepsInv | fidget/src/core/vm/alloc.rs:190-206 | the eviction branch of `get_register` preserves the invariant, with the evicted register handed out |
| Alloc.GrowKeepsInv | fidget/src/core/vm/alloc.rs:137-141 | a fresh slot number is unused: as a register it is unbound, as memory it is free; growing the slot count keeps the invariant |
| Alloc.HeldSlot | fidget/src/core/vm/alloc.rs:326-337 | a node's memory slot is held by that node alone, so storing it back frees it |
| Alloc.New | fidget/src/core/vm/alloc.rs:60-75 | a new allocator is valid; node 0 is bound to register 0 and every other node is unassigned; every other register is unbound; both spare stacks are empty; the tape is new |
| Alloc.Empty | fidget/src/core/vm/alloc.rs:77-90 | the empty allocator has no nodes, register limit 0, empty spare stacks and an empty tape |
| Alloc.ResetWithStorage | fidget/src/core/vm/alloc.rs:97-115 | from any state whose tape was emptied, and with any storage tape, a reset yields exactly the state `new` builds |
| Alloc.Reset | fidget/src/core/vm/alloc.rs:92-95 | a reset with default storage yields exactly the state `new` builds |
| Alloc.Finalize | fidget/src/core/vm/alloc.rs:117-121 | finalize hands out the tape built so far and leaves an empty tape and otherwise the same state |
| Alloc.ReuseAfterFinalize | fidget/src/core/vm/alloc.rs:98-121 | `finalize` followed by `reset_with_storage` with the tape it returned always passes the emptiness assert and yields the `new` state |
| Alloc.Resize | fidget/src/core/vm/alloc.rs:105-106 | resizing keeps the first entries and pads with the fill value up to the new length |
| Lowering.Instr | fidget/src/core/vm/alloc.rs:264-278 | the VM counterpart of an SSA op writes the given register, reads the given registers and carries the SSA op's immediate, variable index or input slot |
| Lowering.InstrKeepsName | fidget/src/core/vm/alloc.rs:264-278 | lowering keeps the operation's name (`NegReg` becomes `NegReg`, and so on) |
| Lowering.RegRegKeepsName | fidget/src/core/vm/alloc.rs:524-532 | the register-pair constructors keep the operation's name |
| Lowering.RegImmKeepsName | fidget/src/core/vm/alloc.rs:613-626 | the register/immediate constructors keep the operation's name |
| Lowering.RegKeepsName | fidget/src/core/vm/alloc.rs:264-278 | the one-register constructors keep the operation's name |
| Lowering.GetOutReg | fidget/src/core/vm/alloc.rs:326-340 | an unassigned output is an error and changes nothing; otherwise the output's register, bound to it and newest, with only spills emitted; a register output is returned as is; a memory output ends with `Store(reg, slot)`; no other node moves except by eviction |
| Lowering.FnArmR | fidget/src/core/vm/alloc.rs:386-391 | argument in a register: the output register differs from it (the assert at line 388), exactly `op(r_x, r_y)` is emitted and `r_x` is released |
| Lowering.FnArmM | fidget/src/core/vm/alloc.rs:392-397 | argument in memory: exactly `op(r_x, r_x)` then `Store(r_x, m_y)` are emitted, the argument takes over `r_x` and `m_y` becomes spare |
| Lowering.FnArmU | fidget/src/core/vm/alloc.rs:398-401 | argument unassigned: exactly `op(r_x, r_x)` is emitted and the argument takes over `r_x` |
| Lowering.RegFn | fidget/src/core/vm/alloc.rs:343-403 | `op_reg_fn`: an error iff the output is unassigned; otherwise exactly one op built by the constructor among spills, placed so that each argument sits in the register the op reads; the output is unassigned afterwards; the output register is spare exactly when the op does not read it; every other node keeps its slot unless it was evicted, that is moved from a register to a memory slot with a `Load` of that register from that slot among the new ops (lines 190-206) |
| Lowering.OpReg | fidget/src/core/vm/alloc.rs:264-278 | a one-register SSA op is lowered to its same-named VM op, as `RegFn` places it |
| Lowering.OpRegImm | fidget/src/core/vm/alloc.rs:613-626 | a register/immediate SSA op is lowered to its same-named VM op carrying the same immediate |
| Lowering.ArmRR | fidget/src/core/vm/alloc.rs:535-538 | both arguments in registers: `r_x` differs from both, exactly `op(r_x, r_y, r_z)` is emitted and `r_x` is released |
| Lowering.ArmMR | fidget/src/core/vm/alloc.rs:539-544 | lhs in memory: exactly `op(r_x, r_x, r_z)` then `Store(r_x, m_y)`; lhs takes over `r_x` and `m_y` becomes spare |
| Lowering.ArmRM | fidget/src/core/vm/alloc.rs:545-550 | rhs in memory: exactly `op(r_x, r_y, r_x)` then `Store(r_x, m_z)`; rhs takes over `r_x` and `m_z` becomes spare |
| Lowering.ArmMMSame | fidget/src/core/vm/alloc.rs:551-565 | both in memory and `lhs == rhs`: no second register is taken; exactly `op(r_x, r_x, r_x)` and one store are emitted |
| Lowering.ArmMM | fidget/src/core/vm/alloc.rs:551-565 | both in distinct memory slots: exactly `op(r_x, r_x, r_a)` and the two stores; both slots become spare |
| Lowering.ArmUR | fidget/src/core/vm/alloc.rs:566-569 | lhs unassigned: exactly `op(r_x, r_x, r_z)` and lhs takes over `r_x` |
| Lowering.ArmRU | fidget/src/core/vm/alloc.rs:570-573 | rhs unassigned: exactly `op(r_x, r_y, r_x)` and rhs takes over `r_x` |
| Lowering.ArmUUSame | fidget/src/core/vm/alloc.rs:574-582 | both unassigned and `lhs == rhs`: no second register is taken and exactly `op(r_x, r_x, r_x)` is emitted |
| Lowering.ArmUU | fidget/src/core/vm/alloc.rs:574-582 | both unassigned and distinct: exactly `op(r_x, r_x, r_a)`; lhs takes `r_x` and rhs `r_a` |
| Lowering.ArmUM | fidget/src/core/vm/alloc.rs:583-594 | lhs unassigned, rhs in memory: exactly `op(r_x, r_x, r_a)` then `Store(r_a, m_z)`; `m_z` becomes spare |
| Lowering.ArmMU | fidget/src/core/vm/alloc.rs:595-606 | lhs in memory, rhs unassigned: exactly `op(r_x, r_a, r_x)` then `Store(r_a, m_y)`; `m_y` becomes spare |
| Lowering.EvictFramed | fidget/src/core/vm/alloc.rs:190-206 | evicting one register's node to a memory slot, with the `Load` of that slot, leaves every other node in place |
| Lowering.FramedThen | fidget/src/core/vm/alloc.rs:190-206 | two steps that each keep or evict the other nodes keep or evict them together: an evicted node is in memory, so it is not evicted again |
| Lowering.SecondRegister | fidget/src/core/vm/alloc.rs:583-597 | with at least two registers and `r_x` newest, the second register `get_register` hands out is never `r_x` (the asserts at lines 585 and 597) and leaves both arguments where they were; any other node it moves is evicted with its `Load` |
| Lowering.NoSecondRegister | fidget/src/core/vm/alloc.rs:551-606 | with one register, held by the output, neither argument is in a register, and `get_register` hands back the output's own register, emptied |
| Lowering.RegReg | fidget/src/core/vm/alloc.rs:415-608 | `op_reg_reg`: `UnassignedOutput` iff the output is unassigned; otherwise `OutOfRegisters` iff the two arguments are distinct nodes and there is only one register (the panics at lines 212, 585 and 597); otherwise exactly one op built by the constructor among spills, each argument in the register it reads, at most two fresh slots (one when `lhs == rhs`), and exactly `op(r_x, r_y, r_z)` when everything is already in registers; every other node keeps its slot unless it was evicted, that is moved from a register to a memory slot with a `Load` of that register from that slot among the new ops (lines 190-206) |
| Lowering.OpRegReg | fidget/src/core/vm/alloc.rs:524-533 | a register-pair SSA op is lowered to its same-named VM op; it fails exactly as `RegReg` does, and only operations on two distinct nodes need a second register |
| Lowering.OutOnly | fidget/src/core/vm/alloc.rs:628-633 | `op_out_only`: an error iff the output is unassigned; otherwise exactly one op writing the output's register among spills, and that register is released; every other node keeps its slot unless it was evicted, that is moved from a register to a memory slot with a `Load` of that register from that slot among the new ops (lines 190-206) |
| Lowering.OpVar | fidget/src/core/vm/alloc.rs:648-651 | lowers to one `Var` op with the same variable index |
| Lowering.OpInput | fidget/src/core/vm/alloc.rs:642-645 | lowers to one `Input` op with the same input slot |
| Lowering.OpCopyImm | fidget/src/core/vm/alloc.rs:636-639 | lowers to one `CopyImm` op with the same immediate |
| Lowering.Lower | fidget/src/core/vm/alloc.rs:280-313 | `op`: an input index above 255 is an error (the failing `try_into().unwrap()`); otherwise `UnassignedOutput` iff the output is unassigned, else `OutOfRegisters` iff a register-pair op on two distinct nodes meets a single register; on success exactly one op of the same name among spills, each argument placed in the register it reads, the invariant kept; every other node keeps its slot unless it was evicted, that is moved from a register to a memory slot with a `Load` of that register from that slot among the new ops (lines 190-206) |
| ContextOp.IterChildren | fidget/src/context/op.rs:70-77 | a binary node yields `[lhs, rhs]`, a unary node `[arg]`, a variable or constant nothing |
| ContextOp.DotColorToRgb | fidget/src/context/op.rs:41-49 | defined exactly on red, green, goldenrod and dodgerblue, giving a seven-character `#RRGGBB` code; any other name is the error with the source's message |
| ContextOp.RgbInjective | fidget/src/context/op.rs:41-49 | distinct palette names have distinct hex codes |
| ContextOp.DotNodeColor | fidget/src/context/op.rs:51-61 | green exactly for constants, red exactly for variables, dodgerblue exactly for `min`/`max`, goldenrod exactly for the other nodes with operands; every result has a hex code |
| ContextOp.DotNodeShape | fidget/src/context/op.rs:62-68 | oval exactly for constants, circle exactly for variables, box exactly for nodes with operands |
| ContextOp.ParseDecimalOfDecimal | fidget/src/context/op.rs:91 | the decimal form of a node index reads back as that index |
| ContextOp.DecimalOfParseDecimal | fidget/src/context/op.rs:91 | every canonical digit string is the decimal form of the number it denotes |
| ContextOp.ParseEdgeLine | fidget/src/context/op.rs:89-92 | an edge line reads back as its two endpoints and its colour |
| ContextOp.DecimalOfNumber | fidget/src/context/op.rs:91 | a node number is read only from its canonical decimal form: no leading zeros |
| ContextOp.EdgeLineOfParse | fidget/src/context/op.rs:89-92 | whatever the edge parser accepts is exactly the line `format!` writes for the edge it returns, so parsing and writing edge lines are inverse |
| ContextOp.DotEdge | fidget/src/context/op.rs:89-92 | the line reads back as an edge from `n<a>` to `n<b>` coloured with the node colour's hex code followed by the alpha suffix; it is one line when the suffix holds no newline |
| ContextOp.DotEdges | fidget/src/context/op.rs:81-87 | exactly one line per child, in child order; line `k` is the edge from the node to child `k` in the node's colour with alpha `FF` |
| ContextOp.SplitLinesAppend | fidget/src/context/op.rs:81-87 | appending a complete line to complete text adds exactly that line to its lines |
| Render2d.BitInterval | fidget/src/render/render2d.rs:112-120 | `Some(true)` iff `upper < 0`; `Some(false)` iff `lower > 0` and not `upper < 0`; `None` iff `lower <= 0 <= upper` |
| Render2d.FillSound | fidget/src/render/render2d.rs:112-123 | when the interval decides, every pixel value inside the bound gets that decision |
| Render2d.UndecidedStraddles | fidget/src/render/render2d.rs:112-123 | an undecided bound contains 0, which is outside, and its negative lower end, when there is one, is inside |
| Render2d.IsFilled | fidget/src/render/render2d.rs:91-102 | an error exactly on `Invalid`; true exactly for the three filled variants |
| Render2d.DefaultPixel | fidget/src/render/render2d.rs:71-75 | the default pixel has neither a fill nor a colour |
| Render2d.DebugInterval | fidget/src/render/render2d.rs:34-50 | decides exactly when the bit mode decides, with the same fill; uses the subtile variants iff `depth > 1`; never `Invalid` |
| Render2d.DebugPixelOf | fidget/src/render/render2d.rs:51-57 | a debug pixel is `Empty` or `Filled`, and is filled exactly when the bit mode's pixel is |
| Render2d.AsDebugColor | fidget/src/render/render2d.rs:78-89 | an error exactly on `Invalid`; otherwise an opaque four-channel colour |
| Render2d.ColorShowsFill | fidget/src/render/render2d.rs:78-102 | a pixel is filled exactly when one of its colour channels is at full intensity |
| Render2d.ColorRoundTrip | fidget/src/render/render2d.rs:78-89 | the colour of every valid pixel reads back as that pixel |
| Render2d.ColorsDistinct | fidget/src/render/render2d.rs:78-89 | different kinds of pixel get different colours |
| Render2d.CheckTileSizes | fidget/src/render/render2d.rs:360-364 | succeeds exactly when there is a tile size, every size is positive, the image is a multiple of the first size and each size a multiple of the next; the missing-size error is reported exactly when there are no sizes |
| Render2d.EveryLevelDividesImage | fidget/src/render/render2d.rs:361-364 | under those checks every tile size divides the image size |
| Render2d.Tiles | fidget/src/render/render2d.rs:367-375 | the queue holds `m * m` tiles (`m` = image size / tile size), tile `k` at corner `((k / m) * t, (k % m) * t)` |
| Render2d.GridPartition | fidget/src/render/render2d.rs:367-375 | every pixel of the image lies in exactly one queued tile |
| Render2d.GridOwner | fidget/src/render/render2d.rs:367-375 | the index of the one queued tile that holds a pixel |
| Render2d.SubtilesPartition | fidget/src/render/render2d.rs:216-230 | when the next tile size divides the current one, the `n * n` subtiles partition their parent: every pixel of it lies in exactly one |
| Render2d.FlipIndex | fidget/src/render/render2d.rs:398-401 | the flipped index `(orig - y - 1) * orig + x` of an in-image pixel is below `orig²` |
| Render2d.FlipRoundTrip | fidget/src/render/render2d.rs:398-401 | the flipped index gives the pixel back: its remainder is `x` and its quotient `orig - 1 - y` |
| Render2d.FlipOnto | fidget/src/render/render2d.rs:391-401 | every index of the image is the flipped index of exactly one pixel |
| Render2d.FlipInjective | fidget/src/render/render2d.rs:398-401 | distinct pixels land at distinct indices |
| Render2d.WriteTile | fidget/src/render/render2d.rs:393-406 | writing one tile changes exactly its in-image pixels, each to the tile's own pixel, and leaves every other index alone |
| Render2d.WritePixel | fidget/src/render/render2d.rs:395-404 | one step writes the tile's pixel `(i, j)` when it lies inside the image, and nothing else |
| Render2d.Assemble | fidget/src/render/render2d.rs:391-408 | the final image has `orig²` entries; each pixel shows the last rendered tile that covers it, or the default where none does |
| Render2d.AssembledByOwner | fidget/src/render/render2d.rs:391-407 | a pixel covered by exactly one tile shows that tile's pixel, in whatever order the workers returned the tiles |
| Render2d.QueueIsGridOrder | fidget/src/render/render2d.rs:367-375 | the queue's own order holds each top-level tile exactly once |
| Render2d.GridEntryHolds | fidget/src/render/render2d.rs:367-375 | in any order of the top-level tiles, an entry holds a pixel exactly when it is that pixel's owner |
| Render2d.GridAssembled | fidget/src/render/render2d.rs:367-407 | whatever order the workers return the top-level tiles in, as long as each occurs exactly once (their per-worker outputs concatenated, lines 379-388), every output pixel shows the pixel of the one tile that holds it, and that tile is its owner in the queue |

## Left out

- Floating point: `f32` immediates are opaque bit patterns (`VmOp.Imm`), and interval bounds and pixel values are reals. NaN, rounding and the `Float` of a constant node are not modelled.
- The evaluators, `simplify_with`, the nalgebra transform of tile corners, the `Scratch` buffers and `render_tile_pixels`' float evaluation are not modelled. These are foreign evaluators and float work.
- The threads, the `Queue`, the worker loop and the per-worker evaluator storage are not modelled. These are concurrency. `GridAssembled` holds for any order in which the workers return the tiles, provided each queued tile comes back exactly once; that each tile is popped by exactly one worker is a property of the `Queue`, which is not modelled.
- The filling of a decided tile (`render_tile_recurse`, lines 201-205) and `render_tile_pixels` call `tile_to_offset`. config.rs, which defines it and `align`, is not part of this model. Only the subdivision arithmetic (`SubtilesPartition`) and the final assembly are modelled. The aligned image size is a parameter of `GridAssembled`, required to be at least the original size.
- lru.rs is not part of this model. `Lru` is an abstract permutation, least recently used first. `pop` also marks the popped register newest, as the register is about to be reused.
- ssa/op.rs is not part of this model. The SSA variants are read off the match in `op`.
- The `Context` that hash-conses expression nodes is not part of this model, and `VarNode` is a plain index.
- The `Op` size test in vm/op.rs is not modelled. It concerns memory layout.
- Lowering.Lower, Lowering.RegFn, Lowering.RegReg, Lowering.OpRegReg: require the operation not to name its own output as an argument, because the input tape is in SSA form (the doc comment at line 408 of alloc.rs: inputs are SSA registers). On a non-SSA input `op_reg_fn` would fail its assert at line 388, but `op_reg_reg` would run: `get_allocation` finds the argument in the output's register, and the arm for that case emits `op` and frees the register. The model does not cover that case.
- Lowering.Lower: requires two free slot numbers below `u32::MAX` (the allocator's `slot_count` is a `u32` whose overflow the source does not check).
- Lowering.Lower: with one register, a register-pair operation on two distinct nodes is the error `OutOfRegisters`, where the source panics. `get_register` evicts the output's register: `rebind_register`'s assert at line 212 fires in the memory/memory and unassigned/unassigned arms, and `r_a != r_x` at lines 585 and 597 in the other two. The model does not record the `Load` emitted before the panic.
- Alloc.New: requires `1 <= size <= u32::MAX`, because with `size == 0` there is no node 0 to bind and node indices are `u32`. It also requires `reg_limit >= 1`: `bind_register`'s asserts pass with a limit of 0, but whether poking register 0 of an empty LRU order succeeds depends on lru.rs.
- Alloc.ResetWithStorage: the `assert!(self.out.is_empty())` is a precondition. `ReuseAfterFinalize` shows the intended call sequence always meets it.
- Alloc.Reset: requires an empty tape, the same assert at line 104, reached through `reset_with_storage`.
- Lru.New: the order `Lru::new` starts from is in lru.rs, so the model picks ascending order and promises only that each register occurs once. The choice does not affect allocation. Register 0 is poked when `new` binds it (line 231). Every fresh register is poked when `get_register` hands it out (lines 186-188). The first `pop` (line 192) comes only once `slot_count >= reg_limit`, when every register has been poked. `PokingEveryRegisterForgets` proves that from then on the order is the same whatever order it started from; the allocator-level count of pokes is argued here, not proved.
- Alloc.Empty: it is not `Valid`, as in the source, which only resets it before use. Its register array and LRU are not constrained beyond that.
- Alloc.ReleaseReg, Alloc.BindRegister, Alloc.RebindRegister, Alloc.ReleaseMem: their `assert!`s are preconditions, proved at every call site rather than returned as errors.

=== FILE: alloc.dfy ===
/** Single-pass register allocation: the allocator's state, its invariant
    and the primitive steps the lowering of operations is built from.

    The allocator walks an SSA tape from the root towards the leaves and
    lowers each SSA operation into VM operations on at most `regLimit`
    registers, spilling to memory slots with `Load` and `Store` when it runs
    out. Slot numbers below `regLimit` are registers; numbers from `regLimit`
    up are memory. Both kinds are counted by the output tape's `slotCount`.

    The allocator is a value here; each operation returns the new state. */
module Alloc {
  import opened Results
  import opened VmOp
  import Lru
  import VmTape

  /** `u32::MAX`: the marker for "no node" / "no slot". */
  const UNSET: u32 := 0xFFFF_FFFF

  /** The register array has `u8::MAX` entries, whatever the limit. */
  const REGISTER_COUNT: nat := 255

  /** Where a node currently lives. */
  datatype Allocation = Register(reg: u8) | Memory(slot: u32) | Unassigned

  datatype Allocator = Allocator(
    allocations: seq<u32>,      // node -> register, memory slot, or UNSET
    registers: seq<u32>,        // register -> node, or UNSET
    registerLru: seq<nat>,      // registers, least recently used first
    regLimit: u8,
    spareRegisters: seq<u8>,    // most recently freed last
    spareMemory: seq<u32>,      // most recently freed last
    out: VmTape.Tape)

  /** A slot number that names memory rather than a register. */
  predicate IsMemorySlot(a: Allocator, v: int) {
    a.regLimit <= v && v != UNSET
  }

  /** Where node `n` lives, read off its slot number. */
  function Where(a: Allocator, n: nat): Allocation
    requires n < |a.allocations|
  {
    var v := a.allocations[n];
    if v < a.regLimit as u32 then Register(v as u8)
    else if v == UNSET then Unassigned
    else Memory(v)
  }

  ////////////////////////////////////////////////////////////////////////////
  // The invariant

  /** No value occurs twice in the stack `s`: the top is not below it, and
      so on down. */
  predicate NoDuplicates<T(==)>(s: seq<T>) {
    |s| == 0 || (s[|s| - 1] !in s[..|s| - 1] && NoDuplicates(s[..|s| - 1]))
  }

  ghost predicate Shape(a: Allocator) {
    && 1 <= a.regLimit
    && |a.registers| == REGISTER_COUNT
    && 1 <= |a.allocations| <= UNSET
    && a.out.regLimit == a.regLimit
    && 1 <= a.out.slotCount
    && |a.registerLru| == a.regLimit as int
  }

  /** `registers` and `allocations` describe the same binding. */
  ghost predicate Bindings(a: Allocator)
    requires Shape(a)
  {
    && (forall r :: 0 <= r < a.regLimit && a.registers[r] != UNSET ==>
          a.registers[r] < |a.allocations| && a.allocations[a.registers[r]] == r)
    && (forall n {:trigger a.registers[a.allocations[n]]} ::
          0 <= n < |a.allocations| && a.allocations[n] < a.regLimit ==>
          a.registers[a.allocations[n]] == n)
    && (forall r :: a.regLimit <= r < REGISTER_COUNT ==> a.registers[r] == UNSET)
  }

  /** Every register below the limit is bound, spare, not yet handed out
      (at or above `slotCount`), or in `limbo`: handed out by
      `GetRegister` and about to be bound. */
  ghost predicate RegisterPool(a: Allocator, limbo: set<nat>)
    requires Shape(a)
  {
    && (forall i :: 0 <= i < |a.spareRegisters| ==>
          && a.spareRegisters[i] < a.regLimit
          && a.spareRegisters[i] < a.out.slotCount
          && a.registers[a.spareRegisters[i]] == UNSET
          && a.spareRegisters[i] !in limbo)
    && NoDuplicates(a.spareRegisters)
    && (forall r :: r in limbo ==>
          r < a.regLimit && r < a.out.slotCount && a.registers[r] == UNSET)
    && (forall r :: 0 <= r < a.regLimit && r < a.out.slotCount && a.registers[r] == UNSET ==>
          r in a.spareRegisters || r in limbo)
    && (forall r :: a.out.slotCount <= r < a.regLimit ==> a.registers[r] == UNSET)
  }

  /** Memory slots are below `slotCount`, spare slots are distinct, no two
      nodes share a memory slot, and a node's slot is never spare (except for the
      `excused` nodes, whose slot has just been released). */
  ghost predicate MemoryPool(a: Allocator, excused: set<nat>)
    requires Shape(a)
  {
    && (forall i :: 0 <= i < |a.spareMemory| ==>
          a.regLimit <= a.spareMemory[i] < a.out.slotCount)
    && NoDuplicates(a.spareMemory)
    && (forall n ::
          0 <= n < |a.allocations| && IsMemorySlot(a, a.allocations[n]) ==>
          && a.allocations[n] < a.out.slotCount
          && (n !in excused ==> a.allocations[n] !in a.spareMemory))
    && SlotsDistinct(a.allocations, a.regLimit)
  }

  /** No two nodes of `s` share a memory slot (a slot from `regLimit` up). */
  predicate SlotsDistinct(s: seq<u32>, regLimit: u8) {
    forall n, k {:trigger Clash(s, n, k)} ::
      0 <= n < |s| && 0 <= k < |s| && n != k && regLimit <= s[n] != UNSET
      ==> !Clash(s, n, k)
  }

  /** Nodes `n` and `k` have the same allocation. Naming this lets the
      pairwise distinctness above fire only where a proof asks about a
      particular pair. */
  predicate Clash(s: seq<u32>, n: int, k: int)
    requires 0 <= n < |s| && 0 <= k < |s|
  {
    s[n] == s[k]
  }

  /** A node holding a memory slot is the only node holding it. */
  lemma SoleHolder(s: seq<u32>, regLimit: u8, n: nat)
    requires SlotsDistinct(s, regLimit) && n < |s| && regLimit <= s[n] != UNSET
    ensures forall k :: 0 <= k < |s| && k != n ==> s[k] != s[n]
  {
    forall k | 0 <= k < |s| && k != n
      ensures s[k] != s[n]
    {
      assert !Clash(s, n, k);
    }
  }

  /** Reallocating one node keeps memory slots distinct, as long as the new
      allocation is not a memory slot another node holds. */
  lemma UpdateKeepsDistinct(s: seq<u32>, regLimit: u8, x: nat, v: u32)
    requires SlotsDistinct(s, regLimit) && x < |s|
    requires regLimit <= v != UNSET ==> forall k :: 0 <= k < |s| && k != x ==> s[k] != v
    ensures SlotsDistinct(s[x := v], regLimit)
  {
    var t := s[x := v];
    forall n, k | 0 <= n < |t| && 0 <= k < |t| && n != k && regLimit <= t[n] != UNSET
      ensures !Clash(t, n, k)
    {
      if n != x && k != x {
        assert !Clash(s, n, k);
      }
    }
  }

  /** The invariant, spelled out. */
  ghost predicate Inv(a: Allocator, limbo: set<nat>, excused: set<nat>) {
    && Shape(a)
    && Lru.IsOrder(a.registerLru, a.regLimit as nat)
    && Bindings(a)
    && RegisterPool(a, limbo)
    && MemoryPool(a, excused)
  }

  /** Always true: it stands in for an opaque predicate. `Sealed` hides
      `Inv` behind a quantifier triggered only by this term, and `Open`
      reveals `Inv` by mentioning it. */
  predicate Unseal(a: Allocator, k: int) {
    true
  }

  /** `Inv` with its quantified parts folded away: the verifier unfolds
      them only where a proof calls `Open`. The steps below hand the
      invariant from one to the next through lemmas, so that each step's
      own proof does not carry every quantifier of every intermediate
      state. */
  ghost predicate Sealed(a: Allocator, limbo: set<nat>, excused: set<nat>) {
    && Shape(a)
    && Lru.IsOrder(a.registerLru, a.regLimit as nat)
    && forall k {:trigger Unseal(a, k)} :: Unseal(a, k) ==> Inv(a, limbo, excused)
  }

  lemma Open(a: Allocator, limbo: set<nat>, excused: set<nat>)
    requires Sealed(a, limbo, excused)
    ensures Inv(a, limbo, excused)
  {
    assert Unseal(a, 0);
  }

  /** The allocator's invariant between two operations. */
  ghost predicate Valid(a: Allocator) {
    Sealed(a, {}, {})
  }

  /** `m` is a memory slot that is neither spare nor held by any node
      outside `excused`. */
  ghost predicate MemFree(a: Allocator, m: int, excused: set<nat>) {
    && a.regLimit <= m < a.out.slotCount
    && m !in a.spareMemory
    && (forall n :: 0 <= n < |a.allocations| && n !in excused ==> a.allocations[n] != m)
  }

  /** What the invariant says about one bound register. */
  lemma BoundRegister(a: Allocator, reg: u8, limbo: set<nat>, excused: set<nat>)
    requires Sealed(a, limbo, excused) && reg < a.regLimit && a.registers[reg] != UNSET
    ensures a.registers[reg] < |a.allocations|
    ensures a.allocations[a.registers[reg]] == reg as u32
    ensures reg as nat !in limbo && reg < a.out.slotCount
  {
    Open(a, limbo, excused);
  }

  /** What the invariant says about a node held in a register. */
  lemma HeldRegister(a: Allocator, n: nat, limbo: set<nat>, excused: set<nat>)
    requires Sealed(a, limbo, excused) && n < |a.allocations| && a.allocations[n] < a.regLimit as u32
    ensures a.registers[a.allocations[n]] == n as u32
  {
    Open(a, limbo, excused);
  }

  /** A node's memory slot is held by that node alone; once it is released
      (the node excused) the invariant still holds. */
  lemma HeldSlot(a: Allocator, n: nat, limbo: set<nat>, excused: set<nat>)
    requires Sealed(a, limbo, excused) && n < |a.allocations| && n !in excused
    requires IsMemorySlot(a, a.allocations[n])
    ensures MemFree(a, a.allocations[n], {n})
    ensures Sealed(a, limbo, excused + {n})
  {
    Open(a, limbo, excused);
    SoleHolder(a.allocations, a.regLimit, n);
    assert Inv(a, limbo, excused + {n});
  }

  ////////////////////////////////////////////////////////////////////////////
  // Steps that keep every binding

  /** Appends one op to the output tape. */
  function Emit(a: Allocator, op: Op): (r: Allocator)
    ensures r.out.ops == a.out.ops + [op]
    ensures r.out.slotCount == a.out.slotCount && r.out.regLimit == a.out.regLimit
    ensures r == a.(out := r.out)
  {
    a.(out := VmTape.Push(a.out, op))
  }

  lemma EmitKeepsInv(a: Allocator, op: Op, limbo: set<nat>, excused: set<nat>)
    requires Sealed(a, limbo, excused)
    ensures Sealed(Emit(a, op), limbo, excused)
  {
    Open(a, limbo, excused);
    assert Inv(Emit(a, op), limbo, excused);
  }

  /** The invariant does not depend on the order of the LRU list. */
  lemma LruKeepsInv(a: Allocator, l: seq<nat>, limbo: set<nat>, excused: set<nat>)
    requires Sealed(a, limbo, excused)
    requires Lru.IsOrder(l, a.regLimit as nat) && |l| == a.regLimit as int
    ensures Sealed(a.(registerLru := l), limbo, excused)
  {
    Open(a, limbo, excused);
    assert Inv(a.(registerLru := l), limbo, excused);
  }

  /** `get_allocation`: where node `n` lives. Only a register result marks
      that register as recently used. */
  method GetAllocation(a: Allocator, n: u32) returns (a': Allocator, r: Allocation)
    requires Valid(a) && n < |a.allocations|
    ensures Valid(a')
    ensures r.Register? <==> a.allocations[n] < a.regLimit as u32
    ensures r.Unassigned? <==> a.allocations[n] == UNSET
    ensures r.Memory? <==> IsMemorySlot(a, a.allocations[n])
    ensures r.Register? ==> r.reg as u32 == a.allocations[n] && a.registers[r.reg] == n
    ensures r.Register? ==>
      a' == a.(registerLru := Lru.Poke(a.registerLru, a.regLimit as nat, r.reg as nat))
    ensures r.Memory? ==> r.slot == a.allocations[n]
    ensures !r.Register? ==> a' == a
  {
    var i := a.allocations[n];
    if i < a.regLimit as u32 {
      a' := a.(registerLru := Lru.Poke(a.registerLru, a.regLimit as nat, i as nat));
      LruKeepsInv(a, a'.registerLru, {}, {});
      HeldRegister(a, n as nat, {}, {});
      r := Register(i as u8);
    } else if i == UNSET {
      a' := a;
      r := Unassigned;
    } else {
      a' := a;
      r := Memory(i);
    }
  }

  ////////////////////////////////////////////////////////////////////////////
  // Handing out slots

  /** `get_memory`: a spare memory slot, or else a fresh one numbered
      `slotCount`. A fresh slot is never a register number (the assert on
      line 139), because the caller only asks once every register has been
      handed out. */
  method GetMemory(a: Allocator) returns (a': Allocator, mem: u32)
    requires Valid(a)
    requires a.spareMemory == [] ==> a.regLimit as u32 <= a.out.slotCount < UNSET
    ensures Valid(a')
    ensures a.regLimit as u32 <= mem < a'.out.slotCount
    ensures MemFree(a', mem, {})
    ensures a.out.slotCount <= a'.out.slotCount <= a.out.slotCount + 1
    ensures a.spareMemory != [] ==> a'.out.slotCount == a.out.slotCount
    ensures a.spareMemory == [] ==> mem == a.out.slotCount && a'.spareMemory == []
    ensures a.spareMemory != [] ==>
      && mem == a.spareMemory[|a.spareMemory| - 1]
      && a'.spareMemory == a.spareMemory[..|a.spareMemory| - 1]
    ensures a' == a.(spareMemory := a'.spareMemory, out := a'.out)
    ensures a'.out.ops == a.out.ops && a'.out.regLimit == a.out.regLimit
  {
    if |a.spareMemory| > 0 {
      mem := a.spareMemory[|a.spareMemory| - 1];
      a' := a.(spareMemory := a.spareMemory[..|a.spareMemory| - 1]);
      SpareMemoryPopKeepsInv(a);
    } else {
      mem := a.out.slotCount;
      a' := Grown(a);
      GrowKeepsInv(a, {}, {});
    }
  }

  /** Taking the most recently freed memory slot out of the pool. */
  lemma SpareMemoryPopKeepsInv(a: Allocator)
    requires Valid(a) && |a.spareMemory| > 0
    ensures Valid(a.(spareMemory := a.spareMemory[..|a.spareMemory| - 1]))
    ensures MemFree(a.(spareMemory := a.spareMemory[..|a.spareMemory| - 1]),
                    a.spareMemory[|a.spareMemory| - 1], {})
  {
    Open(a, {}, {});
    var s := a.spareMemory;
    var a' := a.(spareMemory := s[..|s| - 1]);
    forall n | 0 <= n < |a.allocations|
      ensures a.allocations[n] != s[|s| - 1]
    {
      if a.allocations[n] == s[|s| - 1] {
        assert false;
      }
    }
    assert Inv(a', {}, {});
  }

  /** The state after one more slot is handed out. */
  function Grown(a: Allocator): (r: Allocator)
    requires a.out.slotCount < UNSET
    ensures r.out.slotCount == a.out.slotCount + 1
    ensures r.out.ops == a.out.ops && r.out.regLimit == a.out.regLimit
    ensures r == a.(out := r.out)
  {
    a.(out := a.out.(slotCount := a.out.slotCount + 1))
  }

  /** Handing out a fresh slot keeps the invariant; a fresh register goes
      to limbo, and a fresh memory slot is held by nobody. */
  lemma GrowKeepsInv(a: Allocator, limbo: set<nat>, excused: set<nat>)
    requires Sealed(a, limbo, excused) && a.out.slotCount < UNSET
    requires a.out.slotCount < a.regLimit as u32 ==> a.out.slotCount as nat !in limbo
    ensures a.out.slotCount < a.regLimit as u32 ==> a.registers[a.out.slotCount] == UNSET
    ensures a.regLimit as u32 <= a.out.slotCount ==>
      MemFree(Grown(a), a.out.slotCount as int, excused)
    ensures Sealed(Grown(a), if a.out.slotCount < a.regLimit as u32
                             then limbo + {a.out.slotCount as nat} else limbo,
                   excused)
  {
    Open(a, limbo, excused);
    var l' := if a.out.slotCount < a.regLimit as u32
              then limbo + {a.out.slotCount as nat} else limbo;
    assert Inv(Grown(a), l', excused);
  }

  /** `get_spare_register`: the most recently freed register, or else a
      fresh one, but only while `slotCount < regLimit`. */
  method GetSpareRegister(a: Allocator) returns (a': Allocator, reg: Option<u8>)
    requires Valid(a)
    ensures reg.None? <==> a.spareRegisters == [] && a.out.slotCount >= a.regLimit as u32
    ensures reg.None? ==> a' == a
    ensures reg.Some? ==>
      && Sealed(a', {reg.value as nat}, {})
      && reg.value < a.regLimit
      && a.registers[reg.value] == UNSET
      && a' == a.(spareRegisters := a'.spareRegisters, out := a'.out)
      && a'.out.ops == a.out.ops && a'.out.regLimit == a.out.regLimit
    ensures reg.Some? && a.spareRegisters == [] ==>
      && reg.value as u32 == a.out.slotCount
      && a'.out.slotCount == a.out.slotCount + 1
    ensures a.spareRegisters != [] ==>
      && reg == Some(a.spareRegisters[|a.spareRegisters| - 1])
      && a'.spareRegisters == a.spareRegisters[..|a.spareRegisters| - 1]
      && a'.out == a.out
    ensures a.spareRegisters == [] ==> a'.spareRegisters == []
  {
    if |a.spareRegisters| > 0 {
      var r := a.spareRegisters[|a.spareRegisters| - 1];
      a' := a.(spareRegisters := a.spareRegisters[..|a.spareRegisters| - 1]);
      SpareRegisterPopKeepsInv(a);
      reg := Some(r);
    } else if a.out.slotCount < a.regLimit as u32 {
      var r := a.out.slotCount;
      GrowKeepsInv(a, {}, {});
      a' := Grown(a);
      reg := Some(r as u8);
    } else {
      a' := a;
      reg := None;
    }
  }

  /** Taking the most recently freed register out of the spare pool puts it
      in limbo. */
  lemma SpareRegisterPopKeepsInv(a: Allocator)
    requires Valid(a) && |a.spareRegisters| > 0
    ensures a.spareRegisters[|a.spareRegisters| - 1] < a.regLimit
    ensures a.registers[a.spareRegisters[|a.spareRegisters| - 1]] == UNSET
    ensures Sealed(a.(spareRegisters := a.spareRegisters[..|a.spareRegisters| - 1]),
                   {a.spareRegisters[|a.spareRegisters| - 1] as nat}, {})
  {
    Open(a, {}, {});
    var s := a.spareRegisters;
    var last := s[|s| - 1];
    var a' := a.(spareRegisters := s[..|s| - 1]);
    forall r | 0 <= r < a.regLimit && r < a.out.slotCount && a.registers[r] == UNSET
      ensures r in a'.spareRegisters || r == last
    {
      var i :| 0 <= i < |s| && s[i] == r;
      if i < |s| - 1 {
        assert a'.spareRegisters[i] == r;
      }
    }
    assert Inv(a', {last as nat}, {});
  }

  /** `get_register`: an unbound register. If none is spare, the least
      recently used register is evicted: its node moves to a memory slot and
      a `Load` of that slot is emitted (evaluation runs the tape backwards,
      so the load restores the value for the evicted node's later readers). */
  method GetRegister(a: Allocator) returns (a': Allocator, reg: u8)
    requires Valid(a) && a.out.slotCount < UNSET
    ensures Sealed(a', {reg as nat}, {})
    ensures |a'.allocations| == |a.allocations| && a'.regLimit == a.regLimit
    ensures reg < a.regLimit && a'.registers[reg] == UNSET
    ensures Lru.Newest(a'.registerLru) == reg as nat
    ensures a.registers[reg] == UNSET ==>
      a'.out.ops == a.out.ops && a'.allocations == a.allocations
    ensures a.registers[reg] != UNSET ==>
      && reg as nat == a.registerLru[0]
      && a.registers[reg] < |a.allocations|
      && IsMemorySlot(a', a'.allocations[a.registers[reg]])
      && a'.out.ops == a.out.ops + [Load(reg, a'.allocations[a.registers[reg]])]
      && a'.allocations == a.allocations[a.registers[reg] := a'.allocations[a.registers[reg]]]
    ensures a'.registers == a.registers[reg := UNSET]
    ensures a.out.slotCount <= a'.out.slotCount <= a.out.slotCount + 1
    ensures a.registers[reg] != UNSET <==> a.spareRegisters == [] && a.out.slotCount >= a.regLimit as u32
    ensures a.spareRegisters != [] ==>
      && reg == a.spareRegisters[|a.spareRegisters| - 1]
      && a'.spareRegisters == a.spareRegisters[..|a.spareRegisters| - 1]
    ensures a.spareRegisters == [] && a.out.slotCount < a.regLimit as u32 ==>
      reg as u32 == a.out.slotCount && a'.out.slotCount == a.out.slotCount + 1
    ensures a.registers[reg] == UNSET ==>
      a'.registerLru == Lru.Poke(a.registerLru, a.regLimit as nat, reg as nat)
    ensures a.registers[reg] != UNSET ==>
      && a'.registerLru == Lru.Pop(a.registerLru, a.regLimit as nat).0
      && (a.spareMemory != [] ==>
            && a'.allocations[a.registers[reg]] == a.spareMemory[|a.spareMemory| - 1]
            && a'.spareMemory == a.spareMemory[..|a.spareMemory| - 1])
      && (a.spareMemory == [] ==> a'.allocations[a.registers[reg]] == a.out.slotCount)
  {
    var b, spare := GetSpareRegister(a);
    if spare.Some? {
      reg := spare.value;
      a' := b.(registerLru := Lru.Poke(b.registerLru, b.regLimit as nat, reg as nat));
      LruKeepsInv(b, a'.registerLru, {reg as nat}, {});
    } else {
      a', reg := EvictOldest(a);
    }
  }

  /** The eviction half of `get_register`, taken when no register is spare:
      the least recently used register's node moves to a memory slot, and a
      `Load` of that slot is emitted. */
  method EvictOldest(a: Allocator) returns (a': Allocator, reg: u8)
    requires Valid(a) && a.out.slotCount < UNSET
    requires a.spareRegisters == [] && a.out.slotCount >= a.regLimit as u32
    ensures Sealed(a', {reg as nat}, {})
    ensures reg as nat == a.registerLru[0] && reg < a.regLimit
    ensures a.registers[reg] != UNSET && a.registers[reg] < |a.allocations|
    ensures |a'.allocations| == |a.allocations| && a'.regLimit == a.regLimit
    ensures a'.registers[reg] == UNSET
    ensures Lru.Newest(a'.registerLru) == reg as nat
    ensures IsMemorySlot(a', a'.allocations[a.registers[reg]])
    ensures a'.out.ops == a.out.ops + [Load(reg, a'.allocations[a.registers[reg]])]
    ensures a'.allocations == a.allocations[a.registers[reg] := a'.allocations[a.registers[reg]]]
    ensures a'.registers == a.registers[reg := UNSET]
    ensures a.out.slotCount <= a'.out.slotCount <= a.out.slotCount + 1
    ensures a'.registerLru == Lru.Pop(a.registerLru, a.regLimit as nat).0
    ensures a'.spareRegisters == a.spareRegisters
    ensures a.spareMemory != [] ==>
      && a'.allocations[a.registers[reg]] == a.spareMemory[|a.spareMemory| - 1]
      && a'.spareMemory == a.spareMemory[..|a.spareMemory| - 1]
    ensures a.spareMemory == [] ==>
      && a'.allocations[a.registers[reg]] == a.out.slotCount
      && a'.out.slotCount == a.out.slotCount + 1 && a'.spareMemory == []
  {
    var popped := Lru.Pop(a.registerLru, a.regLimit as nat);
    reg := popped.1 as u8;
    var c := a.(registerLru := popped.0);
    LruKeepsInv(a, popped.0, {}, {});
    var mem;
    c, mem := GetMemory(c);
    AllBound(c, reg);
    a' := Evicted(c, reg, mem);
    EvictKeepsInv(c, reg, mem);
  }

  /** Once every register has been handed out and none is spare, every
      register is bound. */
  lemma AllBound(c: Allocator, reg: u8)
    requires Valid(c) && c.spareRegisters == [] && c.out.slotCount >= c.regLimit as u32
    requires reg < c.regLimit
    ensures c.registers[reg] != UNSET && c.registers[reg] < |c.allocations|
    ensures c.allocations[c.registers[reg]] == reg as u32
  {
    Open(c, {}, {});
  }

  /** What eviction needs: a bound register and a memory slot nobody uses. */
  ghost predicate CanEvict(c: Allocator, reg: u8, mem: u32) {
    && Valid(c) && reg < c.regLimit && c.registers[reg] != UNSET
    && c.registers[reg] < |c.allocations|
    && MemFree(c, mem, {})
  }

  /** The state after moving the node of register `reg` to slot `mem`. */
  function Evicted(c: Allocator, reg: u8, mem: u32): (r: Allocator)
    requires CanEvict(c, reg, mem)
    ensures r.out.ops == c.out.ops + [Load(reg, mem)]
    ensures |r.allocations| == |c.allocations|
    ensures r.allocations == c.allocations[c.registers[reg] := mem]
    ensures r.registers == c.registers[reg := UNSET]
    ensures r.registerLru == c.registerLru && r.regLimit == c.regLimit
    ensures r.spareRegisters == c.spareRegisters && r.spareMemory == c.spareMemory
    ensures r.out.slotCount == c.out.slotCount
  {
    c.(allocations := c.allocations[c.registers[reg] := mem],
       registers := c.registers[reg := UNSET],
       out := VmTape.Push(c.out, Load(reg, mem)))
  }

  /** Moving the node of a bound register to a free memory slot leaves the
      register in limbo. */
  lemma EvictKeepsInv(c: Allocator, reg: u8, mem: u32)
    requires CanEvict(c, reg, mem)
    ensures Sealed(Evicted(c, reg, mem), {reg as nat}, {})
  {
    Open(c, {}, {});
    EvictKeepsBindings(c, reg, mem);
    EvictKeepsRegisterPool(c, reg, mem);
    EvictKeepsMemoryPool(c, reg, mem);
  }

  lemma EvictKeepsBindings(c: Allocator, reg: u8, mem: u32)
    requires CanEvict(c, reg, mem) && Inv(c, {}, {})
    ensures Shape(Evicted(c, reg, mem)) && Bindings(Evicted(c, reg, mem))
  {
  }

  lemma EvictKeepsRegisterPool(c: Allocator, reg: u8, mem: u32)
    requires CanEvict(c, reg, mem) && Inv(c, {}, {})
    ensures Shape(Evicted(c, reg, mem)) && RegisterPool(Evicted(c, reg, mem), {reg as nat})
  {
  }

  lemma EvictKeepsMemoryPool(c: Allocator, reg: u8, mem: u32)
    requires CanEvict(c, reg, mem) && Inv(c, {}, {})
    ensures Shape(Evicted(c, reg, mem)) && MemoryPool(Evicted(c, reg, mem), {})
  {
    UpdateKeepsDistinct(c.allocations, c.regLimit, c.registers[reg] as nat, mem);
  }

  ////////////////////////////////////////////////////////////////////////////
  // Binding and releasing

  /** `bind_register`: binds a node that is not in a register to a register
      from limbo. */
  method BindRegister(a: Allocator, n: u32, reg: u8, ghost limbo: set<nat>, ghost excused: set<nat>)
    returns (a': Allocator)
    requires Sealed(a, limbo, excused)
    requires n < |a.allocations| && reg < a.regLimit && reg as nat in limbo
    requires a.allocations[n] >= a.regLimit as u32
    ensures Sealed(a', limbo - {reg as nat}, excused - {n as nat})
    ensures a'.allocations == a.allocations[n := reg as u32]
    ensures a'.registers == a.registers[reg := n]
    ensures a'.registerLru == Lru.Poke(a.registerLru, a.regLimit as nat, reg as nat)
    ensures a' == a.(allocations := a'.allocations, registers := a'.registers,
                     registerLru := a'.registerLru)
  {
    a' := Bound(a, n, reg);
    BindKeepsInv(a, n, reg, limbo, excused);
  }

  /** The state after binding `n` to `reg`. */
  function Bound(a: Allocator, n: u32, reg: u8): Allocator
    requires Shape(a) && Lru.IsOrder(a.registerLru, a.regLimit as nat)
    requires n < |a.allocations| && reg < a.regLimit
  {
    a.(registers := a.registers[reg := n],
       allocations := a.allocations[n := reg as u32],
       registerLru := Lru.Poke(a.registerLru, a.regLimit as nat, reg as nat))
  }

  lemma BindKeepsInv(a: Allocator, n: u32, reg: u8, limbo: set<nat>, excused: set<nat>)
    requires Sealed(a, limbo, excused)
    requires n < |a.allocations| && reg < a.regLimit && reg as nat in limbo
    requires a.allocations[n] >= a.regLimit as u32
    ensures Sealed(Bound(a, n, reg), limbo - {reg as nat}, excused - {n as nat})
  {
    Open(a, limbo, excused);
    BindKeepsBindings(a, n, reg, limbo, excused);
    BindKeepsPools(a, n, reg, limbo, excused);
  }

  lemma BindKeepsBindings(a: Allocator, n: u32, reg: u8, limbo: set<nat>, excused: set<nat>)
    requires Inv(a, limbo, excused)
    requires n < |a.allocations| && reg < a.regLimit && reg as nat in limbo
    requires a.allocations[n] >= a.regLimit as u32
    ensures Shape(Bound(a, n, reg)) && Bindings(Bound(a, n, reg))
  {
  }

  lemma BindKeepsPools(a: Allocator, n: u32, reg: u8, limbo: set<nat>, excused: set<nat>)
    requires Inv(a, limbo, excused)
    requires n < |a.allocations| && reg < a.regLimit && reg as nat in limbo
    requires a.allocations[n] >= a.regLimit as u32
    ensures Shape(Bound(a, n, reg))
    ensures RegisterPool(Bound(a, n, reg), limbo - {reg as nat})
    ensures MemoryPool(Bound(a, n, reg), excused - {n as nat})
  {
    UpdateKeepsDistinct(a.allocations, a.regLimit, n as nat, reg as u32);
  }

  /** `rebind_register`: hands a bound register over to a node that is not
      in a register; the register's previous node becomes unassigned. */
  method RebindRegister(a: Allocator, n: u32, reg: u8, ghost limbo: set<nat>, ghost excused: set<nat>)
    returns (a': Allocator)
    requires Sealed(a, limbo, excused)
    requires n < |a.allocations| && reg < a.regLimit
    requires a.allocations[n] >= a.regLimit as u32
    requires a.registers[reg] != UNSET
    ensures a.registers[reg] < |a.allocations|
    ensures Sealed(a', limbo, excused - {n as nat})
    ensures a'.allocations == a.allocations[a.registers[reg] := UNSET][n := reg as u32]
    ensures a'.registers == a.registers[reg := n]
    ensures a'.registerLru == Lru.Poke(a.registerLru, a.regLimit as nat, reg as nat)
    ensures a' == a.(allocations := a'.allocations, registers := a'.registers,
                     registerLru := a'.registerLru)
  {
    BoundRegister(a, reg, limbo, excused);
    a' := Rebound(a, n, reg);
    RebindKeepsInv(a, n, reg, limbo, excused);
  }

  /** The state after handing `reg` from its node to `n`. */
  function Rebound(a: Allocator, n: u32, reg: u8): Allocator
    requires Shape(a) && Lru.IsOrder(a.registerLru, a.regLimit as nat)
    requires n < |a.allocations| && reg < a.regLimit && a.registers[reg] < |a.allocations|
  {
    a.(registers := a.registers[reg := n],
       allocations := a.allocations[a.registers[reg] := UNSET][n := reg as u32],
       registerLru := Lru.Poke(a.registerLru, a.regLimit as nat, reg as nat))
  }

  lemma RebindKeepsInv(a: Allocator, n: u32, reg: u8, limbo: set<nat>, excused: set<nat>)
    requires Sealed(a, limbo, excused)
    requires n < |a.allocations| && reg < a.regLimit
    requires a.allocations[n] >= a.regLimit as u32
    requires a.registers[reg] != UNSET && a.registers[reg] < |a.allocations|
    ensures Sealed(Rebound(a, n, reg), limbo, excused - {n as nat})
  {
    Open(a, limbo, excused);
    RebindKeepsBindings(a, n, reg, limbo, excused);
    RebindKeepsPools(a, n, reg, limbo, excused);
  }

  lemma RebindKeepsBindings(a: Allocator, n: u32, reg: u8, limbo: set<nat>, excused: set<nat>)
    requires Inv(a, limbo, excused)
    requires n < |a.allocations| && reg < a.regLimit
    requires a.allocations[n] >= a.regLimit as u32
    requires a.registers[reg] != UNSET && a.registers[reg] < |a.allocations|
    ensures Shape(Rebound(a, n, reg)) && Bindings(Rebound(a, n, reg))
  {
  }

  lemma RebindKeepsPools(a: Allocator, n: u32, reg: u8, limbo: set<nat>, excused: set<nat>)
    requires Inv(a, limbo, excused)
    requires n < |a.allocations| && reg < a.regLimit
    requires a.allocations[n] >= a.regLimit as u32
    requires a.registers[reg] != UNSET && a.registers[reg] < |a.allocations|
    ensures Shape(Rebound(a, n, reg))
    ensures RegisterPool(Rebound(a, n, reg), limbo)
    ensures MemoryPool(Rebound(a, n, reg), excused - {n as nat})
  {
    RebindKeepsRegisterPool(a, n, reg, limbo, excused);
    RebindKeepsMemoryPool(a, n, reg, limbo, excused);
  }

  lemma RebindKeepsRegisterPool(a: Allocator, n: u32, reg: u8, limbo: set<nat>, excused: set<nat>)
    requires Inv(a, limbo, excused)
    requires n < |a.allocations| && reg < a.regLimit
    requires a.registers[reg] != UNSET && a.registers[reg] < |a.allocations|
    ensures Shape(Rebound(a, n, reg))
    ensures RegisterPool(Rebound(a, n, reg), limbo)
  {
  }

  lemma RebindKeepsMemoryPool(a: Allocator, n: u32, reg: u8, limbo: set<nat>, excused: set<nat>)
    requires Inv(a, limbo, excused)
    requires n < |a.allocations| && reg < a.regLimit
    requires a.allocations[n] >= a.regLimit as u32
    requires a.registers[reg] != UNSET && a.registers[reg] < |a.allocations|
    ensures Shape(Rebound(a, n, reg))
    ensures MemoryPool(Rebound(a, n, reg), excused - {n as nat})
  {
    UpdateKeepsDistinct(a.allocations, a.regLimit, a.registers[reg] as nat, UNSET);
    UpdateKeepsDistinct(a.allocations[a.registers[reg] := UNSET], a.regLimit, n as nat, reg as u32);
  }

  /** `release_reg`: unbinds a register, returns it to the spare pool and
      marks its node unassigned. */
  method ReleaseReg(a: Allocator, reg: u8, ghost limbo: set<nat>, ghost excused: set<nat>)
    returns (a': Allocator)
    requires Sealed(a, limbo, excused)
    requires reg < a.regLimit
    requires a.registers[reg] != UNSET
    ensures a.registers[reg] < |a.allocations|
    ensures Sealed(a', limbo, excused)
    ensures a'.registers == a.registers[reg := UNSET]
    ensures a'.allocations == a.allocations[a.registers[reg] := UNSET]
    ensures a'.spareRegisters == a.spareRegisters + [reg]
    ensures a' == a.(allocations := a'.allocations, registers := a'.registers,
                     spareRegisters := a'.spareRegisters)
  {
    BoundRegister(a, reg, limbo, excused);
    a' := Released(a, reg);
    ReleaseRegKeepsInv(a, reg, limbo, excused);
  }

  /** The state after returning the bound register `reg` to the spares. */
  function Released(a: Allocator, reg: u8): Allocator
    requires Shape(a) && reg < a.regLimit && a.registers[reg] < |a.allocations|
  {
    a.(registers := a.registers[reg := UNSET],
       spareRegisters := a.spareRegisters + [reg],
       allocations := a.allocations[a.registers[reg] := UNSET])
  }

  lemma ReleaseRegKeepsInv(a: Allocator, reg: u8, limbo: set<nat>, excused: set<nat>)
    requires Sealed(a, limbo, excused) && reg < a.regLimit
    requires a.registers[reg] != UNSET && a.registers[reg] < |a.allocations|
    ensures Sealed(Released(a, reg), limbo, excused)
  {
    Open(a, limbo, excused);
    ReleaseRegKeepsBindings(a, reg, limbo, excused);
    ReleaseRegKeepsPools(a, reg, limbo, excused);
  }

  lemma ReleaseRegKeepsBindings(a: Allocator, reg: u8, limbo: set<nat>, excused: set<nat>)
    requires Inv(a, limbo, excused) && reg < a.regLimit
    requires a.registers[reg] != UNSET && a.registers[reg] < |a.allocations|
    ensures Shape(Released(a, reg)) && Bindings(Released(a, reg))
  {
  }

  lemma ReleaseRegKeepsPools(a: Allocator, reg: u8, limbo: set<nat>, excused: set<nat>)
    requires Inv(a, limbo, excused) && reg < a.regLimit
    requires a.registers[reg] != UNSET && a.registers[reg] < |a.allocations|
    ensures Shape(Released(a, reg))
    ensures RegisterPool(Released(a, reg), limbo)
    ensures MemoryPool(Released(a, reg), excused)
  {
    ReleaseRegKeepsRegisterPool(a, reg, limbo, excused);
    ReleaseRegKeepsMemoryPool(a, reg, limbo, excused);
  }

  lemma ReleaseRegKeepsRegisterPool(a: Allocator, reg: u8, limbo: set<nat>, excused: set<nat>)
    requires Inv(a, limbo, excused) && reg < a.regLimit
    requires a.registers[reg] != UNSET && a.registers[reg] < |a.allocations|
    ensures Shape(Released(a, reg))
    ensures RegisterPool(Released(a, reg), limbo)
  {
  }

  lemma ReleaseRegKeepsMemoryPool(a: Allocator, reg: u8, limbo: set<nat>, excused: set<nat>)
    requires Inv(a, limbo, excused) && reg < a.regLimit
    requires a.registers[reg] != UNSET && a.registers[reg] < |a.allocations|
    ensures Shape(Released(a, reg))
    ensures MemoryPool(Released(a, reg), excused)
  {
    UpdateKeepsDistinct(a.allocations, a.regLimit, a.registers[reg] as nat, UNSET);
  }

  /** `release_mem`: returns a memory slot nobody holds to the spare pool. */
  method ReleaseMem(a: Allocator, mem: u32, ghost limbo: set<nat>, ghost excused: set<nat>)
    returns (a': Allocator)
    requires Sealed(a, limbo, excused)
    requires mem >= a.regLimit as u32
    requires MemFree(a, mem as int, excused)
    ensures Sealed(a', limbo, excused)
    ensures a'.spareMemory == a.spareMemory + [mem]
    ensures a' == a.(spareMemory := a'.spareMemory)
  {
    a' := a.(spareMemory := a.spareMemory + [mem]);
    ReleaseMemKeepsInv(a, mem, limbo, excused);
  }

  lemma ReleaseMemKeepsInv(a: Allocator, mem: u32, limbo: set<nat>, excused: set<nat>)
    requires Sealed(a, limbo, excused) && MemFree(a, mem as int, excused)
    ensures Sealed(a.(spareMemory := a.spareMemory + [mem]), limbo, excused)
  {
    Open(a, limbo, excused);
    var s := a.spareMemory + [mem];
    assert s[..|s| - 1] == a.spareMemory;
    assert Inv(a.(spareMemory := s), limbo, excused);
  }

  /** Rebinding a register to `n` leaves every other node's slot where it
      was, so a slot free of them stays free. */
  lemma FreeAfterRebind(a: Allocator, a': Allocator, n: u32, reg: u8, m: int, excused: set<nat>)
    requires Shape(a) && MemFree(a, m, excused) && n < |a.allocations| && reg < a.regLimit
    requires a.registers[reg] < |a.allocations|
    requires a'.allocations == a.allocations[a.registers[reg] := UNSET][n := reg as u32]
    requires a'.regLimit == a.regLimit && a'.out.slotCount == a.out.slotCount
    requires a'.spareMemory == a.spareMemory
    ensures MemFree(a', m, excused - {n as nat})
  {
  }

  /** Binding `n` to a register: likewise. */
  lemma FreeAfterBind(a: Allocator, a': Allocator, n: u32, reg: u8, m: int, excused: set<nat>)
    requires MemFree(a, m, excused) && n < |a.allocations| && reg < a.regLimit
    requires a'.allocations == a.allocations[n := reg as u32]
    requires a'.regLimit == a.regLimit && a'.out.slotCount == a.out.slotCount
    requires a'.spareMemory == a.spareMemory
    ensures MemFree(a', m, excused - {n as nat})
  {
  }

  /** Storing to one slot leaves every other free slot free. */
  lemma FreeAfterStore(a: Allocator, a': Allocator, mem: u32, m: int, excused: set<nat>)
    requires MemFree(a, m, excused) && m != mem as int
    requires a'.allocations == a.allocations && a'.spareMemory == a.spareMemory + [mem]
    requires a'.regLimit == a.regLimit && a'.out.slotCount == a.out.slotCount
    ensures MemFree(a', m, excused)
  {
  }

  /** `push_store`: emits exactly `Store(reg, mem)` and returns `mem` to the
      spare pool. */
  method PushStore(a: Allocator, reg: u8, mem: u32, ghost limbo: set<nat>, ghost excused: set<nat>)
    returns (a': Allocator)
    requires Sealed(a, limbo, excused)
    requires mem >= a.regLimit as u32 && MemFree(a, mem as int, excused)
    ensures Sealed(a', limbo, excused)
    ensures a'.out.ops == a.out.ops + [Store(reg, mem)]
    ensures a'.spareMemory == a.spareMemory + [mem]
    ensures a' == a.(out := a'.out, spareMemory := a'.spareMemory)
    ensures a'.out.slotCount == a.out.slotCount && a'.out.regLimit == a.out.regLimit
  {
    a' := Emit(a, Store(reg, mem));
    EmitKeepsInv(a, Store(reg, mem), limbo, excused);
    a' := ReleaseMem(a', mem, limbo, excused);
  }

  ////////////////////////////////////////////////////////////////////////////
  // Construction and reuse

  /** `Vec::resize`: truncates `s` to `size` entries, or pads it with `v`. */
  function Resize(s: seq<u32>, size: nat, v: u32): (r: seq<u32>)
    ensures |r| == size
    ensures forall i :: 0 <= i < size ==> r[i] == if i < |s| then s[i] else v
  {
    if size <= |s| then s[..size] else s + seq(size - |s|, _ => v)
  }

  /** The state `new` builds before it binds node 0: every node unassigned,
      every register free, nothing spare, and an empty tape in which slot 0
      is already counted. */
  function Unbound(regLimit: u8, size: nat): Allocator {
    Allocator(seq(size, _ => UNSET), seq(REGISTER_COUNT, _ => UNSET),
              Lru.New(regLimit as nat), regLimit, [], [], VmTape.New(regLimit))
  }

  /** Before node 0 is bound, register 0 (counted by the tape but neither
      bound nor spare) is the one register in limbo. */
  lemma UnboundKeepsInv(regLimit: u8, size: nat)
    requires 1 <= regLimit && 1 <= size <= UNSET as nat
    ensures Sealed(Unbound(regLimit, size), {0}, {})
  {
    var u := Unbound(regLimit, size);
    assert Inv(u, {0}, {});
  }

  /** Node 0 in register 0, every other node unassigned and every other
      register free, nothing spare, and an empty tape. */
  ghost predicate NewState(a: Allocator, regLimit: u8, size: nat) {
    && a.regLimit == regLimit && |a.allocations| == size && |a.registers| == REGISTER_COUNT
    && 1 <= size && Where(a, 0) == Register(0) && a.registers[0] == 0
    && (forall n :: 1 <= n < size ==> Where(a, n) == Unassigned)
    && (forall r :: 1 <= r < REGISTER_COUNT ==> a.registers[r] == UNSET)
    && a.spareRegisters == [] && a.spareMemory == []
    && VmTape.IsEmpty(a.out) && a.out == VmTape.New(regLimit)
  }

  /** `new`: node 0 is bound to register 0, every other node is unassigned
      and every other register free, nothing is spare, the tape is empty;
      and the allocator is ready to lower operations. With `size == 0`
      there is no node 0 to bind (`allocations[0]` is out of bounds). A
      register limit of zero is excluded as well: the invariant asks for at
      least one register, and whether poking register 0 of an empty LRU
      order succeeds depends on `lru.rs`, which is not part of this
      model. */
  function New(regLimit: u8, size: nat): (a: Allocator)
    requires 1 <= regLimit && 1 <= size <= UNSET as nat
    ensures Valid(a)
    ensures NewState(a, regLimit, size)
  {
    NodeZeroBound(regLimit, size);
    Bound(Unbound(regLimit, size), 0, 0)
  }

  lemma NodeZeroBound(regLimit: u8, size: nat)
    requires 1 <= regLimit && 1 <= size <= UNSET as nat
    ensures Shape(Unbound(regLimit, size))
    ensures Lru.IsOrder(Unbound(regLimit, size).registerLru, regLimit as nat)
    ensures Valid(Bound(Unbound(regLimit, size), 0, 0))
    ensures NewState(Bound(Unbound(regLimit, size), 0, 0), regLimit, size)
  {
    var u := Unbound(regLimit, size);
    UnboundKeepsInv(regLimit, size);
    BindKeepsInv(u, 0, 0, {0}, {});
    assert {0} - {0 as nat} == {};
  }

  /** `empty`: a placeholder with no nodes, no registers and an empty tape.
      It cannot lower anything until it is reset. */
  function Empty(): (a: Allocator)
    ensures |a.allocations| == 0 && a.regLimit == 0
    ensures a.spareRegisters == [] && a.spareMemory == []
    ensures VmTape.IsEmpty(a.out)
    ensures !Valid(a)
  {
    Allocator([], seq(REGISTER_COUNT, _ => UNSET), Lru.New(0), 0, [], [], VmTape.New(0))
  }

  /** `reset_with_storage`: clears every table, adopts `tape` as the output
      (reset to the new limit), and binds node 0 again. The previous output
      must have been claimed (the assert on line 104). Whatever state it
      starts from, the result is exactly what `new` builds. */
  function ResetWithStorage(a: Allocator, regLimit: u8, size: nat, tape: VmTape.Tape): (r: Allocator)
    requires VmTape.IsEmpty(a.out)
    requires 1 <= regLimit && 1 <= size <= UNSET as nat
    ensures r == New(regLimit, size)
  {
    var cleared := a.(
      allocations := Resize(seq(|a.allocations|, _ => UNSET), size, UNSET),
      registers := seq(REGISTER_COUNT, _ => UNSET),
      registerLru := Lru.New(regLimit as nat),
      regLimit := regLimit,
      spareRegisters := [],
      spareMemory := [],
      out := VmTape.Reset(tape, regLimit));
    assert cleared == Unbound(regLimit, size);
    UnboundKeepsInv(regLimit, size);
    Bound(cleared, 0, 0)
  }

  /** `reset`: `reset_with_storage` with a default tape. */
  function Reset(a: Allocator, regLimit: u8, size: nat): (r: Allocator)
    requires VmTape.IsEmpty(a.out)
    requires 1 <= regLimit && 1 <= size <= UNSET as nat
    ensures r == New(regLimit, size)
  {
    ResetWithStorage(a, regLimit, size, VmTape.Default())
  }

  /** `finalize`: hands over the output tape and leaves an empty default
      one behind, so that the allocator may be reset and reused. */
  function Finalize(a: Allocator): (r: (Allocator, VmTape.Tape))
    ensures r.1 == a.out
    ensures VmTape.IsEmpty(r.0.out)
    ensures r.0 == a.(out := r.0.out)
  {
    (a.(out := VmTape.Default()), a.out)
  }

  /** The reuse cycle: an allocator that has finished one tape can be reset
      with that tape's storage, and the result is a fresh allocator, as if
      built by `new`. */
  lemma ReuseAfterFinalize(a: Allocator, regLimit: u8, size: nat)
    requires 1 <= regLimit && 1 <= size <= UNSET as nat
    ensures var (spent, tape) := Finalize(a);
            ResetWithStorage(spent, regLimit, size, tape) == New(regLimit, size)
  {
  }
}

=== FILE: context_op.dfy ===
/** The nodes of a math expression graph, and how they are drawn in
    Graphviz `dot` syntax.

    A node is a variable, a constant, or a unary or binary operation whose
    operands are other nodes, named by their index in the graph. Drawing a
    node gives it a colour and a shape; drawing the edges to its operands
    writes one `dot` edge line per operand, coloured like the node. */
module ContextOp {
  import opened Results

  /** An index into the expression graph (`Node` and `VarNode` alike). */
  type Node = nat

  /** An `f64` constant. Its arithmetic is not modelled: it is carried as
      an opaque bit pattern. */
  datatype Float = Float(bits: nat)

  datatype UnaryOpcode = Neg | Abs | Recip | Sqrt | Square

  datatype BinaryOpcode = Add | Mul | Sub | Min | Max

  datatype Op =
    | Var(v: Node)
    | Const(value: Float)
    | Binary(bop: BinaryOpcode, lhs: Node, rhs: Node)
    | Unary(uop: UnaryOpcode, arg: Node)

  ////////////////////////////////////////////////////////////////////////////
  // Children

  /** The values held by a list of optional slots, in slot order. */
  function Flatten(s: seq<Option<Node>>): (r: seq<Node>)
    ensures |r| <= |s|
  {
    if s == [] then []
    else (if s[0].Some? then [s[0].value] else []) + Flatten(s[1..])
  }

  /** `iter_children`: the operands of a node, left to right. The source
      fills a two-slot array (the second slot empty for a unary node, both
      for a leaf) and skips the empty slots. */
  function IterChildren(op: Op): (r: seq<Node>)
    ensures op.Binary? ==> r == [op.lhs, op.rhs]
    ensures op.Unary? ==> r == [op.arg]
    ensures op.Var? || op.Const? ==> r == []
  {
    var slots := match op
      case Binary(_, a, b) => [Some(a), Some(b)]
      case Unary(_, a) => [Some(a), None]
      case _ => [None, None];
    FlattenPair(slots[0], slots[1]);
    assert slots == [slots[0], slots[1]];
    Flatten(slots)
  }

  lemma FlattenPair(x: Option<Node>, y: Option<Node>)
    ensures Flatten([x, y]) == (if x.Some? then [x.value] else []) + (if y.Some? then [y.value] else [])
  {
    assert [x, y][1..] == [y];
    assert [y][1..] == [];
  }

  ////////////////////////////////////////////////////////////////////////////
  // Colours and shapes

  /** The four X11 colour names the graph uses. */
  const Palette: set<string> := {"red", "green", "goldenrod", "dodgerblue"}

  /** `dot_color_to_rgb`: the hex code of one of the four palette names;
      any other name is an error (the source panics). */
  function DotColorToRgb(s: string): (r: Result<string, string>)
    ensures r.Ok? <==> s in Palette
    ensures r.Ok? ==> |r.value| == 7 && r.value[0] == '#'
    ensures r.Err? ==> r.error == "Unknown X11 color '" + s + "'"
  {
    if s == "red" then Ok("#FF0000")
    else if s == "green" then Ok("#00FF00")
    else if s == "goldenrod" then Ok("#DAA520")
    else if s == "dodgerblue" then Ok("#1E90FF")
    else Err("Unknown X11 color '" + s + "'")
  }

  /** Distinct palette names have distinct hex codes, so the colour of an
      edge line tells which kind of node it leaves. */
  lemma RgbInjective(s: string, t: string)
    requires s in Palette && t in Palette && s != t
    ensures DotColorToRgb(s).value != DotColorToRgb(t).value
  {
    assert DotColorToRgb(s).value[1] != DotColorToRgb(t).value[1];
  }

  /** `dot_node_color`: constants green, variables red, `min` and `max`
      dodgerblue, every other operation goldenrod. Every colour it returns
      has a hex code, so drawing an edge never fails. */
  function DotNodeColor(op: Op): (r: string)
    ensures r in Palette
    ensures DotColorToRgb(r).Ok?
    ensures r == "green" <==> op.Const?
    ensures r == "red" <==> op.Var?
    ensures r == "dodgerblue" <==> op.Binary? && op.bop in {Min, Max}
    ensures r == "goldenrod" <==> |IterChildren(op)| > 0 && !(op.Binary? && op.bop in {Min, Max})
  {
    match op
    case Const(_) => "green"
    case Var(_) => "red"
    case Binary(Min, _, _) => "dodgerblue"
    case Binary(Max, _, _) => "dodgerblue"
    case Binary(_, _, _) => "goldenrod"
    case Unary(_, _) => "goldenrod"
  }

  /** `dot_node_shape`: constants are ovals, variables circles, and exactly
      the nodes with operands are boxes. */
  function DotNodeShape(op: Op): (r: string)
    ensures r in {"oval", "circle", "box"}
    ensures r == "oval" <==> op.Const?
    ensures r == "circle" <==> op.Var?
    ensures r == "box" <==> |IterChildren(op)| > 0
  {
    match op
    case Const(_) => "oval"
    case Var(_) => "circle"
    case Binary(_, _, _) => "box"
    case Unary(_, _) => "box"
  }

  ////////////////////////////////////////////////////////////////////////////
  // Decimal numbers, as `format!("{}")` writes a `usize`

  predicate IsDigit(c: char) {
    '0' <= c <= '9'
  }

  predicate AllDigits(s: string) {
    forall i :: 0 <= i < |s| ==> IsDigit(s[i])
  }

  function DigitChar(d: nat): (c: char)
    requires d < 10
    ensures IsDigit(c)
  {
    "0123456789"[d]
  }

  function DigitValue(c: char): (d: nat)
    requires IsDigit(c)
    ensures d < 10 && DigitChar(d) == c
  {
    (c as int - '0' as int) as nat
  }

  /** The decimal digits of `n`, most significant first, without leading
      zeros. */
  function Decimal(n: nat): (s: string)
    ensures |s| >= 1 && AllDigits(s)
    ensures s[0] == '0' ==> n == 0 && |s| == 1
    decreases n
  {
    if n < 10 then [DigitChar(n)] else Decimal(n / 10) + [DigitChar(n % 10)]
  }

  /** The value of a string of decimal digits. */
  function ParseDecimal(s: string): nat
    requires AllDigits(s)
    decreases |s|
  {
    if |s| == 0 then 0 else ParseDecimal(s[..|s| - 1]) * 10 + DigitValue(s[|s| - 1])
  }

  /** Reading back a written number gives the number. */
  lemma {:induction false} ParseDecimalOfDecimal(n: nat)
    ensures ParseDecimal(Decimal(n)) == n
    decreases n
  {
    if n >= 10 {
      var s := Decimal(n);
      ParseDecimalOfDecimal(n / 10);
      assert s[..|s| - 1] == Decimal(n / 10);
      assert DigitValue(s[|s| - 1]) == n % 10;
      assert n == (n / 10) * 10 + n % 10;
    }
  }

  /** A digit string without leading zeros is written back exactly as it
      was read. */
  lemma {:induction false} DecimalOfParseDecimal(s: string)
    requires |s| >= 1 && AllDigits(s) && (s[0] == '0' ==> |s| == 1)
    ensures Decimal(ParseDecimal(s)) == s
    decreases |s|
  {
    if |s| > 1 {
      var init := s[..|s| - 1];
      DecimalOfParseDecimal(init);
      ParseDecimalPositive(init);
      var n := ParseDecimal(s);
      assert n / 10 == ParseDecimal(init) && n % 10 == DigitValue(s[|s| - 1]);
      assert s == init + [s[|s| - 1]];
    }
  }

  lemma {:induction false} ParseDecimalPositive(s: string)
    requires |s| >= 1 && AllDigits(s) && s[0] != '0'
    ensures ParseDecimal(s) >= 1
    decreases |s|
  {
    if |s| > 1 {
      ParseDecimalPositive(s[..|s| - 1]);
    }
  }

  /** The length of the run of digits that starts `s`. */
  function DigitRun(s: string): (k: nat)
    ensures k <= |s| && AllDigits(s[..k])
    ensures k < |s| ==> !IsDigit(s[k])
  {
    if |s| > 0 && IsDigit(s[0]) then
      var k := 1 + DigitRun(s[1..]);
      assert s[..k] == [s[0]] + s[1..][..k - 1];
      k
    else 0
  }

  lemma {:induction false} DigitRunAppend(u: string, t: string)
    requires AllDigits(u) && (t == [] || !IsDigit(t[0]))
    ensures DigitRun(u + t) == |u|
    decreases |u|
  {
    if |u| > 0 {
      assert (u + t)[1..] == u[1..] + t;
      DigitRunAppend(u[1..], t);
    }
  }

  ////////////////////////////////////////////////////////////////////////////
  // Edge lines

  /** An edge of the drawn graph: from node, to node, colour code. */
  datatype Edge = Edge(from: Node, to: Node, color: string)

  const Arrow: string := " -> n"
  const ColorOpen: string := " [color = \""
  const ColorClose: string := "\"]\n"

  /** `s` without the prefix `p`, if `s` starts with `p`. */
  function Expect(p: string, s: string): (r: Option<string>)
    ensures r.Some? <==> |p| <= |s| && s[..|p|] == p
    ensures r.Some? ==> s == p + r.value
  {
    if |p| <= |s| && s[..|p|] == p then Some(s[|p|..]) else None
  }

  /** A decimal number at the start of `s`, and what follows it. Only
      the form `format!` writes is accepted: no leading zeros, since `n01`
      and `n1` would name different nodes. */
  function Number(s: string): Option<(nat, string)> {
    var k := DigitRun(s);
    if k == 0 || (s[0] == '0' && k > 1) then None else Some((ParseDecimal(s[..k]), s[k..]))
  }

  lemma NumberOfDecimal(n: nat, t: string)
    requires t == [] || !IsDigit(t[0])
    ensures Number(Decimal(n) + t) == Some((n, t))
  {
    var s := Decimal(n) + t;
    DigitRunAppend(Decimal(n), t);
    assert s[..|Decimal(n)|] == Decimal(n);
    ParseDecimalOfDecimal(n);
  }

  /** A number is read only from its written form. */
  lemma DecimalOfNumber(s: string)
    requires Number(s).Some?
    ensures s == Decimal(Number(s).value.0) + Number(s).value.1
  {
    var k := DigitRun(s);
    DecimalOfParseDecimal(s[..k]);
    assert s == s[..k] + s[k..];
  }

  /** Reads one edge line `n<from> -> n<to> [color = "<color>"]` ending in
      a newline; `None` if `line` is not of that form. */
  function ParseEdge(line: string): Option<Edge> {
    match Expect("n", line)
    case None => None
    case Some(s) =>
      match Number(s)
      case None => None
      case Some(p) => ParseArrow(p.0, p.1)
  }

  /** The rest of an edge line after its `from` node. */
  function ParseArrow(from: Node, s: string): Option<Edge> {
    match Expect(Arrow, s)
    case None => None
    case Some(s') =>
      match Number(s')
      case None => None
      case Some(p) => ParseColor(from, p.0, p.1)
  }

  /** The rest of an edge line after its `to` node. */
  function ParseColor(from: Node, to: Node, s: string): Option<Edge> {
    match Expect(ColorOpen, s)
    case None => None
    case Some(s') =>
      if |s'| >= |ColorClose| && s'[|s'| - |ColorClose|..] == ColorClose
      then Some(Edge(from, to, s'[..|s'| - |ColorClose|]))
      else None
  }

  lemma ExpectPrefix(p: string, t: string)
    ensures Expect(p, p + t) == Some(t)
  {
    assert (p + t)[..|p|] == p;
  }

  /** The line `dot_edge` writes for an edge. */
  function EdgeLine(a: Node, b: Node, color: string): string {
    "n" + (Decimal(a) + (Arrow + (Decimal(b) + (ColorOpen + (color + ColorClose)))))
  }

  lemma ParseColorLine(a: Node, b: Node, color: string)
    ensures ParseColor(a, b, ColorOpen + (color + ColorClose)) == Some(Edge(a, b, color))
  {
    ExpectPrefix(ColorOpen, color + ColorClose);
    var s' := color + ColorClose;
    assert s'[|s'| - |ColorClose|..] == ColorClose;
    assert s'[..|s'| - |ColorClose|] == color;
  }

  lemma ParseArrowLine(a: Node, b: Node, color: string)
    ensures ParseArrow(a, Arrow + (Decimal(b) + (ColorOpen + (color + ColorClose)))) == Some(Edge(a, b, color))
  {
    var tail := ColorOpen + (color + ColorClose);
    ExpectPrefix(Arrow, Decimal(b) + tail);
    NumberOfDecimal(b, tail);
    ParseColorLine(a, b, color);
  }

  /** An edge line reads back as the edge it was written for. */
  lemma ParseEdgeLine(a: Node, b: Node, color: string)
    ensures ParseEdge(EdgeLine(a, b, color)) == Some(Edge(a, b, color))
  {
    var tail := Arrow + (Decimal(b) + (ColorOpen + (color + ColorClose)));
    ExpectPrefix("n", Decimal(a) + tail);
    NumberOfDecimal(a, tail);
    ParseArrowLine(a, b, color);
  }

  /** Reading the colour part back gives exactly the text it was read
      from. */
  lemma ColorLineOfParse(from: Node, to: Node, s: string)
    requires ParseColor(from, to, s).Some?
    ensures var e := ParseColor(from, to, s).value;
            e.from == from && e.to == to && s == ColorOpen + (e.color + ColorClose)
  {
    var s' := Expect(ColorOpen, s).value;
    assert s' == s'[..|s'| - |ColorClose|] + ColorClose;
  }

  lemma ArrowLineOfParse(from: Node, s: string)
    requires ParseArrow(from, s).Some?
    ensures var e := ParseArrow(from, s).value;
            e.from == from && s == Arrow + (Decimal(e.to) + (ColorOpen + (e.color + ColorClose)))
  {
    var s' := Expect(Arrow, s).value;
    var p := Number(s').value;
    DecimalOfNumber(s');
    ColorLineOfParse(from, p.0, p.1);
  }

  /** The parser accepts nothing but written edge lines: whatever it reads
      is exactly the line `EdgeLine` writes for the edge it returns. With
      `ParseEdgeLine` this makes `ParseEdge` and `EdgeLine` inverse. */
  lemma EdgeLineOfParse(line: string)
    requires ParseEdge(line).Some?
    ensures var e := ParseEdge(line).value;
            line == EdgeLine(e.from, e.to, e.color)
  {
    var s := Expect("n", line).value;
    var p := Number(s).value;
    DecimalOfNumber(s);
    ArrowLineOfParse(p.0, p.1);
  }

  /** `dot_edge`: one edge line from node `a` to node `b`, in the hex code
      of this node's colour followed by `alpha`. It never fails: the node's
      colour is always in the palette. */
  method DotEdge(op: Op, a: Node, b: Node, alpha: string) returns (r: string)
    ensures ParseEdge(r) == Some(Edge(a, b, DotColorToRgb(DotNodeColor(op)).value + alpha))
    ensures NoNewline(alpha) ==> OneLine(r)
  {
    var color := DotColorToRgb(DotNodeColor(op)).value + alpha;
    r := EdgeLine(a, b, color);
    ParseEdgeLine(a, b, color);
    if NoNewline(alpha) {
      RgbNoNewline(DotNodeColor(op));
      JoinNoNewline(DotColorToRgb(DotNodeColor(op)).value, alpha);
      EdgeLineOneLine(a, b, color);
    }
  }

  ////////////////////////////////////////////////////////////////////////////
  // The edges of a node

  /** The length of the first line of `s`, its newline included (all of
      `s` if it has none). */
  function LineLength(s: string): (k: nat)
    ensures k <= |s| && (|s| > 0 ==> k >= 1)
    ensures k < |s| ==> s[k - 1] == '\n'
  {
    if |s| == 0 then 0
    else if s[0] == '\n' then 1
    else 1 + LineLength(s[1..])
  }

  /** `s` is one line: its only newline is its last character. */
  predicate OneLine(s: string) {
    && |s| >= 1 && s[|s| - 1] == '\n'
    && forall i :: 0 <= i < |s| - 1 ==> s[i] != '\n'
  }

  /** `s` is empty or ends a line. */
  predicate Complete(s: string) {
    |s| == 0 || s[|s| - 1] == '\n'
  }

  /** Cuts a text into its lines, each with its newline (the last one
      without, if the text does not end a line). */
  function SplitLines(s: string): seq<string>
    decreases |s|
  {
    if |s| == 0 then []
    else
      var k := LineLength(s);
      [s[..k]] + SplitLines(s[k..])
  }

  /** The first line of `s + t` is the first line of `s`, when `s` holds
      a newline. */
  lemma {:induction false} LineLengthAppend(s: string, t: string)
    requires |s| > 0 && s[LineLength(s) - 1] == '\n'
    ensures LineLength(s + t) == LineLength(s)
    decreases |s|
  {
    if s[0] != '\n' {
      assert (s + t)[1..] == s[1..] + t;
      LineLengthAppend(s[1..], t);
    }
  }

  /** A single line is cut as itself. */
  lemma {:induction false} LineLengthOfLine(line: string)
    requires OneLine(line)
    ensures LineLength(line) == |line|
    decreases |line|
  {
    if |line| > 1 {
      LineLengthOfLine(line[1..]);
    }
  }

  /** Writing one more line after a text that ends a line adds exactly that
      line. */
  lemma {:induction false} SplitLinesAppend(s: string, line: string)
    requires Complete(s) && OneLine(line)
    ensures SplitLines(s + line) == SplitLines(s) + [line]
    decreases |s|
  {
    var t := s + line;
    if |s| == 0 {
      assert t == line;
      LineLengthOfLine(line);
      assert line[..|line|] == line && line[|line|..] == [];
    } else {
      var k := LineLength(s);
      assert s[k - 1] == '\n';
      assert LineLength(t) == k by {
        LineLengthAppend(s, line);
      }
      assert t[..k] == s[..k];
      assert t[k..] == s[k..] + line;
      assert Complete(s[k..]);
      SplitLinesAppend(s[k..], line);
      AppendAssoc([s[..k]], SplitLines(s[k..]), [line]);
    }
  }

  lemma AppendAssoc<T>(a: seq<T>, b: seq<T>, c: seq<T>)
    ensures a + (b + c) == (a + b) + c
  {
  }

  predicate NoNewline(s: string) {
    forall i :: 0 <= i < |s| ==> s[i] != '\n'
  }

  lemma PrependToLine(u: string, v: string)
    requires NoNewline(u) && OneLine(v)
    ensures OneLine(u + v)
  {
    var w := u + v;
    forall i | 0 <= i < |w| - 1
      ensures w[i] != '\n'
    {
      if i >= |u| {
        assert w[i] == v[i - |u|];
      }
    }
  }

  lemma RgbNoNewline(s: string)
    requires s in Palette
    ensures NoNewline(DotColorToRgb(s).value)
  {
  }

  lemma JoinNoNewline(u: string, v: string)
    requires NoNewline(u) && NoNewline(v)
    ensures NoNewline(u + v)
  {
    var w := u + v;
    forall i | 0 <= i < |w|
      ensures w[i] != '\n'
    {
      if i >= |u| {
        assert w[i] == v[i - |u|];
      }
    }
  }

  /** An edge line is one line, unless its colour breaks it. */
  lemma EdgeLineOneLine(a: Node, b: Node, color: string)
    requires NoNewline(color)
    ensures OneLine(EdgeLine(a, b, color))
  {
    PrependToLine(color, ColorClose);
    PrependToLine(ColorOpen, color + ColorClose);
    PrependToLine(Decimal(b), ColorOpen + (color + ColorClose));
    PrependToLine(Arrow, Decimal(b) + (ColorOpen + (color + ColorClose)));
    PrependToLine(Decimal(a), Arrow + (Decimal(b) + (ColorOpen + (color + ColorClose))));
    PrependToLine("n", Decimal(a) + (Arrow + (Decimal(b) + (ColorOpen + (color + ColorClose)))));
  }

  /** `dot_edges`: one edge line per operand of the node `i`, in operand
      order, each in the node's colour with alpha `FF`. */
  method DotEdges(op: Op, i: Node) returns (out: string)
    ensures |SplitLines(out)| == |IterChildren(op)|
    ensures forall k :: 0 <= k < |IterChildren(op)| ==>
      ParseEdge(SplitLines(out)[k])
        == Some(Edge(i, IterChildren(op)[k], DotColorToRgb(DotNodeColor(op)).value + "FF"))
  {
    var cs := IterChildren(op);
    var color := DotColorToRgb(DotNodeColor(op)).value + "FF";
    assert NoNewline("FF");
    out := "";
    ghost var lines: seq<string> := [];
    for k := 0 to |cs|
      invariant Complete(out) && SplitLines(out) == lines && |lines| == k
      invariant forall j :: 0 <= j < k ==> ParseEdge(lines[j]) == Some(Edge(i, cs[j], color))
    {
      var line := DotEdge(op, i, cs[k], "FF");
      EdgesStep(out, lines, line, i, cs, color, k);
      out := out + line;
      lines := lines + [line];
    }
  }

  /** One more edge line keeps what `DotEdges` has written so far. */
  lemma EdgesStep(out: string, lines: seq<string>, line: string, i: Node, cs: seq<Node>, color: string, k: nat)
    requires k < |cs| && Complete(out) && SplitLines(out) == lines && |lines| == k
    requires forall j :: 0 <= j < k ==> ParseEdge(lines[j]) == Some(Edge(i, cs[j], color))
    requires OneLine(line) && ParseEdge(line) == Some(Edge(i, cs[k], color))
    ensures Complete(out + line) && SplitLines(out + line) == lines + [line]
    ensures forall j :: 0 <= j < k + 1 ==> ParseEdge((lines + [line])[j]) == Some(Edge(i, cs[j], color))
  {
    SplitLinesAppend(out, line);
    forall j | 0 <= j < k + 1
      ensures ParseEdge((lines + [line])[j]) == Some(Edge(i, cs[j], color))
    {
      if j < k {
        assert (lines + [line])[j] == lines[j];
      } else {
        assert (lines + [line])[j] == line;
      }
    }
  }
}

=== FILE: lowering.dfy ===
/** Lowering SSA operations into VM operations: `get_out_reg`, `op_reg_fn`,
    `op_reg_reg`, `op_out_only` and the `op` dispatch of the register
    allocator, built from the primitive steps of `Alloc`.

    The tape is walked from the root towards the leaves, so an operation is
    lowered after every operation that reads its result. When it is lowered,
    its output node already has a home (a register or a memory slot, given
    to it by a reader); its arguments may have a home or not. The emitted VM
    ops run in reverse order, so a `Store` emitted after an op executes
    before it, and a `Load` emitted before it executes after it. */
module Lowering {
  import opened Results
  import opened VmOp
  import Ssa = SsaOp
  import Lru
  import opened Alloc

  /** The three ways lowering can fail. All are panics in the source. */
  datatype AllocError =
    | UnassignedOutput   // the output node has no home: nothing reads it
    | InputOutOfRange    // an `Input` index does not fit the VM's `u8`
    | OutOfRegisters     // two distinct arguments, but only one register

  ////////////////////////////////////////////////////////////////////////////
  // The VM operation an SSA operation becomes

  /** The VM operation `op` lowers to, writing `rx` and reading `ins`: the
      constructor each `op_*` method hands to `op_reg_fn`, `op_reg_reg` or
      `op_out_only`. */
  function Instr(op: Ssa.Op, rx: u8, ins: seq<u8>): (r: Op)
    requires |ins| == |Ssa.Args(op)|
    requires op.Input? ==> op.index < 0x100
    ensures Output(r) == Some(rx)
    ensures Inputs(r) == ins
    ensures Immediate(r) == Ssa.Immediate(op)
    ensures !IsSpill(r)
    ensures op.Var? ==> r.Var? && r.index == op.index
    ensures op.Input? ==> r.Input? && r.input as u32 == op.index
  {
    if Ssa.IsRegReg(op) then InstrRegReg(op, rx, ins[0], ins[1])
    else if Ssa.IsRegImm(op) then InstrRegImm(op, rx, ins[0])
    else if Ssa.IsReg(op) then InstrReg(op, rx, ins[0])
    else InstrOutOnly(op, rx)
  }

  function InstrOutOnly(op: Ssa.Op, rx: u8): (r: Op)
    requires !Ssa.IsReg(op) && !Ssa.IsRegImm(op) && !Ssa.IsRegReg(op)
    requires op.Input? ==> op.index < 0x100
    ensures Output(r) == Some(rx) && Inputs(r) == []
    ensures Immediate(r) == Ssa.Immediate(op) && !IsSpill(r)
    ensures op.Var? ==> r.Var? && r.index == op.index
    ensures op.Input? ==> r.Input? && r.input as u32 == op.index
  {
    match op
    case Var(_, i) => Var(rx, i)
    case Input(_, i) => Input(rx, i as u8)
    case CopyImm(_, imm) => CopyImm(rx, imm)
  }

  function InstrReg(op: Ssa.Op, rx: u8, ry: u8): (r: Op)
    requires Ssa.IsReg(op)
    ensures Output(r) == Some(rx) && Inputs(r) == [ry]
    ensures Immediate(r) == Ssa.Immediate(op) && !IsSpill(r)
  {
    match op
    case NegReg(_, _) => NegReg(rx, ry)
    case AbsReg(_, _) => AbsReg(rx, ry)
    case RecipReg(_, _) => RecipReg(rx, ry)
    case SqrtReg(_, _) => SqrtReg(rx, ry)
    case SquareReg(_, _) => SquareReg(rx, ry)
    case ExpReg(_, _) => ExpReg(rx, ry)
    case CopyReg(_, _) => CopyReg(rx, ry)
    case SineReg(_, _) => SineReg(rx, ry)
    case CosineReg(_, _) => CosineReg(rx, ry)
  }

  function InstrRegImm(op: Ssa.Op, rx: u8, ry: u8): (r: Op)
    requires Ssa.IsRegImm(op)
    ensures Output(r) == Some(rx) && Inputs(r) == [ry]
    ensures Immediate(r) == Ssa.Immediate(op) && !IsSpill(r)
  {
    match op
    case AddRegImm(_, _, imm) => AddRegImm(rx, ry, imm)
    case SubRegImm(_, _, imm) => SubRegImm(rx, ry, imm)
    case SubImmReg(_, _, imm) => SubImmReg(rx, ry, imm)
    case MulRegImm(_, _, imm) => MulRegImm(rx, ry, imm)
    case DivRegImm(_, _, imm) => DivRegImm(rx, ry, imm)
    case DivImmReg(_, _, imm) => DivImmReg(rx, ry, imm)
    case MinRegImm(_, _, imm) => MinRegImm(rx, ry, imm)
    case MaxRegImm(_, _, imm) => MaxRegImm(rx, ry, imm)
  }

  function InstrRegReg(op: Ssa.Op, rx: u8, ry: u8, rz: u8): (r: Op)
    requires Ssa.IsRegReg(op)
    ensures Output(r) == Some(rx) && Inputs(r) == [ry, rz]
    ensures Immediate(r) == Ssa.Immediate(op) && !IsSpill(r)
  {
    match op
    case AddRegReg(_, _, _) => AddRegReg(rx, ry, rz)
    case SubRegReg(_, _, _) => SubRegReg(rx, ry, rz)
    case MulRegReg(_, _, _) => MulRegReg(rx, ry, rz)
    case DivRegReg(_, _, _) => DivRegReg(rx, ry, rz)
    case MinRegReg(_, _, _) => MinRegReg(rx, ry, rz)
    case MaxRegReg(_, _, _) => MaxRegReg(rx, ry, rz)
  }

  /** Lowering keeps the operation's name: `NegReg` becomes `NegReg`, and
      so on. */
  lemma InstrKeepsName(op: Ssa.Op, rx: u8, ins: seq<u8>)
    requires |ins| == |Ssa.Args(op)|
    requires op.Input? ==> op.index < 0x100
    ensures Name(Instr(op, rx, ins)) == Ssa.Name(op)
  {
    if Ssa.IsRegReg(op) {
      RegRegKeepsName(op, rx, ins[0], ins[1]);
    } else if Ssa.IsRegImm(op) {
      RegImmKeepsName(op, rx, ins[0]);
    } else if Ssa.IsReg(op) {
      RegKeepsName(op, rx, ins[0]);
    }
  }

  lemma RegRegKeepsName(op: Ssa.Op, rx: u8, ry: u8, rz: u8)
    requires Ssa.IsRegReg(op)
    ensures Name(InstrRegReg(op, rx, ry, rz)) == Ssa.Name(op)
  {
  }

  lemma RegImmKeepsName(op: Ssa.Op, rx: u8, ry: u8)
    requires Ssa.IsRegImm(op)
    ensures Name(InstrRegImm(op, rx, ry)) == Ssa.Name(op)
  {
  }

  lemma RegKeepsName(op: Ssa.Op, rx: u8, ry: u8)
    requires Ssa.IsReg(op)
    ensures Name(InstrReg(op, rx, ry)) == Ssa.Name(op)
  {
  }

  ////////////////////////////////////////////////////////////////////////////
  // What lowering promises

  /** Every node `op` names is a valid index into `allocations`. */
  predicate InRange(a: Allocator, op: Ssa.Op) {
    && op.out < |a.allocations|
    && forall i :: 0 <= i < |Ssa.Args(op)| ==> Ssa.Args(op)[i] < |a.allocations|
  }

  /** What lowering `op` asks of the allocator: the invariant, SSA form,
      node indices in range, and room for two fresh slots below
      `u32::MAX`. */
  ghost predicate CanLower(a: Allocator, op: Ssa.Op) {
    && Valid(a)
    && Ssa.IsSsa(op)
    && InRange(a, op)
    && a.out.slotCount as int + 2 <= UNSET as int
  }

  /** `post` extends `pre` with `Load`s and `Store`s only. */
  ghost predicate OnlySpills(pre: seq<Op>, post: seq<Op>) {
    && |pre| <= |post| && post[..|pre|] == pre
    && NonSpills(post[|pre|..]) == []
  }

  /** `b` extends `a`'s tape with `Load`s and `Store`s only. */
  ghost predicate SpillsOnly(a: Allocator, b: Allocator) {
    && OnlySpills(a.out.ops, b.out.ops)
    && |b.allocations| == |a.allocations| && b.regLimit == a.regLimit
    && a.out.slotCount <= b.out.slotCount
  }

  /** `post` extends `pre` with exactly one op other than `Load` and
      `Store`, among any number of spills. */
  ghost predicate OneOp(pre: seq<Op>, post: seq<Op>) {
    && |pre| <= |post| && post[..|pre|] == pre
    && |NonSpills(post[|pre|..])| == 1
  }

  /** That op. */
  ghost function MainOp(pre: seq<Op>, post: seq<Op>): Op
    requires OneOp(pre, post)
  {
    NonSpills(post[|pre|..])[0]
  }

  /** Node `n` was evicted between `a` and `b`: it left its register for a
      memory slot, and the ops `b` added load that register from that slot
      (a load that runs, backwards, after the node's later readers). */
  ghost predicate Spilled(a: Allocator, b: Allocator, n: u32) {
    && n < |a.allocations| && n < |b.allocations| && |a.out.ops| <= |b.out.ops|
    && a.allocations[n] < a.regLimit as u32
    && IsMemorySlot(b, b.allocations[n])
    && Load(a.allocations[n] as u8, b.allocations[n]) in b.out.ops[|a.out.ops|..]
  }

  /** Between `a` and `b`, every node other than `out` and `args` kept its
      slot or was evicted. */
  ghost predicate Framed(a: Allocator, b: Allocator, out: u32, args: seq<u32>) {
    && |b.allocations| == |a.allocations|
    && forall n: u32 :: n < |a.allocations| && n != out && n !in args ==>
         b.allocations[n] == a.allocations[n] || Spilled(a, b, n)
  }

  /** Between `a` and `b`, every node other than `out` and `args` kept its
      slot. */
  ghost predicate Kept(a: Allocator, b: Allocator, out: u32, args: seq<u32>) {
    && |b.allocations| == |a.allocations|
    && forall n: u32 :: n < |a.allocations| && n != out && n !in args ==>
         b.allocations[n] == a.allocations[n]
  }

  /** `a'` is `a` after emitting `main` as the lowering of an operation
      that defines node `out` from the nodes `args`: the invariant holds,
      the tape gained `main` and otherwise only spills, `main` writes some
      register `rx` and reads one register per argument, each of which now
      holds that argument's node, `out` is no longer allocated, `rx` went
      back to the spare pool exactly when `main` does not read it, and
      every other node is where it was unless it was evicted. */
  ghost predicate Placed(a: Allocator, a': Allocator, out: u32, args: seq<u32>, main: Op) {
    && Valid(a')
    && Framed(a, a', out, args)
    && |a'.allocations| == |a.allocations| && a'.regLimit == a.regLimit
    && a.out.slotCount <= a'.out.slotCount
    && OneOp(a.out.ops, a'.out.ops) && MainOp(a.out.ops, a'.out.ops) == main
    && Output(main).Some? && Output(main).value < a.regLimit
    && |Inputs(main)| == |args|
    && (forall i :: 0 <= i < |args| ==>
          args[i] < |a'.allocations| && a'.allocations[args[i]] == Inputs(main)[i] as u32)
    && out < |a'.allocations| && a'.allocations[out] == UNSET
    && (Output(main).value in a'.spareRegisters <==> Output(main).value !in Inputs(main))
  }

  /** `a'` is `a` after lowering `op`: the one operation it emitted besides
      spills is `op`'s counterpart, placed as above. */
  ghost predicate Lowered(a: Allocator, a': Allocator, op: Ssa.Op) {
    && OneOp(a.out.ops, a'.out.ops)
    && (op.Input? ==> op.index < 0x100)
    && var main := MainOp(a.out.ops, a'.out.ops);
       && Placed(a, a', op.out, Ssa.Args(op), main)
       && main == Instr(op, Output(main).value, Inputs(main))
  }

  /** A tape is its own extension by no spills. */
  lemma NoSpills(pre: seq<Op>)
    ensures OnlySpills(pre, pre)
  {
    assert pre[|pre|..] == [];
  }

  /** A tape grown by spills, one op, and spills. */
  lemma EmitsOne(pre: seq<Op>, mid: seq<Op>, main: Op, post: seq<Op>)
    requires OnlySpills(pre, mid) && !IsSpill(main) && NonSpills(post) == []
    ensures OneOp(pre, mid + [main] + post)
    ensures MainOp(pre, mid + [main] + post) == main
  {
    var s1 := mid[|pre|..];
    var all := mid + [main] + post;
    assert all == pre + (s1 + [main] + post);
    assert all[|pre|..] == s1 + [main] + post;
    NonSpillsAppend(s1, [main]);
    NonSpillsAppend(s1 + [main], post);
    assert NonSpills([main]) == [main] + NonSpills([]);
  }

  /** Two stores are spills only. */
  lemma TwoStores(x: Op, y: Op)
    requires x.Store? && y.Store?
    ensures NonSpills([x, y]) == []
  {
    NonSpillsFilters([x, y]);
  }

  /** Spills followed by one more spill are still spills only. */
  lemma SpillsThen(pre: seq<Op>, mid: seq<Op>, spill: Op)
    requires OnlySpills(pre, mid) && IsSpill(spill)
    ensures OnlySpills(pre, mid + [spill])
  {
    var s := mid[|pre|..];
    assert mid == pre + s;
    assert (mid + [spill])[|pre|..] == s + [spill];
    NonSpillsAppend(s, [spill]);
  }

  /** Spills in front of one op do not change which op it is. */
  lemma OneOpAfterSpills(pre: seq<Op>, mid: seq<Op>, post: seq<Op>)
    requires OnlySpills(pre, mid) && OneOp(mid, post)
    ensures OneOp(pre, post) && MainOp(pre, post) == MainOp(mid, post)
  {
    var s := mid[|pre|..];
    var t := post[|mid|..];
    assert mid == pre + s;
    assert post == mid + t;
    assert post[|pre|..] == s + t;
    NonSpillsAppend(s, t);
  }

  /** An op among those appended to `s` after its first `j` is among
      those appended after any earlier point, and stays there as the tape
      grows to `t`. */
  lemma InLaterOps(s: seq<Op>, t: seq<Op>, i: nat, j: nat, x: Op)
    requires i <= j <= |s| <= |t| && t[..|s|] == s && x in s[j..]
    ensures x in t[i..]
  {
    var k :| 0 <= k < |s[j..]| && s[j..][k] == x;
    assert t[i..][j - i + k] == x;
  }

  /** Two steps that each keep or evict the nodes outside `out` and `args`
      together keep or evict them: a node evicted in one step is in memory,
      so the other step leaves it alone. */
  lemma FramedThen(a: Allocator, b: Allocator, c: Allocator, out: u32, args: seq<u32>)
    requires Framed(a, b, out, args) && Framed(b, c, out, args)
    requires a.regLimit == b.regLimit == c.regLimit
    requires |a.out.ops| <= |b.out.ops| <= |c.out.ops| && c.out.ops[..|b.out.ops|] == b.out.ops
    ensures Framed(a, c, out, args)
  {
    forall n: u32 | n < |a.allocations| && n != out && n !in args
      ensures c.allocations[n] == a.allocations[n] || Spilled(a, c, n)
    {
      if c.allocations[n] != a.allocations[n] {
        if b.allocations[n] == a.allocations[n] {
          assert Spilled(b, c, n);
          var load := Load(a.allocations[n] as u8, c.allocations[n]);
          InLaterOps(c.out.ops, c.out.ops, |a.out.ops|, |b.out.ops|, load);
        } else {
          assert Spilled(a, b, n);
          var load := Load(a.allocations[n] as u8, b.allocations[n]);
          InLaterOps(b.out.ops, c.out.ops, |a.out.ops|, |a.out.ops|, load);
        }
      }
    }
  }

  /** Spills emitted before an arm do not change what the arm placed, as
      long as they only evicted nodes. */
  lemma PlacedAfterSpills(a: Allocator, d: Allocator, a': Allocator, out: u32, args: seq<u32>, main: Op)
    requires SpillsOnly(a, d) && Framed(a, d, out, args) && Placed(d, a', out, args, main)
    ensures Placed(a, a', out, args, main)
  {
    OneOpAfterSpills(a.out.ops, d.out.ops, a'.out.ops);
    FramedThen(a, d, a', out, args);
  }

  /** What an arm of `op_reg_fn` establishes, stated per argument. */
  lemma PlaceUnary(d: Allocator, a': Allocator, out: u32, arg: u32, main: Op, rx: u8, ry: u8, post: seq<Op>)
    requires Valid(a') && |a'.allocations| == |d.allocations| && a'.regLimit == d.regLimit
    requires d.out.slotCount <= a'.out.slotCount
    requires a'.out.ops == d.out.ops + [main] + post && NonSpills(post) == []
    requires !IsSpill(main) && Output(main) == Some(rx) && Inputs(main) == [ry] && rx < d.regLimit
    requires arg < |a'.allocations| && a'.allocations[arg] == ry as u32
    requires out < |a'.allocations| && a'.allocations[out] == UNSET
    requires rx < a'.out.slotCount && (a'.registers[rx] == UNSET <==> rx != ry)
    requires Kept(d, a', out, [arg])
    ensures Placed(d, a', out, [arg], main)
  {
    Open(a', {}, {});
    NoSpills(d.out.ops);
    EmitsOne(d.out.ops, d.out.ops, main, post);
  }

  /** What an arm of `op_reg_reg` establishes, stated per argument. */
  lemma PlaceBinary(d: Allocator, a': Allocator, out: u32, lhs: u32, rhs: u32, main: Op,
                    rx: u8, ry: u8, rz: u8, post: seq<Op>)
    requires Valid(a') && |a'.allocations| == |d.allocations| && a'.regLimit == d.regLimit
    requires d.out.slotCount <= a'.out.slotCount
    requires a'.out.ops == d.out.ops + [main] + post && NonSpills(post) == []
    requires !IsSpill(main) && Output(main) == Some(rx) && Inputs(main) == [ry, rz] && rx < d.regLimit
    requires lhs < |a'.allocations| && a'.allocations[lhs] == ry as u32
    requires rhs < |a'.allocations| && a'.allocations[rhs] == rz as u32
    requires out < |a'.allocations| && a'.allocations[out] == UNSET
    requires rx < a'.out.slotCount && (a'.registers[rx] == UNSET <==> rx != ry && rx != rz)
    requires Kept(d, a', out, [lhs, rhs])
    ensures Placed(d, a', out, [lhs, rhs], main)
  {
    Open(a', {}, {});
    NoSpills(d.out.ops);
    EmitsOne(d.out.ops, d.out.ops, main, post);
  }

  ////////////////////////////////////////////////////////////////////////////
  // get_out_reg

  /** `get_out_reg`: a register bound to `out`. A node in memory is brought
      into a register; an unassigned output is an error. */
  method GetOutReg(a: Allocator, out: u32) returns (a': Allocator, r: Result<u8, AllocError>)
    requires Valid(a) && out < |a.allocations| && a.out.slotCount < UNSET
    ensures r.Err? <==> a.allocations[out] == UNSET
    ensures r.Err? ==> a' == a && r.error == UnassignedOutput
    ensures r.Ok? ==>
      && Valid(a') && SpillsOnly(a, a') && Framed(a, a', out, [])
      && a'.out.slotCount as int <= a.out.slotCount as int + 1
      && r.value < a'.regLimit
      && a'.registers[r.value] == out && a'.allocations[out] == r.value as u32
      && Lru.Newest(a'.registerLru) == r.value as nat
    ensures a.allocations[out] < a.regLimit as u32 ==>
      && r == Ok(a.allocations[out] as u8)
      && a' == a.(registerLru := Lru.Poke(a.registerLru, a.regLimit as nat, r.value as nat))
    ensures r.Ok? && IsMemorySlot(a, a.allocations[out]) ==>
      && |a.out.ops| < |a'.out.ops|
      && a'.out.ops[|a'.out.ops| - 1] == Store(r.value, a.allocations[out])
  {
    var alloc;
    a', alloc := GetAllocation(a, out);
    match alloc
    case Register(rx) =>
      r := Ok(rx);
      assert a'.out == a.out && a.out.ops[|a.out.ops|..] == [] && a.out.ops[..|a.out.ops|] == a.out.ops;
    case Memory(mx) =>
      var ra;
      a', ra := LoadOutput(a, out);
      r := Ok(ra);
    case Unassigned =>
      r := Err(UnassignedOutput);
  }

  /** The memory arm of `get_out_reg`: a register is taken (possibly by
      eviction), a `Store` of it to the node's slot is emitted, the slot is
      freed and the node is bound to the register. */
  method LoadOutput(a: Allocator, out: u32) returns (a': Allocator, ra: u8)
    requires Valid(a) && out < |a.allocations| && a.out.slotCount < UNSET
    requires IsMemorySlot(a, a.allocations[out])
    ensures Valid(a') && SpillsOnly(a, a') && Framed(a, a', out, [])
    ensures a'.out.slotCount as int <= a.out.slotCount as int + 1
    ensures ra < a'.regLimit
    ensures a'.registers[ra] == out && a'.allocations[out] == ra as u32
    ensures Lru.Newest(a'.registerLru) == ra as nat
    ensures |a.out.ops| < |a'.out.ops|
    ensures a'.out.ops[|a'.out.ops| - 1] == Store(ra, a.allocations[out])
  {
    var mx := a.allocations[out];
    var b;
    b, ra := GetRegister(a);
    if a.registers[ra] != UNSET {
      BoundRegister(a, ra, {}, {});
      EvictFramed(a, b, a.registers[ra], ra, b.allocations[a.registers[ra]], out, []);
    }
    a' := StoreAndBind(b, out, ra);
    assert a'.out.ops[..|b.out.ops|] == b.out.ops;
    FramedThen(a, b, a', out, []);
    if a.registers[ra] != UNSET {
      SpillsThen(a.out.ops, a.out.ops, Load(ra, b.allocations[a.registers[ra]]));
    } else {
      assert a.out.ops[|a.out.ops|..] == [];
    }
    SpillsThen(a.out.ops, b.out.ops, Store(ra, mx));
  }

  /** Evicting node `n` from register `reg` to slot `m`, with the `Load`
      that goes with it, keeps or evicts every node. */
  lemma EvictFramed(a: Allocator, b: Allocator, n: u32, reg: u8, m: u32, out: u32, args: seq<u32>)
    requires n < |a.allocations| && reg < a.regLimit && a.allocations[n] == reg as u32
    requires b.regLimit == a.regLimit && IsMemorySlot(b, m)
    requires b.allocations == a.allocations[n := m]
    requires b.out.ops == a.out.ops + [Load(reg, m)]
    ensures Framed(a, b, out, args)
  {
    assert b.out.ops[|a.out.ops|..] == [Load(reg, m)];
    assert Spilled(a, b, n);
  }

  /** The second half of the memory arm of `get_out_reg`: `ra` (in limbo)
      takes over `out`'s value, whose memory slot is freed. */
  method StoreAndBind(b: Allocator, out: u32, ra: u8) returns (a': Allocator)
    requires Sealed(b, {ra as nat}, {}) && out < |b.allocations| && ra < b.regLimit
    requires IsMemorySlot(b, b.allocations[out])
    ensures Valid(a')
    ensures a'.out.ops == b.out.ops + [Store(ra, b.allocations[out])]
    ensures a'.out.slotCount == b.out.slotCount
    ensures a'.allocations == b.allocations[out := ra as u32] && a'.regLimit == b.regLimit
    ensures a'.registers[ra] == out
    ensures Lru.Newest(a'.registerLru) == ra as nat
  {
    HeldSlot(b, out as nat, {ra as nat}, {});
    assert {} + {out as nat} == {out as nat};
    a' := PushStore(b, ra, b.allocations[out], {ra as nat}, {out as nat});
    a' := BindRegister(a', out, ra, {ra as nat}, {out as nat});
    assert {ra as nat} - {ra as nat} == {} && {out as nat} - {out as nat} == {};
  }


  ////////////////////////////////////////////////////////////////////////////
  // op_reg_fn

  /** The state every arm of `op_reg_fn` and `op_reg_reg` starts from: the
      output node `out` is bound to `rx`. */
  ghost predicate Ready(d: Allocator, out: u32, rx: u8) {
    && Valid(d) && out < |d.allocations|
    && rx < d.regLimit && d.registers[rx] == out && d.allocations[out] == rx as u32
  }

  /** `main` is an operation (not a spill) that writes `rx` and reads
      `ins`. */
  predicate Writes(main: Op, rx: u8, ins: seq<u8>) {
    !IsSpill(main) && Output(main) == Some(rx) && Inputs(main) == ins
  }

  /** The constructors `op_reg_fn` is handed: `mk(x, y)` writes `x` and
      reads `y`. */
  ghost predicate UnaryMaker(mk: (u8, u8) -> Op) {
    forall x: u8, y: u8 :: Writes(mk(x, y), x, [y])
  }

  /** `r_x = op ...` followed by `rebind_register(n, r_x)`: the head of every
      arm that hands the output register over to an argument. */
  method HandOver(d: Allocator, main: Op, n: u32, rx: u8, ghost limbo: set<nat>, ghost excused: set<nat>)
    returns (b: Allocator)
    requires Sealed(d, limbo, excused) && n < |d.allocations| && rx < d.regLimit
    requires d.allocations[n] >= d.regLimit as u32 && d.registers[rx] != UNSET
    ensures d.registers[rx] < |d.allocations|
    ensures Sealed(b, limbo, excused - {n as nat})
    ensures b.out.ops == d.out.ops + [main] && b.out.slotCount == d.out.slotCount
    ensures b.allocations == d.allocations[d.registers[rx] := UNSET][n := rx as u32]
    ensures b.registers == d.registers[rx := n]
    ensures b.regLimit == d.regLimit && b.spareMemory == d.spareMemory
    ensures rx < b.out.slotCount
  {
    BoundRegister(d, rx, limbo, excused);
    b := Emit(d, main);
    EmitKeepsInv(d, main, limbo, excused);
    b := RebindRegister(b, n, rx, limbo, excused);
  }

  /** `op_reg_fn`, argument in `ry`: `r_x = op r_y`; afterwards `rx` is
      free. */
  method FnArmR(d: Allocator, out: u32, arg: u32, rx: u8, ry: u8, main: Op) returns (a': Allocator)
    requires Ready(d, out, rx) && arg < |d.allocations| && arg != out
    requires ry < d.regLimit && d.allocations[arg] == ry as u32
    requires Writes(main, rx, [ry])
    ensures rx != ry
    ensures Placed(d, a', out, [arg], main)
    ensures a'.out.ops == d.out.ops + [main]
    ensures a'.out.slotCount == d.out.slotCount
  {
    HeldRegister(d, arg as nat, {}, {});
    BoundRegister(d, rx, {}, {});
    a' := Emit(d, main);
    EmitKeepsInv(d, main, {}, {});
    a' := ReleaseReg(a', rx, {}, {});
    assert a'.out.ops == d.out.ops + [main] + [];
    PlaceUnary(d, a', out, arg, main, rx, ry, []);
  }

  /** `op_reg_fn`, argument in slot `my`: `r_x = op r_x`, then `rx` is
      handed to the argument, whose value is stored from `rx` to `my` (a
      store that runs before the op); `my` is free afterwards. */
  method FnArmM(d: Allocator, out: u32, arg: u32, rx: u8, my: u32, main: Op) returns (a': Allocator)
    requires Ready(d, out, rx) && arg < |d.allocations| && arg != out
    requires IsMemorySlot(d, d.allocations[arg]) && my == d.allocations[arg]
    requires Writes(main, rx, [rx])
    ensures Placed(d, a', out, [arg], main)
    ensures a'.out.ops == d.out.ops + [main, Store(rx, my)]
    ensures a'.out.slotCount == d.out.slotCount
    ensures my in a'.spareMemory
  {
    ghost var held := {arg as nat};
    HeldSlot(d, arg as nat, {}, {});
    assert {} + held == held;
    var b := HandOver(d, main, arg, rx, {}, held);
    FreeAfterRebind(d, b, arg, rx, my as int, held);
    assert held - held == {};
    a' := PushStore(b, rx, my, {}, {});
    assert a'.out.ops == d.out.ops + [main] + [Store(rx, my)];
    PlaceUnary(d, a', out, arg, main, rx, rx, [Store(rx, my)]);
  }

  /** `op_reg_fn`, argument unassigned: `r_x = op r_x`, and `rx` is handed
      to the argument. */
  method FnArmU(d: Allocator, out: u32, arg: u32, rx: u8, main: Op) returns (a': Allocator)
    requires Ready(d, out, rx) && arg < |d.allocations| && arg != out
    requires d.allocations[arg] == UNSET
    requires Writes(main, rx, [rx])
    ensures Placed(d, a', out, [arg], main)
    ensures a'.out.ops == d.out.ops + [main]
    ensures a'.out.slotCount == d.out.slotCount
  {
    a' := HandOver(d, main, arg, rx, {}, {});
    assert {} - {arg as nat} == {};
    assert a'.out.ops == d.out.ops + [main] + [];
    PlaceUnary(d, a', out, arg, main, rx, rx, []);
  }

  /** `op_reg_fn`: lowers an operation that defines `out` from the single
      node `arg`, emitting `mk(rx, ry)` where `rx` holds the output and `ry`
      the argument. */
  method RegFn(a: Allocator, out: u32, arg: u32, mk: (u8, u8) -> Op)
    returns (r: Result<Allocator, AllocError>)
    requires Valid(a) && out < |a.allocations| && arg < |a.allocations| && out != arg
    requires a.out.slotCount < UNSET
    requires UnaryMaker(mk)
    ensures r.Err? <==> a.allocations[out] == UNSET
    ensures r.Err? ==> r.error == UnassignedOutput
    ensures r.Ok? ==>
      && OneOp(a.out.ops, r.value.out.ops)
      && var main := MainOp(a.out.ops, r.value.out.ops);
         && Placed(a, r.value, out, [arg], main)
         && main == mk(Output(main).value, Inputs(main)[0])
    ensures r.Ok? ==> r.value.out.slotCount as int <= a.out.slotCount as int + 1
    ensures r.Ok? && a.allocations[out] < a.regLimit as u32 && a.allocations[arg] < a.regLimit as u32 ==>
      r.value.out.ops == a.out.ops + [mk(a.allocations[out] as u8, a.allocations[arg] as u8)]
  {
    var c, x := GetOutReg(a, out);
    if x.Err? {
      return Err(x.error);
    }
    var b := FnArms(c, out, arg, x.value, mk);
    PlacedAfterSpills(a, c, b, out, [arg], MainOp(c.out.ops, b.out.ops));
    r := Ok(b);
  }

  /** `op_reg_fn` once the output is in `rx`: looks up the argument (which
      marks it recently used if it is in a register) and takes the arm its
      allocation selects. */
  method FnArms(c: Allocator, out: u32, arg: u32, rx: u8, mk: (u8, u8) -> Op) returns (b: Allocator)
    requires Ready(c, out, rx) && arg < |c.allocations| && arg != out && UnaryMaker(mk)
    ensures OneOp(c.out.ops, b.out.ops)
    ensures var main := MainOp(c.out.ops, b.out.ops);
      && Placed(c, b, out, [arg], main)
      && main == mk(Output(main).value, Inputs(main)[0])
    ensures b.out.slotCount == c.out.slotCount
    ensures c.allocations[arg] < c.regLimit as u32 ==>
      b.out.ops == c.out.ops + [mk(rx, c.allocations[arg] as u8)]
  {
    var d, al := GetAllocation(c, arg);
    match al {
      case Register(ry) =>
        b := FnArmR(d, out, arg, rx, ry, mk(rx, ry));
        assert Writes(mk(rx, ry), rx, [ry]);
      case Memory(my) =>
        b := FnArmM(d, out, arg, rx, my, mk(rx, rx));
        assert Writes(mk(rx, rx), rx, [rx]);
      case Unassigned =>
        b := FnArmU(d, out, arg, rx, mk(rx, rx));
        assert Writes(mk(rx, rx), rx, [rx]);
    }
    PlacedSameTape(c, d, b, out, [arg], MainOp(d.out.ops, b.out.ops));
  }

  /** `Placed` only looks at the tape, the allocations and the limit of
      the state it starts from. */
  lemma PlacedSameTape(c: Allocator, d: Allocator, b: Allocator, out: u32, args: seq<u32>, main: Op)
    requires c.out == d.out && c.allocations == d.allocations && c.regLimit == d.regLimit
    requires Placed(d, b, out, args, main)
    ensures Placed(c, b, out, args, main)
  {
  }

  /** `op_reg`: lowers a one-register operation through `op_reg_fn`. */
  method OpReg(a: Allocator, op: Ssa.Op) returns (r: Result<Allocator, AllocError>)
    requires CanLower(a, op) && Ssa.IsReg(op)
    ensures r.Err? <==> a.allocations[op.out] == UNSET
    ensures r.Err? ==> r.error == UnassignedOutput
    ensures r.Ok? ==> Lowered(a, r.value, op)
  {
    Ssa.ArgsShape(op);
    assert Ssa.Args(op)[0] == op.arg;
    r := RegFn(a, op.out, op.arg, (x: u8, y: u8) => InstrReg(op, x, y));
  }

  /** `op_reg_imm`: lowers a register/immediate operation through
      `op_reg_fn`, the immediate riding along in the constructor. */
  method OpRegImm(a: Allocator, op: Ssa.Op) returns (r: Result<Allocator, AllocError>)
    requires CanLower(a, op) && Ssa.IsRegImm(op)
    ensures r.Err? <==> a.allocations[op.out] == UNSET
    ensures r.Err? ==> r.error == UnassignedOutput
    ensures r.Ok? ==> Lowered(a, r.value, op)
  {
    Ssa.ArgsShape(op);
    assert Ssa.Args(op)[0] == op.arg;
    r := RegFn(a, op.out, op.arg, (x: u8, y: u8) => InstrRegImm(op, x, y));
  }

  ////////////////////////////////////////////////////////////////////////////
  // op_reg_reg

  /** The constructors `op_reg_reg` uses: `mk(x, y, z)` writes `x` and
      reads `y` and `z`. */
  ghost predicate BinaryMaker(mk: (u8, u8, u8) -> Op) {
    forall x: u8, y: u8, z: u8 :: Writes(mk(x, y, z), x, [y, z])
  }

  /** The entry state of an arm of `op_reg_reg`, whose arguments are `lhs`
      and `rhs`. */
  ghost predicate ReadyBinary(d: Allocator, out: u32, lhs: u32, rhs: u32, rx: u8) {
    && Ready(d, out, rx)
    && lhs < |d.allocations| && rhs < |d.allocations| && lhs != out && rhs != out
  }

  /** `(r_y, r_z)`: `r_x = op r_y r_z`; afterwards `rx` is free. */
  method ArmRR(d: Allocator, out: u32, lhs: u32, rhs: u32, rx: u8, ry: u8, rz: u8, main: Op)
    returns (a': Allocator)
    requires ReadyBinary(d, out, lhs, rhs, rx)
    requires ry < d.regLimit && d.allocations[lhs] == ry as u32
    requires rz < d.regLimit && d.allocations[rhs] == rz as u32
    requires Writes(main, rx, [ry, rz])
    ensures rx != ry && rx != rz
    ensures Placed(d, a', out, [lhs, rhs], main)
    ensures a'.out.ops == d.out.ops + [main]
    ensures a'.out.slotCount == d.out.slotCount
  {
    HeldRegister(d, lhs as nat, {}, {});
    HeldRegister(d, rhs as nat, {}, {});
    BoundRegister(d, rx, {}, {});
    a' := Emit(d, main);
    EmitKeepsInv(d, main, {}, {});
    a' := ReleaseReg(a', rx, {}, {});
    assert a'.out.ops == d.out.ops + [main] + [];
    PlaceBinary(d, a', out, lhs, rhs, main, rx, ry, rz, []);
  }

  /** `(m_y, r_z)`: `r_x = op r_x r_z`, then `rx` is handed to `lhs`, whose
      value is stored from `rx` to `my`; `my` is free afterwards. */
  method ArmMR(d: Allocator, out: u32, lhs: u32, rhs: u32, rx: u8, my: u32, rz: u8, main: Op)
    returns (a': Allocator)
    requires ReadyBinary(d, out, lhs, rhs, rx)
    requires IsMemorySlot(d, d.allocations[lhs]) && my == d.allocations[lhs]
    requires rz < d.regLimit && d.allocations[rhs] == rz as u32
    requires Writes(main, rx, [rx, rz])
    ensures Placed(d, a', out, [lhs, rhs], main)
    ensures a'.out.ops == d.out.ops + [main, Store(rx, my)]
    ensures a'.out.slotCount == d.out.slotCount
    ensures my in a'.spareMemory
  {
    ghost var held := {lhs as nat};
    HeldSlot(d, lhs as nat, {}, {});
    assert {} + held == held;
    var b := HandOver(d, main, lhs, rx, {}, held);
    FreeAfterRebind(d, b, lhs, rx, my as int, held);
    assert held - held == {};
    a' := PushStore(b, rx, my, {}, {});
    assert a'.out.ops == d.out.ops + [main] + [Store(rx, my)];
    PlaceBinary(d, a', out, lhs, rhs, main, rx, rx, rz, [Store(rx, my)]);
  }

  /** `(r_y, m_z)`: the mirror image of `ArmMR`. */
  method ArmRM(d: Allocator, out: u32, lhs: u32, rhs: u32, rx: u8, ry: u8, mz: u32, main: Op)
    returns (a': Allocator)
    requires ReadyBinary(d, out, lhs, rhs, rx)
    requires ry < d.regLimit && d.allocations[lhs] == ry as u32
    requires IsMemorySlot(d, d.allocations[rhs]) && mz == d.allocations[rhs]
    requires Writes(main, rx, [ry, rx])
    ensures Placed(d, a', out, [lhs, rhs], main)
    ensures a'.out.ops == d.out.ops + [main, Store(rx, mz)]
    ensures a'.out.slotCount == d.out.slotCount
    ensures mz in a'.spareMemory
  {
    ghost var held := {rhs as nat};
    HeldSlot(d, rhs as nat, {}, {});
    assert {} + held == held;
    var b := HandOver(d, main, rhs, rx, {}, held);
    FreeAfterRebind(d, b, rhs, rx, mz as int, held);
    assert held - held == {};
    a' := PushStore(b, rx, mz, {}, {});
    assert a'.out.ops == d.out.ops + [main] + [Store(rx, mz)];
    PlaceBinary(d, a', out, lhs, rhs, main, rx, ry, rx, [Store(rx, mz)]);
  }

  /** `(m_y, m_y)` with `lhs == rhs`: `r_x = op r_x r_x`, then `rx` is
      handed to the argument, whose value is stored to `my`. No second
      register is taken. */
  method ArmMMSame(d: Allocator, out: u32, arg: u32, rx: u8, my: u32, main: Op)
    returns (a': Allocator)
    requires ReadyBinary(d, out, arg, arg, rx)
    requires IsMemorySlot(d, d.allocations[arg]) && my == d.allocations[arg]
    requires Writes(main, rx, [rx, rx])
    ensures Placed(d, a', out, [arg, arg], main)
    ensures a'.out.ops == d.out.ops + [main, Store(rx, my)]
    ensures a'.out.slotCount == d.out.slotCount
    ensures my in a'.spareMemory
  {
    ghost var held := {arg as nat};
    HeldSlot(d, arg as nat, {}, {});
    assert {} + held == held;
    var b := HandOver(d, main, arg, rx, {}, held);
    FreeAfterRebind(d, b, arg, rx, my as int, held);
    assert held - held == {};
    a' := PushStore(b, rx, my, {}, {});
    assert a'.out.ops == d.out.ops + [main] + [Store(rx, my)];
    PlaceBinary(d, a', out, arg, arg, main, rx, rx, rx, [Store(rx, my)]);
  }

  /** `(U, r_z)`: `r_x = op r_x r_z`, and `rx` is handed to `lhs`. */
  method ArmUR(d: Allocator, out: u32, lhs: u32, rhs: u32, rx: u8, rz: u8, main: Op)
    returns (a': Allocator)
    requires ReadyBinary(d, out, lhs, rhs, rx)
    requires d.allocations[lhs] == UNSET
    requires rz < d.regLimit && d.allocations[rhs] == rz as u32
    requires Writes(main, rx, [rx, rz])
    ensures Placed(d, a', out, [lhs, rhs], main)
    ensures a'.out.ops == d.out.ops + [main]
    ensures a'.out.slotCount == d.out.slotCount
  {
    a' := HandOver(d, main, lhs, rx, {}, {});
    assert {} - {lhs as nat} == {};
    assert a'.out.ops == d.out.ops + [main] + [];
    PlaceBinary(d, a', out, lhs, rhs, main, rx, rx, rz, []);
  }

  /** `(r_y, U)`: the mirror image of `ArmUR`. */
  method ArmRU(d: Allocator, out: u32, lhs: u32, rhs: u32, rx: u8, ry: u8, main: Op)
    returns (a': Allocator)
    requires ReadyBinary(d, out, lhs, rhs, rx)
    requires ry < d.regLimit && d.allocations[lhs] == ry as u32
    requires d.allocations[rhs] == UNSET
    requires Writes(main, rx, [ry, rx])
    ensures Placed(d, a', out, [lhs, rhs], main)
    ensures a'.out.ops == d.out.ops + [main]
    ensures a'.out.slotCount == d.out.slotCount
  {
    a' := HandOver(d, main, rhs, rx, {}, {});
    assert {} - {rhs as nat} == {};
    assert a'.out.ops == d.out.ops + [main] + [];
    PlaceBinary(d, a', out, lhs, rhs, main, rx, ry, rx, []);
  }

  /** `(U, U)` with `lhs == rhs`: `r_x = op r_x r_x`, and `rx` is handed to
      the argument. No second register is taken. */
  method ArmUUSame(d: Allocator, out: u32, arg: u32, rx: u8, main: Op)
    returns (a': Allocator)
    requires ReadyBinary(d, out, arg, arg, rx)
    requires d.allocations[arg] == UNSET
    requires Writes(main, rx, [rx, rx])
    ensures Placed(d, a', out, [arg, arg], main)
    ensures a'.out.ops == d.out.ops + [main]
    ensures a'.out.slotCount == d.out.slotCount
  {
    a' := HandOver(d, main, arg, rx, {}, {});
    assert {} - {arg as nat} == {};
    assert a'.out.ops == d.out.ops + [main] + [];
    PlaceBinary(d, a', out, arg, arg, main, rx, rx, rx, []);
  }

  /** The state after `get_register` inside an arm with no argument in a
      register: `ra` is in limbo, and it is not `rx`. */
  ghost predicate ReadyPair(e: Allocator, out: u32, lhs: u32, rhs: u32, rx: u8, ra: u8) {
    && Sealed(e, {ra as nat}, {})
    && out < |e.allocations| && lhs < |e.allocations| && rhs < |e.allocations|
    && lhs != out && rhs != out
    && rx < e.regLimit && e.registers[rx] == out && e.allocations[out] == rx as u32
    && ra < e.regLimit && ra != rx && e.registers[ra] == UNSET
  }

  /** `get_register` in the arms of `op_reg_reg` where neither argument is
      in a register. Then `rx` is still the most recently used register, so
      with at least two registers eviction, which takes the least recently
      used one, never takes `rx` (the asserts on lines 585 and 597). */
  method SecondRegister(d: Allocator, out: u32, lhs: u32, rhs: u32, rx: u8)
    returns (e: Allocator, ra: u8)
    requires ReadyBinary(d, out, lhs, rhs, rx) && d.out.slotCount < UNSET
    requires 2 <= d.regLimit && Lru.Newest(d.registerLru) == rx as nat
    requires d.allocations[lhs] >= d.regLimit as u32 && d.allocations[rhs] >= d.regLimit as u32
    ensures ReadyPair(e, out, lhs, rhs, rx, ra)
    ensures SpillsOnly(d, e) && Framed(d, e, out, [])
    ensures e.out.slotCount as int <= d.out.slotCount as int + 1
    ensures e.allocations[lhs] == d.allocations[lhs] && e.allocations[rhs] == d.allocations[rhs]
  {
    e, ra := GetRegister(d);
    if d.registers[ra] != UNSET {
      Lru.OldestIsNotNewest(d.registerLru, d.regLimit as nat);
      BoundRegister(d, ra, {}, {});
      EvictFramed(d, e, d.registers[ra], ra, e.allocations[d.registers[ra]], out, []);
      NoSpills(d.out.ops);
      SpillsThen(d.out.ops, d.out.ops, Load(ra, e.allocations[d.registers[ra]]));
    } else {
      NoSpills(d.out.ops);
    }
  }

  /** `r_x = op ...`, `rebind_register(lhs, r_x)`, `bind_register(rhs,
      r_a)`: the head of the arms that take a second register `ra`. */
  method HandOverAndBind(e: Allocator, main: Op, lhs: u32, rhs: u32, rx: u8, ra: u8, ghost held: set<nat>)
    returns (c: Allocator)
    requires Sealed(e, {ra as nat}, held) && lhs < |e.allocations| && rhs < |e.allocations| && lhs != rhs
    requires rx < e.regLimit && ra < e.regLimit && rx != ra
    requires e.registers[rx] != UNSET && e.registers[ra] == UNSET
    requires e.allocations[lhs] >= e.regLimit as u32 && e.allocations[rhs] >= e.regLimit as u32
    ensures e.registers[rx] < |e.allocations|
    ensures Sealed(c, {}, held - {lhs as nat} - {rhs as nat})
    ensures c.out.ops == e.out.ops + [main] && c.out.slotCount == e.out.slotCount
    ensures c.regLimit == e.regLimit && c.spareMemory == e.spareMemory
    ensures c.allocations == e.allocations[e.registers[rx] := UNSET][lhs := rx as u32][rhs := ra as u32]
    ensures c.registers[rx] == lhs && rx < c.out.slotCount
    ensures forall m, ex :: MemFree(e, m, ex) ==> MemFree(c, m, ex - {lhs as nat} - {rhs as nat})
  {
    var b := HandOver(e, main, lhs, rx, {ra as nat}, held);
    c := BindRegister(b, rhs, ra, {ra as nat}, held - {lhs as nat});
    assert {ra as nat} - {ra as nat} == {};
    forall m, ex | MemFree(e, m, ex)
      ensures MemFree(c, m, ex - {lhs as nat} - {rhs as nat})
    {
      FreeAfterRebind(e, b, lhs, rx, m, ex);
      FreeAfterBind(b, c, rhs, ra, m, ex - {lhs as nat});
    }
  }

  /** `(m_y, m_z)` with `lhs != rhs`: `r_x = op r_x r_a`; `rx` is handed to
      `lhs` and `ra` bound to `rhs`, whose values are stored to `my` and
      `mz`; both slots are free afterwards. */
  method ArmMM(e: Allocator, out: u32, lhs: u32, rhs: u32, rx: u8, ra: u8, my: u32, mz: u32, main: Op)
    returns (a': Allocator)
    requires ReadyPair(e, out, lhs, rhs, rx, ra) && lhs != rhs
    requires IsMemorySlot(e, e.allocations[lhs]) && my == e.allocations[lhs]
    requires IsMemorySlot(e, e.allocations[rhs]) && mz == e.allocations[rhs]
    requires Writes(main, rx, [rx, ra])
    ensures Placed(e, a', out, [lhs, rhs], main)
    ensures a'.out.ops == e.out.ops + [main, Store(rx, my), Store(ra, mz)]
    ensures a'.out.slotCount == e.out.slotCount
    ensures my in a'.spareMemory && mz in a'.spareMemory
  {
    ghost var (l, r) := ({lhs as nat}, {rhs as nat});
    HeldSlot(e, lhs as nat, {ra as nat}, {});
    HeldSlot(e, rhs as nat, {ra as nat}, {} + l);
    var c := HandOverAndBind(e, main, lhs, rhs, rx, ra, {} + l + r);
    assert {} + l + r - l - r == {} && l - l - r == {} && r - l - r == {};
    var c2 := PushStore(c, rx, my, {}, {});
    FreeAfterStore(c, c2, my, mz as int, {});
    a' := PushStore(c2, ra, mz, {}, {});
    TwoStores(Store(rx, my), Store(ra, mz));
    assert a'.out.ops == e.out.ops + [main] + [Store(rx, my), Store(ra, mz)];
    PlaceBinary(e, a', out, lhs, rhs, main, rx, rx, ra, [Store(rx, my), Store(ra, mz)]);
  }

  /** `(U, U)` with `lhs != rhs`: `r_x = op r_x r_a`; `rx` is handed to
      `lhs` and `ra` bound to `rhs`. */
  method ArmUU(e: Allocator, out: u32, lhs: u32, rhs: u32, rx: u8, ra: u8, main: Op)
    returns (a': Allocator)
    requires ReadyPair(e, out, lhs, rhs, rx, ra) && lhs != rhs
    requires e.allocations[lhs] == UNSET && e.allocations[rhs] == UNSET
    requires Writes(main, rx, [rx, ra])
    ensures Placed(e, a', out, [lhs, rhs], main)
    ensures a'.out.ops == e.out.ops + [main]
    ensures a'.out.slotCount == e.out.slotCount
  {
    a' := HandOverAndBind(e, main, lhs, rhs, rx, ra, {});
    assert {} - {lhs as nat} - {rhs as nat} == {};
    assert a'.out.ops == e.out.ops + [main] + [];
    PlaceBinary(e, a', out, lhs, rhs, main, rx, rx, ra, []);
  }

  /** `(U, m_z)`: `r_x = op r_x r_a`; `rx` is handed to `lhs` and `ra`
      bound to `rhs`, whose value is stored to `mz`. The source guards the
      binding with `lhs != rhs`, which always holds here: one argument is
      unassigned and the other is in memory. */
  method ArmUM(e: Allocator, out: u32, lhs: u32, rhs: u32, rx: u8, ra: u8, mz: u32, main: Op)
    returns (a': Allocator)
    requires ReadyPair(e, out, lhs, rhs, rx, ra)
    requires e.allocations[lhs] == UNSET
    requires IsMemorySlot(e, e.allocations[rhs]) && mz == e.allocations[rhs]
    requires Writes(main, rx, [rx, ra])
    ensures Placed(e, a', out, [lhs, rhs], main)
    ensures a'.out.ops == e.out.ops + [main, Store(ra, mz)]
    ensures a'.out.slotCount == e.out.slotCount
    ensures mz in a'.spareMemory
  {
    ghost var r := {rhs as nat};
    HeldSlot(e, rhs as nat, {ra as nat}, {});
    var c := HandOverAndBind(e, main, lhs, rhs, rx, ra, {} + r);
    assert {} + r - {lhs as nat} - r == {} && r - {lhs as nat} - r == {};
    a' := PushStore(c, ra, mz, {}, {});
    assert a'.out.ops == e.out.ops + [main] + [Store(ra, mz)];
    PlaceBinary(e, a', out, lhs, rhs, main, rx, rx, ra, [Store(ra, mz)]);
  }

  /** `r_x = op ...`, `bind_register(lhs, r_a)`, `rebind_register(rhs,
      r_x)`: the head of the `(m_y, U)` arm. */
  method BindAndHandOver(e: Allocator, main: Op, lhs: u32, rhs: u32, rx: u8, ra: u8, ghost held: set<nat>)
    returns (c: Allocator)
    requires Sealed(e, {ra as nat}, held) && lhs < |e.allocations| && rhs < |e.allocations| && lhs != rhs
    requires rx < e.regLimit && ra < e.regLimit && rx != ra
    requires e.registers[rx] != UNSET && e.registers[ra] == UNSET
    requires e.allocations[lhs] >= e.regLimit as u32 && e.allocations[rhs] >= e.regLimit as u32
    ensures e.registers[rx] < |e.allocations|
    ensures Sealed(c, {}, held - {lhs as nat} - {rhs as nat})
    ensures c.out.ops == e.out.ops + [main] && c.out.slotCount == e.out.slotCount
    ensures c.regLimit == e.regLimit && c.spareMemory == e.spareMemory
    ensures c.allocations == e.allocations[lhs := ra as u32][e.registers[rx] := UNSET][rhs := rx as u32]
    ensures c.registers[rx] == rhs && rx < c.out.slotCount
    ensures forall m, ex :: MemFree(e, m, ex) ==> MemFree(c, m, ex - {lhs as nat} - {rhs as nat})
  {
    BoundRegister(e, rx, {ra as nat}, held);
    var b := Emit(e, main);
    EmitKeepsInv(e, main, {ra as nat}, held);
    b := BindRegister(b, lhs, ra, {ra as nat}, held);
    assert {ra as nat} - {ra as nat} == {};
    c := RebindRegister(b, rhs, rx, {}, held - {lhs as nat});
    forall m, ex | MemFree(e, m, ex)
      ensures MemFree(c, m, ex - {lhs as nat} - {rhs as nat})
    {
      FreeAfterBind(e, b, lhs, ra, m, ex);
      FreeAfterRebind(b, c, rhs, rx, m, ex - {lhs as nat});
    }
  }

  /** `(m_y, U)`: `r_x = op r_a r_x`; `ra` is bound to `lhs`, whose value
      is stored to `my`, and `rx` is handed to `rhs`. As in `ArmUM`, the
      source's `lhs != rhs` guard always holds. */
  method ArmMU(e: Allocator, out: u32, lhs: u32, rhs: u32, rx: u8, ra: u8, my: u32, main: Op)
    returns (a': Allocator)
    requires ReadyPair(e, out, lhs, rhs, rx, ra)
    requires IsMemorySlot(e, e.allocations[lhs]) && my == e.allocations[lhs]
    requires e.allocations[rhs] == UNSET
    requires Writes(main, rx, [ra, rx])
    ensures Placed(e, a', out, [lhs, rhs], main)
    ensures a'.out.ops == e.out.ops + [main, Store(ra, my)]
    ensures a'.out.slotCount == e.out.slotCount
    ensures my in a'.spareMemory
  {
    ghost var l := {lhs as nat};
    HeldSlot(e, lhs as nat, {ra as nat}, {});
    var c := BindAndHandOver(e, main, lhs, rhs, rx, ra, {} + l);
    assert {} + l - l - {rhs as nat} == {} && l - l - {rhs as nat} == {};
    a' := PushStore(c, ra, my, {}, {});
    assert a'.out.ops == e.out.ops + [main] + [Store(ra, my)];
    PlaceBinary(e, a', out, lhs, rhs, main, rx, ra, rx, [Store(ra, my)]);
  }

  /** `b` is `d` after lowering, through `mk`, an operation that defines
      `out` from `lhs` and `rhs`. */
  ghost predicate BinaryDone(d: Allocator, b: Allocator, out: u32, lhs: u32, rhs: u32, mk: (u8, u8, u8) -> Op) {
    && OneOp(d.out.ops, b.out.ops)
    && var main := MainOp(d.out.ops, b.out.ops);
       && Placed(d, b, out, [lhs, rhs], main)
       && main == mk(Output(main).value, Inputs(main)[0], Inputs(main)[1])
  }

  /** An arm that placed `mk(x, y, z)` did what `BinaryDone` asks. */
  lemma MadeBy(d: Allocator, b: Allocator, out: u32, lhs: u32, rhs: u32, mk: (u8, u8, u8) -> Op,
               x: u8, y: u8, z: u8)
    requires BinaryMaker(mk) && Placed(d, b, out, [lhs, rhs], mk(x, y, z))
    ensures BinaryDone(d, b, out, lhs, rhs, mk)
  {
    assert Writes(mk(x, y, z), x, [y, z]);
  }

  /** Spills in front do not change what was lowered. */
  lemma BinaryDoneAfterSpills(a: Allocator, d: Allocator, b: Allocator, out: u32, lhs: u32, rhs: u32,
                              mk: (u8, u8, u8) -> Op)
    requires SpillsOnly(a, d) && Framed(a, d, out, [lhs, rhs]) && BinaryDone(d, b, out, lhs, rhs, mk)
    ensures BinaryDone(a, b, out, lhs, rhs, mk)
  {
    PlacedAfterSpills(a, d, b, out, [lhs, rhs], MainOp(d.out.ops, b.out.ops));
  }

  /** The arms of `op_reg_reg` whose `lhs` is in register `ry`. */
  method LhsInRegister(ghost c: Allocator, d: Allocator, out: u32, lhs: u32, rhs: u32, rx: u8, ry: u8, ar: Allocation,
                       mk: (u8, u8, u8) -> Op)
    returns (b: Allocator)
    requires ReadyBinary(d, out, lhs, rhs, rx) && BinaryMaker(mk)
    requires c.out == d.out && c.allocations == d.allocations && c.regLimit == d.regLimit
    requires ry < d.regLimit && d.allocations[lhs] == ry as u32 && ar == Where(d, rhs as nat)
    ensures BinaryDone(c, b, out, lhs, rhs, mk)
    ensures b.out.slotCount == d.out.slotCount
    ensures ar.Register? ==> b.out.ops == d.out.ops + [mk(rx, ry, ar.reg)]
  {
    match ar {
      case Register(rz) =>
        b := ArmRR(d, out, lhs, rhs, rx, ry, rz, mk(rx, ry, rz));
        MadeBy(d, b, out, lhs, rhs, mk, rx, ry, rz);
      case Memory(mz) =>
        b := ArmRM(d, out, lhs, rhs, rx, ry, mz, mk(rx, ry, rx));
        MadeBy(d, b, out, lhs, rhs, mk, rx, ry, rx);
      case Unassigned =>
        b := ArmRU(d, out, lhs, rhs, rx, ry, mk(rx, ry, rx));
        MadeBy(d, b, out, lhs, rhs, mk, rx, ry, rx);
    }
    BinaryDoneSameTape(c, d, b, out, lhs, rhs, mk);
  }

  /** The arms of `op_reg_reg` whose `lhs` is in memory slot `my`. */
  method LhsInMemory(ghost c: Allocator, d: Allocator, out: u32, lhs: u32, rhs: u32, rx: u8, my: u32, ar: Allocation,
                     mk: (u8, u8, u8) -> Op)
    returns (b: Allocator)
    requires ReadyBinary(d, out, lhs, rhs, rx) && BinaryMaker(mk)
    requires c.out == d.out && c.allocations == d.allocations && c.regLimit == d.regLimit
    requires IsMemorySlot(d, d.allocations[lhs]) && my == d.allocations[lhs] && ar == Where(d, rhs as nat)
    requires d.out.slotCount < UNSET && (lhs != rhs ==> 2 <= d.regLimit)
    requires !ar.Register? ==> Lru.Newest(d.registerLru) == rx as nat
    ensures BinaryDone(c, b, out, lhs, rhs, mk)
    ensures b.out.slotCount as int <= d.out.slotCount as int + 1
    ensures lhs == rhs ==> b.out.slotCount == d.out.slotCount
  {
    match ar {
      case Register(rz) =>
        b := ArmMR(d, out, lhs, rhs, rx, my, rz, mk(rx, rx, rz));
        MadeBy(d, b, out, lhs, rhs, mk, rx, rx, rz);
      case Memory(mz) =>
        if lhs == rhs {
          b := ArmMMSame(d, out, lhs, rx, my, mk(rx, rx, rx));
          MadeBy(d, b, out, lhs, rhs, mk, rx, rx, rx);
        } else {
          var e, ra := SecondRegister(d, out, lhs, rhs, rx);
          b := ArmMM(e, out, lhs, rhs, rx, ra, my, mz, mk(rx, rx, ra));
          MadeBy(e, b, out, lhs, rhs, mk, rx, rx, ra);
          BinaryDoneAfterSpills(d, e, b, out, lhs, rhs, mk);
        }
      case Unassigned =>
        var e, ra := SecondRegister(d, out, lhs, rhs, rx);
        b := ArmMU(e, out, lhs, rhs, rx, ra, my, mk(rx, ra, rx));
        MadeBy(e, b, out, lhs, rhs, mk, rx, ra, rx);
        BinaryDoneAfterSpills(d, e, b, out, lhs, rhs, mk);
    }
    BinaryDoneSameTape(c, d, b, out, lhs, rhs, mk);
  }

  /** The arms of `op_reg_reg` whose `lhs` is unassigned. */
  method LhsUnassigned(ghost c: Allocator, d: Allocator, out: u32, lhs: u32, rhs: u32, rx: u8, ar: Allocation,
                       mk: (u8, u8, u8) -> Op)
    returns (b: Allocator)
    requires ReadyBinary(d, out, lhs, rhs, rx) && BinaryMaker(mk)
    requires c.out == d.out && c.allocations == d.allocations && c.regLimit == d.regLimit
    requires d.allocations[lhs] == UNSET && ar == Where(d, rhs as nat)
    requires d.out.slotCount < UNSET && (lhs != rhs ==> 2 <= d.regLimit)
    requires !ar.Register? ==> Lru.Newest(d.registerLru) == rx as nat
    ensures BinaryDone(c, b, out, lhs, rhs, mk)
    ensures b.out.slotCount as int <= d.out.slotCount as int + 1
    ensures lhs == rhs ==> b.out.slotCount == d.out.slotCount
  {
    match ar {
      case Register(rz) =>
        b := ArmUR(d, out, lhs, rhs, rx, rz, mk(rx, rx, rz));
        MadeBy(d, b, out, lhs, rhs, mk, rx, rx, rz);
      case Memory(mz) =>
        var e, ra := SecondRegister(d, out, lhs, rhs, rx);
        b := ArmUM(e, out, lhs, rhs, rx, ra, mz, mk(rx, rx, ra));
        MadeBy(e, b, out, lhs, rhs, mk, rx, rx, ra);
        BinaryDoneAfterSpills(d, e, b, out, lhs, rhs, mk);
      case Unassigned =>
        if lhs == rhs {
          b := ArmUUSame(d, out, lhs, rx, mk(rx, rx, rx));
          MadeBy(d, b, out, lhs, rhs, mk, rx, rx, rx);
        } else {
          var e, ra := SecondRegister(d, out, lhs, rhs, rx);
          b := ArmUU(e, out, lhs, rhs, rx, ra, mk(rx, rx, ra));
          MadeBy(e, b, out, lhs, rhs, mk, rx, rx, ra);
          BinaryDoneAfterSpills(d, e, b, out, lhs, rhs, mk);
        }
    }
    BinaryDoneSameTape(c, d, b, out, lhs, rhs, mk);
  }

  /** `op_reg_reg` once the output is in `rx`: looks up both arguments
      (which marks those in registers as recently used) and takes the arm
      their allocations select. */
  method RegRegArms(c: Allocator, out: u32, lhs: u32, rhs: u32, rx: u8, mk: (u8, u8, u8) -> Op)
    returns (b: Allocator)
    requires Ready(c, out, rx) && lhs < |c.allocations| && rhs < |c.allocations|
    requires lhs != out && rhs != out && BinaryMaker(mk)
    requires c.out.slotCount < UNSET && (lhs != rhs ==> 2 <= c.regLimit)
    requires Lru.Newest(c.registerLru) == rx as nat
    ensures BinaryDone(c, b, out, lhs, rhs, mk)
    ensures b.out.slotCount as int <= c.out.slotCount as int + 1
    ensures lhs == rhs ==> b.out.slotCount == c.out.slotCount
    ensures c.allocations[lhs] < c.regLimit as u32 && c.allocations[rhs] < c.regLimit as u32 ==>
      b.out.ops == c.out.ops + [mk(rx, c.allocations[lhs] as u8, c.allocations[rhs] as u8)]
  {
    var d1, al := GetAllocation(c, lhs);
    var d, ar := GetAllocation(d1, rhs);
    match al {
      case Register(ry) =>
        b := LhsInRegister(c, d, out, lhs, rhs, rx, ry, ar, mk);
      case Memory(my) =>
        b := LhsInMemory(c, d, out, lhs, rhs, rx, my, ar, mk);
      case Unassigned =>
        b := LhsUnassigned(c, d, out, lhs, rhs, rx, ar, mk);
    }
  }

  /** `BinaryDone` only looks at the tape and the shape of the state it
      starts from. */
  lemma BinaryDoneSameTape(c: Allocator, d: Allocator, b: Allocator, out: u32, lhs: u32, rhs: u32,
                           mk: (u8, u8, u8) -> Op)
    requires c.out == d.out && c.allocations == d.allocations && c.regLimit == d.regLimit
    requires BinaryDone(d, b, out, lhs, rhs, mk)
    ensures BinaryDone(c, b, out, lhs, rhs, mk)
  {
  }

  /** With one register, held by the output, the arms of `op_reg_reg` for
      two distinct arguments cannot go through: neither argument is in a
      register, so the arm calls `get_register`, and the only register it
      can hand out is `rx` itself, emptied by eviction. Then
      `rebind_register`'s assert that `rx` is bound (line 212) fails in the
      `(m_y, m_z)` and `(U, U)` arms, and `r_a != r_x` (lines 585 and 597)
      fails in the other two. */
  method NoSecondRegister(d: Allocator, out: u32, lhs: u32, rhs: u32, rx: u8)
    returns (e: Allocator, ra: u8)
    requires ReadyBinary(d, out, lhs, rhs, rx) && d.regLimit == 1 && d.out.slotCount < UNSET
    ensures d.allocations[lhs] >= d.regLimit as u32 && d.allocations[rhs] >= d.regLimit as u32
    ensures ra == rx && e.registers == d.registers[rx := UNSET]
  {
    if d.allocations[lhs] < d.regLimit as u32 {
      HeldRegister(d, lhs as nat, {}, {});
      assert false;
    }
    if d.allocations[rhs] < d.regLimit as u32 {
      HeldRegister(d, rhs as nat, {}, {});
      assert false;
    }
    e, ra := GetRegister(d);
  }

  /** `op_reg_reg`: lowers an operation that defines `out` from the nodes
      `lhs` and `rhs`, emitting `mk(rx, ry, rz)` where `rx` holds the
      output and `ry`, `rz` the arguments. At most two fresh slots are
      taken: one to load the output, one for a second register. Two
      distinct arguments need a second register, so with only one register
      lowering fails once the output is in it. */
  method RegReg(a: Allocator, out: u32, lhs: u32, rhs: u32, mk: (u8, u8, u8) -> Op)
    returns (r: Result<Allocator, AllocError>)
    requires Valid(a) && out < |a.allocations| && lhs < |a.allocations| && rhs < |a.allocations|
    requires out != lhs && out != rhs
    requires a.out.slotCount as int + 2 <= UNSET as int
    requires BinaryMaker(mk)
    ensures r.Err? <==> a.allocations[out] == UNSET || (lhs != rhs && a.regLimit == 1)
    ensures r.Err? ==> r.error == if a.allocations[out] == UNSET then UnassignedOutput else OutOfRegisters
    ensures r.Ok? ==> BinaryDone(a, r.value, out, lhs, rhs, mk)
    ensures r.Ok? ==> r.value.out.slotCount as int <= a.out.slotCount as int + 2
    ensures r.Ok? && lhs == rhs ==> r.value.out.slotCount as int <= a.out.slotCount as int + 1
    ensures r.Ok? && a.allocations[out] < a.regLimit as u32 && a.allocations[lhs] < a.regLimit as u32
                  && a.allocations[rhs] < a.regLimit as u32 ==>
      r.value.out.ops == a.out.ops + [mk(a.allocations[out] as u8, a.allocations[lhs] as u8,
                                         a.allocations[rhs] as u8)]
  {
    var c, x := GetOutReg(a, out);
    if x.Err? {
      return Err(x.error);
    }
    if lhs != rhs && c.regLimit == 1 {
      var _, _ := NoSecondRegister(c, out, lhs, rhs, x.value);
      return Err(OutOfRegisters);
    }
    var b := RegRegArms(c, out, lhs, rhs, x.value, mk);
    BinaryDoneAfterSpills(a, c, b, out, lhs, rhs, mk);
    r := Ok(b);
  }

  /** `op_reg_reg` on an SSA operation, through its VM counterpart. */
  method OpRegReg(a: Allocator, op: Ssa.Op) returns (r: Result<Allocator, AllocError>)
    requires CanLower(a, op) && Ssa.IsRegReg(op)
    ensures r.Err? <==> a.allocations[op.out] == UNSET || (op.lhs != op.rhs && a.regLimit == 1)
    ensures r.Err? ==> r.error == if a.allocations[op.out] == UNSET then UnassignedOutput else OutOfRegisters
    ensures r.Ok? ==> Lowered(a, r.value, op)
  {
    Ssa.ArgsShape(op);
    assert Ssa.Args(op)[0] == op.lhs && Ssa.Args(op)[1] == op.rhs;
    r := RegReg(a, op.out, op.lhs, op.rhs, (x: u8, y: u8, z: u8) => InstrRegReg(op, x, y, z));
  }

  ////////////////////////////////////////////////////////////////////////////
  // op_out_only and its users

  /** The constructors `op_out_only` is handed: `mk(x)` writes `x` and
      reads nothing. */
  ghost predicate NullaryMaker(mk: u8 -> Op) {
    forall x: u8 :: Writes(mk(x), x, [])
  }

  /** What `op_out_only` establishes, stated for its one arm. */
  lemma PlaceNullary(d: Allocator, a': Allocator, out: u32, main: Op, rx: u8)
    requires Valid(a') && |a'.allocations| == |d.allocations| && a'.regLimit == d.regLimit
    requires d.out.slotCount <= a'.out.slotCount
    requires a'.out.ops == d.out.ops + [main] + []
    requires !IsSpill(main) && Output(main) == Some(rx) && Inputs(main) == [] && rx < d.regLimit
    requires out < |a'.allocations| && a'.allocations[out] == UNSET
    requires rx < a'.out.slotCount && a'.registers[rx] == UNSET
    requires Kept(d, a', out, [])
    ensures Placed(d, a', out, [], main)
  {
    Open(a', {}, {});
    NoSpills(d.out.ops);
    EmitsOne(d.out.ops, d.out.ops, main, []);
  }

  /** `op_out_only`: lowers an operation with no arguments that defines
      `out`, emitting `mk(rx)` where `rx` holds the output; afterwards `rx`
      is free. */
  method OutOnly(a: Allocator, out: u32, mk: u8 -> Op) returns (r: Result<Allocator, AllocError>)
    requires Valid(a) && out < |a.allocations| && a.out.slotCount < UNSET
    requires NullaryMaker(mk)
    ensures r.Err? <==> a.allocations[out] == UNSET
    ensures r.Err? ==> r.error == UnassignedOutput
    ensures r.Ok? ==>
      && OneOp(a.out.ops, r.value.out.ops)
      && var main := MainOp(a.out.ops, r.value.out.ops);
         && Placed(a, r.value, out, [], main)
         && main == mk(Output(main).value)
    ensures r.Ok? ==> r.value.out.slotCount as int <= a.out.slotCount as int + 1
    ensures r.Ok? && a.allocations[out] < a.regLimit as u32 ==>
      r.value.out.ops == a.out.ops + [mk(a.allocations[out] as u8)]
  {
    var c, x := GetOutReg(a, out);
    if x.Err? {
      return Err(x.error);
    }
    var rx := x.value;
    assert Writes(mk(rx), rx, []);
    BoundRegister(c, rx, {}, {});
    var b := Emit(c, mk(rx));
    EmitKeepsInv(c, mk(rx), {}, {});
    b := ReleaseReg(b, rx, {}, {});
    assert b.out.ops == c.out.ops + [mk(rx)] + [];
    PlaceNullary(c, b, out, mk(rx), rx);
    PlacedAfterSpills(a, c, b, out, [], mk(rx));
    r := Ok(b);
  }

  /** `op_var`: reads variable `i` into the output's register. */
  method OpVar(a: Allocator, out: u32, i: u32) returns (r: Result<Allocator, AllocError>)
    requires Valid(a) && out < |a.allocations| && a.out.slotCount < UNSET
    ensures r.Err? <==> a.allocations[out] == UNSET
    ensures r.Err? ==> r.error == UnassignedOutput
    ensures r.Ok? ==>
      && OneOp(a.out.ops, r.value.out.ops)
      && var main := MainOp(a.out.ops, r.value.out.ops);
         && Placed(a, r.value, out, [], main)
         && main.Var? && main.index == i
  {
    r := OutOnly(a, out, (x: u8) => Var(x, i));
  }

  /** `op_input`: reads input `i` (X, Y or Z) into the output's register. */
  method OpInput(a: Allocator, out: u32, i: u8) returns (r: Result<Allocator, AllocError>)
    requires Valid(a) && out < |a.allocations| && a.out.slotCount < UNSET
    ensures r.Err? <==> a.allocations[out] == UNSET
    ensures r.Err? ==> r.error == UnassignedOutput
    ensures r.Ok? ==>
      && OneOp(a.out.ops, r.value.out.ops)
      && var main := MainOp(a.out.ops, r.value.out.ops);
         && Placed(a, r.value, out, [], main)
         && main.Input? && main.input == i
  {
    r := OutOnly(a, out, (x: u8) => Input(x, i));
  }

  /** `op_copy_imm`: writes the immediate `imm` to the output's register. */
  method OpCopyImm(a: Allocator, out: u32, imm: Imm) returns (r: Result<Allocator, AllocError>)
    requires Valid(a) && out < |a.allocations| && a.out.slotCount < UNSET
    ensures r.Err? <==> a.allocations[out] == UNSET
    ensures r.Err? ==> r.error == UnassignedOutput
    ensures r.Ok? ==>
      && OneOp(a.out.ops, r.value.out.ops)
      && var main := MainOp(a.out.ops, r.value.out.ops);
         && Placed(a, r.value, out, [], main)
         && main.CopyImm? && main.imm == imm
  {
    r := OutOnly(a, out, (x: u8) => CopyImm(x, imm));
  }

  ////////////////////////////////////////////////////////////////////////////
  // op

  /** The first three arms of `op`: the operations without arguments. */
  method LowerOutOnly(a: Allocator, op: Ssa.Op) returns (r: Result<Allocator, AllocError>)
    requires CanLower(a, op) && Ssa.IsOutOnly(op)
    ensures op.Input? && op.index >= 0x100 ==> r == Err(InputOutOfRange)
    ensures !(op.Input? && op.index >= 0x100) ==>
      && (r.Err? <==> a.allocations[op.out] == UNSET)
      && (r.Err? ==> r.error == UnassignedOutput)
    ensures r.Ok? ==> Lowered(a, r.value, op)
  {
    Ssa.ArgsShape(op);
    match op {
      case Var(out, i) =>
        r := OpVar(a, out, i);
      case Input(out, i) =>
        if i >= 0x100 {
          return Err(InputOutOfRange);
        }
        r := OpInput(a, out, i as u8);
      case CopyImm(out, imm) =>
        r := OpCopyImm(a, out, imm);
    }
  }

  /** `op`: lowers one SSA operation, dispatching on its operand layout. An
      `Input` index that does not fit in a `u8` fails before anything is
      emitted; otherwise lowering fails when the output node has no home,
      and, for an operation on two distinct nodes, when there is only one
      register. */
  method Lower(a: Allocator, op: Ssa.Op) returns (r: Result<Allocator, AllocError>)
    requires CanLower(a, op)
    ensures op.Input? && op.index >= 0x100 ==> r == Err(InputOutOfRange)
    ensures !(op.Input? && op.index >= 0x100) ==>
      && (r.Err? <==> a.allocations[op.out] == UNSET || (Ssa.IsRegReg(op) && op.lhs != op.rhs && a.regLimit == 1))
      && (r.Err? ==> r.error == if a.allocations[op.out] == UNSET then UnassignedOutput else OutOfRegisters)
    ensures r.Ok? ==> Lowered(a, r.value, op)
  {
    Ssa.ArgsShape(op);
    if Ssa.IsOutOnly(op) {
      r := LowerOutOnly(a, op);
    } else if Ssa.IsReg(op) {
      r := OpReg(a, op);
    } else if Ssa.IsRegImm(op) {
      r := OpRegImm(a, op);
    } else {
      r := OpRegReg(a, op);
    }
  }
}

=== FILE: lru.dfy ===
/** The least-recently-used order over registers, kept abstract.

    An order over `n` registers is a sequence holding every register
    `0 .. n-1` exactly once, least recently used first. `Poke` marks a
    register as the most recently used; `Pop` names the least recently used
    one and marks it as the most recently used, since it is about to be
    reused. */
module Lru {

  /** The registers `0 .. n-1`, each once. */
  function Registers(n: nat): (m: multiset<nat>)
    ensures |m| == n
  {
    if n == 0 then multiset{} else Registers(n - 1) + multiset{n - 1}
  }

  /** Each register below `n` occurs once in `Registers(n)`, and nothing
      else occurs there. */
  lemma {:induction false} RegistersCount(n: nat, x: nat)
    ensures Registers(n)[x] == if x < n then 1 else 0
  {
    if n > 0 {
      RegistersCount(n - 1, x);
    }
  }

  /** The registers of `l`, counted with multiplicity. Spelled out as a
      recursion (rather than `multiset(l)`) so that a caller holding an
      order does not unfold more than the first two entries. */
  function Counts(l: seq<nat>): (m: multiset<nat>)
    ensures |m| == |l|
  {
    if l == [] then multiset{} else Counts(l[..|l| - 1]) + multiset{l[|l| - 1]}
  }

  lemma {:induction false} CountsIsMultiset(l: seq<nat>)
    ensures Counts(l) == multiset(l)
  {
    if l != [] {
      CountsIsMultiset(l[..|l| - 1]);
      assert l == l[..|l| - 1] + [l[|l| - 1]];
    }
  }

  /** `l` lists each of the registers `0 .. n-1` exactly once. */
  predicate IsOrder(l: seq<nat>, n: nat) {
    Counts(l) == Registers(n)
  }

  lemma OrderIsPermutation(l: seq<nat>, n: nat)
    ensures IsOrder(l, n) <==> multiset(l) == Registers(n)
  {
    CountsIsMultiset(l);
  }

  /** `Lru::new(n)`: an order over `n` registers. Which order `lru.rs`
      starts from is not part of this model; this one is ascending. */
  function New(n: nat): (l: seq<nat>)
    ensures IsOrder(l, n)
  {
    NewIsOrder(n);
    seq(n, i => i)
  }

  lemma {:induction false} NewIsOrder(n: nat)
    ensures Counts(seq(n, i => i)) == Registers(n)
  {
    if n > 0 {
      assert seq(n, i => i)[..n - 1] == seq(n - 1, i => i);
      NewIsOrder(n - 1);
    }
  }

  /** No register occurs twice in `l`. */
  predicate Distinct(l: seq<nat>) {
    forall i, j :: 0 <= i < j < |l| ==> l[i] != l[j]
  }

  /** In a sequence without repetitions every register occurs at most
      once. */
  lemma {:induction false} DistinctCounts(l: seq<nat>, x: nat)
    requires Distinct(l)
    ensures multiset(l)[x] <= 1
  {
    if l != [] {
      var init := l[..|l| - 1];
      assert l == init + [l[|l| - 1]];
      DistinctCounts(init, x);
      if x == l[|l| - 1] {
        assert x !in init;
      }
    }
  }

  /** A sub-multiset of the same size is the whole multiset. */
  lemma SubsetOfSameSize(a: multiset<nat>, b: multiset<nat>)
    requires a <= b && |a| == |b|
    ensures a == b
  {
    var d := b - a;
    assert b == a + d;
    assert |d| == 0;
  }

  /** Two occurrences of `x` in `l` count twice. */
  lemma TwiceCounted(l: seq<nat>, i: nat, j: nat)
    requires i < j < |l| && l[i] == l[j]
    ensures multiset(l)[l[i]] >= 2
  {
    assert l == l[..j] + l[j..];
    assert l[..j][i] == l[i] && l[j..][0] == l[j];
    assert l[i] in multiset(l[..j]) && l[j] in multiset(l[j..]);
  }

  /** An order over `n` registers is exactly a sequence of `n` registers
      below `n` without repetitions. */
  lemma OrderIffDistinct(l: seq<nat>, n: nat)
    ensures IsOrder(l, n) <==>
      |l| == n && Distinct(l) && forall i :: 0 <= i < |l| ==> l[i] < n
  {
    OrderIsPermutation(l, n);
    if IsOrder(l, n) {
      OrderFacts(l, n);
      forall i, j | 0 <= i < j < |l|
        ensures l[i] != l[j]
      {
        if l[i] == l[j] {
          TwiceCounted(l, i, j);
          RegistersCount(n, l[i]);
          assert false;
        }
      }
    }
    if |l| == n && Distinct(l) && forall i :: 0 <= i < |l| ==> l[i] < n {
      forall x | true
        ensures multiset(l)[x] <= Registers(n)[x]
      {
        DistinctCounts(l, x);
        RegistersCount(n, x);
      }
      SubsetOfSameSize(multiset(l), Registers(n));
    }
  }

  /** The facts about an order the allocator relies on. */
  lemma OrderFacts(l: seq<nat>, n: nat)
    requires IsOrder(l, n)
    ensures |l| == n
    ensures forall i :: 0 <= i < |l| ==> l[i] < n
  {
    OrderIsPermutation(l, n);
    assert |l| == |multiset(l)| == |Registers(n)| == n;
    forall i | 0 <= i < |l|
      ensures l[i] < n
    {
      assert l[i] in multiset(l);
      RegistersCount(n, l[i]);
    }
  }

  lemma Member(l: seq<nat>, n: nat, r: nat)
    requires IsOrder(l, n) && r < n
    ensures r in l
  {
    OrderIsPermutation(l, n);
    RegistersCount(n, r);
    assert r in multiset(l);
  }

  /** The most recently used register. */
  function Newest(l: seq<nat>): nat
    requires |l| > 0
  {
    l[|l| - 1]
  }

  /** `l` without its first occurrence of `r`; the other registers keep
      their relative order. */
  function Remove(l: seq<nat>, r: nat): seq<nat> {
    if |l| == 0 then []
    else if l[0] == r then l[1..]
    else [l[0]] + Remove(l[1..], r)
  }

  /** `Remove` takes out one occurrence of `r` if there is one, and
      nothing else. */
  lemma {:induction false} RemoveCounts(l: seq<nat>, r: nat)
    ensures multiset(Remove(l, r)) == multiset(l) - multiset{r}
    ensures r in l ==> |Remove(l, r)| == |l| - 1
    ensures r !in l ==> Remove(l, r) == l
  {
    if |l| > 0 {
      var x, t := l[0], l[1..];
      assert l == [x] + t;
      RemoveCounts(t, r);
      if x == r {
        assert Remove(l, r) == t;
      } else {
        assert Remove(l, r) == [x] + Remove(t, r);
        assert multiset(Remove(l, r)) == multiset{x} + multiset(Remove(t, r));
      }
    }
  }

  /** `Lru::poke`: `r` becomes the most recently used register; every other
      register keeps its place relative to the rest. */
  function Poke(l: seq<nat>, n: nat, r: nat): (o: seq<nat>)
    requires IsOrder(l, n) && r < n
    ensures IsOrder(o, n) && |o| == n
    ensures Newest(o) == r
    ensures o[..n - 1] == Remove(l, r)
  {
    Member(l, n, r);
    OrderFacts(l, n);
    RemoveCounts(l, r);
    var o := Remove(l, r) + [r];
    assert o[..n - 1] == Remove(l, r);
    OrderIsPermutation(l, n);
    OrderIsPermutation(o, n);
    o
  }

  /** `Lru::pop`: returns the least recently used register, which becomes
      the most recently used one. */
  function Pop(l: seq<nat>, n: nat): (p: (seq<nat>, nat))
    requires IsOrder(l, n) && n > 0
    ensures IsOrder(p.0, n) && |p.0| == n
    ensures p.1 == l[0] && p.1 < n && Newest(p.0) == p.1
    ensures p.0[..n - 1] == l[1..]
  {
    OrderFacts(l, n);
    assert l == [l[0]] + l[1..];
    var o := l[1..] + [l[0]];
    assert o[..n - 1] == l[1..];
    OrderIsPermutation(l, n);
    OrderIsPermutation(o, n);
    (o, l[0])
  }

  /** With two or more registers, the least recently used one is never the
      most recently used one. */
  lemma OldestIsNotNewest(l: seq<nat>, n: nat)
    requires IsOrder(l, n) && n >= 2
    ensures l[0] != Newest(l)
  {
    OrderFacts(l, n);
    var x := l[0];
    if x == Newest(l) {
      assert l == [x] + l[1..n - 1] + [x];
      OrderIsPermutation(l, n);
      assert multiset(l)[x] >= 2;
      RegistersCount(n, x);
    }
  }

  ////////////////////////////////////////////////////////////////////////////
  // The starting order is forgotten

  /** `l` poked at each register of `ps` in turn. */
  function PokeAll(l: seq<nat>, n: nat, ps: seq<nat>): (o: seq<nat>)
    requires IsOrder(l, n) && forall i :: 0 <= i < |ps| ==> ps[i] < n
    ensures IsOrder(o, n)
  {
    if ps == [] then l
    else Poke(PokeAll(l, n, ps[..|ps| - 1]), n, ps[|ps| - 1])
  }

  /** The registers of `ps` that `l` lists too, in `l`'s order, and none
      of the others. */
  function Without(l: seq<nat>, ps: set<nat>): (o: seq<nat>)
    ensures forall x :: x in o <==> x in l && x !in ps
  {
    if l == [] then []
    else (if l[0] in ps then [] else [l[0]]) + Without(l[1..], ps)
  }

  /** The registers poked in `ps`, least recently poked first: a function
      of `ps` alone. */
  function Recency(ps: seq<nat>): seq<nat> {
    if ps == [] then []
    else Remove(Recency(ps[..|ps| - 1]), ps[|ps| - 1]) + [ps[|ps| - 1]]
  }

  /** `Recency(ps)` lists exactly the registers of `ps`. */
  lemma {:induction false} RecencyMembers(ps: seq<nat>, x: nat)
    ensures x in Recency(ps) <==> x in ps
  {
    if ps != [] {
      var init, r := ps[..|ps| - 1], ps[|ps| - 1];
      RecencyMembers(init, x);
      assert ps == init + [r];
      var o := Remove(Recency(init), r);
      RemoveCounts(Recency(init), r);
      if x != r {
        var before: multiset<nat>, after: multiset<nat> := multiset(Recency(init)), multiset(o);
        assert after == before - multiset{r};
        assert after[x] == before[x];
      }
    }
  }

  /** The registers `ps` mentions. */
  function Poked(ps: seq<nat>): set<nat> {
    set x | x in ps
  }

  lemma PokedLast(ps: seq<nat>)
    requires ps != []
    ensures Poked(ps) == Poked(ps[..|ps| - 1]) + {ps[|ps| - 1]}
  {
    assert ps == ps[..|ps| - 1] + [ps[|ps| - 1]];
  }

  /** Removing a register that only the second part holds. */
  lemma {:induction false} RemoveRight(a: seq<nat>, b: seq<nat>, r: nat)
    requires r !in a
    ensures Remove(a + b, r) == a + Remove(b, r)
  {
    if a != [] {
      assert a == [a[0]] + a[1..] && a[0] != r;
      assert (a + b)[0] == a[0] && (a + b)[1..] == a[1..] + b;
      assert Remove(a + b, r) == [a[0]] + Remove(a[1..] + b, r);
      RemoveRight(a[1..], b, r);
      assert [a[0]] + (a[1..] + Remove(b, r)) == a + Remove(b, r);
    } else {
      assert a + b == b && a + Remove(b, r) == Remove(b, r);
    }
  }

  /** Removing a register the first part holds. */
  lemma {:induction false} RemoveLeft(a: seq<nat>, b: seq<nat>, r: nat)
    requires r in a
    ensures Remove(a + b, r) == Remove(a, r) + b
  {
    assert (a + b)[0] == a[0] && (a + b)[1..] == a[1..] + b;
    if a[0] != r {
      assert a == [a[0]] + a[1..];
      RemoveLeft(a[1..], b, r);
      assert [a[0]] + (Remove(a[1..], r) + b) == ([a[0]] + Remove(a[1..], r)) + b;
    }
  }

  /** Leaving out a register `l` does not hold changes nothing. */
  lemma {:induction false} WithoutAbsent(l: seq<nat>, ps: set<nat>, r: nat)
    requires r !in l
    ensures Without(l, ps + {r}) == Without(l, ps)
  {
    if l != [] {
      WithoutAbsent(l[1..], ps, r);
    }
  }

  /** In a sequence without repetitions, removing one more register is
      leaving it out. */
  lemma {:induction false} WithoutOneMore(l: seq<nat>, ps: set<nat>, r: nat)
    requires Distinct(l)
    ensures Remove(Without(l, ps), r) == Without(l, ps + {r})
  {
    if l != [] {
      var x, t := l[0], l[1..];
      assert Distinct(t) by {
        forall i, j | 0 <= i < j < |t|
          ensures t[i] != t[j]
        {
          assert t[i] == l[i + 1] && t[j] == l[j + 1];
        }
      }
      WithoutOneMore(t, ps, r);
      var w, w' := Without(t, ps), Without(t, ps + {r});
      if x in ps {
        assert Without(l, ps) == w && Without(l, ps + {r}) == w';
      } else if x == r {
        assert x !in t;
        WithoutAbsent(t, ps, r);
        assert Without(l, ps) == [x] + w && Without(l, ps + {r}) == w';
        assert ([x] + w)[0] == x && ([x] + w)[1..] == w;
      } else {
        assert Without(l, ps) == [x] + w && Without(l, ps + {r}) == [x] + w';
        assert ([x] + w)[0] == x && ([x] + w)[1..] == w;
      }
    }
  }

  /** `Poke` takes the register out and puts it last. */
  lemma PokeIsRemoveAppend(l: seq<nat>, n: nat, r: nat)
    requires IsOrder(l, n) && r < n
    ensures Poke(l, n, r) == Remove(l, r) + [r]
  {
    var o := Poke(l, n, r);
    assert o == o[..n - 1] + [o[n - 1]];
  }

  /** The step of `PokeAllSplits` for a register poked before. */
  lemma PokeAgain(before: seq<nat>, n: nat, a: seq<nat>, b: seq<nat>, r: nat)
    requires IsOrder(before, n) && r < n && before == a + b && r !in a
    ensures Poke(before, n, r) == a + (Remove(b, r) + [r])
  {
    PokeIsRemoveAppend(before, n, r);
    RemoveRight(a, b, r);
  }

  /** The step of `PokeAllSplits` for a register poked for the first
      time. */
  lemma PokeFirst(l: seq<nat>, before: seq<nat>, n: nat, ps: set<nat>, b: seq<nat>, r: nat)
    requires IsOrder(l, n) && IsOrder(before, n) && r < n
    requires before == Without(l, ps) + b && r !in ps && r !in b
    ensures Poke(before, n, r) == Without(l, ps + {r}) + (b + [r])
  {
    var a := Without(l, ps);
    Member(l, n, r);
    PokeIsRemoveAppend(before, n, r);
    RemoveLeft(a, b, r);
    OrderIffDistinct(l, n);
    WithoutOneMore(l, ps, r);
  }

  /** Poking splits the order into the registers not poked, in their
      original order, followed by the poked ones, least recently poked
      first. */
  lemma {:induction false} PokeAllSplits(l: seq<nat>, n: nat, ps: seq<nat>)
    requires IsOrder(l, n) && forall i :: 0 <= i < |ps| ==> ps[i] < n
    ensures PokeAll(l, n, ps) == Without(l, Poked(ps)) + Recency(ps)
  {
    if ps == [] {
      assert Poked(ps) == {};
      WithoutNothing(l);
    } else {
      var init, r := ps[..|ps| - 1], ps[|ps| - 1];
      PokeAllSplits(l, n, init);
      var before := PokeAll(l, n, init);
      var b := Recency(init);
      PokedLast(ps);
      RecencyMembers(init, r);
      if r in init {
        assert Poked(ps) == Poked(init);
        PokeAgain(before, n, Without(l, Poked(init)), b, r);
      } else {
        RemoveCounts(b, r);
        PokeFirst(l, before, n, Poked(init), b, r);
      }
    }
  }

  lemma {:induction false} WithoutNothing(l: seq<nat>)
    ensures Without(l, {}) == l
  {
    if l != [] {
      WithoutNothing(l[1..]);
    }
  }

  /** Once every register has been poked, the order no longer depends on
      the order it started from: in particular not on the one `Lru::new`
      picks. */
  lemma PokingEveryRegisterForgets(l1: seq<nat>, l2: seq<nat>, n: nat, ps: seq<nat>)
    requires IsOrder(l1, n) && IsOrder(l2, n)
    requires forall i :: 0 <= i < |ps| ==> ps[i] < n
    requires forall r :: 0 <= r < n ==> r in ps
    ensures PokeAll(l1, n, ps) == PokeAll(l2, n, ps)
  {
    PokeAllSplits(l1, n, ps);
    PokeAllSplits(l2, n, ps);
    OrderFacts(l1, n);
    OrderFacts(l2, n);
    NothingLeft(l1, n, ps);
    NothingLeft(l2, n, ps);
  }

  lemma NothingLeft(l: seq<nat>, n: nat, ps: seq<nat>)
    requires forall i :: 0 <= i < |l| ==> l[i] < n
    requires forall r :: 0 <= r < n ==> r in ps
    ensures Without(l, Poked(ps)) == []
  {
  }
}

=== FILE: render2d.dfy ===
/** Two-dimensional rendering: deciding from an interval bound whether a
    tile is filled, empty or must be subdivided; colouring single pixels;
    the tile-size preconditions; and the index arithmetic that cuts the
    image into tiles and assembles the rendered tiles into a vertically
    flipped image.

    Interval bounds and pixel values are reals here; the floating-point
    evaluation that produces them is not part of this model. */
module Render2d {
  import opened Results

  ////////////////////////////////////////////////////////////////////////////
  // Render modes

  /** A bound on the values of the shape over a region: `lower <= upper`
      for the bounds interval arithmetic produces. */
  datatype Interval = Interval(lower: real, upper: real)

  predicate WellFormed(i: Interval) {
    i.lower <= i.upper
  }

  /** The pixels of the debug renderer: whether a pixel was decided for a
      whole tile, for a subtile, or on its own, and whether it is inside
      the shape. `Invalid` is the default, left where nothing was drawn. */
  datatype DebugPixel =
    | EmptyTile | FilledTile
    | EmptySubtile | FilledSubtile
    | Empty | Filled
    | Invalid

  /** The default pixel, left where no tile was drawn, is neither filled
      nor empty and has no colour. */
  function DefaultPixel(): (p: DebugPixel)
    ensures IsFilled(p).Err? && AsDebugColor(p).Err?
  {
    Invalid
  }

  /** `BitRenderMode::pixel`: a pixel is inside the shape where the
      distance value is negative. */
  function BitPixel(f: real): bool {
    f < 0.0
  }

  /** `BitRenderMode::interval`: a region whose whole bound is negative is
      filled, one whose whole bound is positive is empty, and anything
      else is undecided (subdivided further or rendered pixel by pixel).
      The depth is ignored. */
  function BitInterval(i: Interval, depth: nat): (r: Option<bool>)
    ensures r == Some(true) <==> i.upper < 0.0
    ensures r == Some(false) <==> i.lower > 0.0 && !(i.upper < 0.0)
    ensures r == None <==> i.lower <= 0.0 <= i.upper
  {
    if i.upper < 0.0 then Some(true)
    else if i.lower > 0.0 then Some(false)
    else None
  }

  /** Filling a region is sound: a decided region gets the value every
      pixel inside its bound would get. */
  lemma FillSound(i: Interval, depth: nat, f: real)
    requires WellFormed(i) && i.lower <= f <= i.upper
    requires BitInterval(i, depth).Some?
    ensures BitPixel(f) == BitInterval(i, depth).value
  {
  }

  /** An undecided bound contains both a pixel value inside the shape (at
      its lower end, when that is negative) and zero, which is outside. */
  lemma UndecidedStraddles(i: Interval, depth: nat)
    requires BitInterval(i, depth).None?
    ensures !BitPixel(0.0) && i.lower <= 0.0 <= i.upper
    ensures i.lower < 0.0 ==> BitPixel(i.lower)
  {
  }

  /** `DebugPixel::is_filled`: whether a debug pixel is inside the shape;
      an error on `Invalid` (the source panics). */
  function IsFilled(p: DebugPixel): (r: Result<bool, ()>)
    ensures r.Err? <==> p == Invalid
    ensures r == Ok(true) <==> p in {FilledTile, FilledSubtile, Filled}
  {
    match p
    case EmptyTile => Ok(false)
    case EmptySubtile => Ok(false)
    case Empty => Ok(false)
    case FilledTile => Ok(true)
    case FilledSubtile => Ok(true)
    case Filled => Ok(true)
    case Invalid => Err(())
  }

  /** `DebugRenderMode::interval`: decides exactly when the bit renderer
      decides, and agrees with it on the fill; a decision below the top
      level (`depth > 1`) is marked as a subtile. */
  function DebugInterval(i: Interval, depth: nat): (r: Option<DebugPixel>)
    ensures r.Some? <==> BitInterval(i, depth).Some?
    ensures r.Some? ==> IsFilled(r.value) == Ok(BitInterval(i, depth).value)
    ensures r.Some? ==> (r.value in {EmptySubtile, FilledSubtile} <==> depth > 1)
    ensures r.Some? ==> r.value != Invalid
  {
    if i.upper < 0.0 then
      if depth > 1 then Some(FilledSubtile) else Some(FilledTile)
    else if i.lower > 0.0 then
      if depth > 1 then Some(EmptySubtile) else Some(EmptyTile)
    else None
  }

  /** `DebugRenderMode::pixel`: a single pixel, filled exactly when the bit
      renderer fills it. */
  function DebugPixelOf(f: real): (r: DebugPixel)
    ensures r in {Empty, Filled}
    ensures IsFilled(r) == Ok(BitPixel(f))
  {
    if f < 0.0 then Filled else Empty
  }

  type u8 = x: int | 0 <= x < 0x100

  /** `DebugPixel::as_debug_color`: an opaque RGBA colour per kind of
      pixel; an error on `Invalid` (the source panics). */
  function AsDebugColor(p: DebugPixel): (r: Result<seq<u8>, ()>)
    ensures r.Err? <==> p == Invalid
    ensures r.Ok? ==> |r.value| == 4 && r.value[3] == 255
  {
    match p
    case EmptyTile => Ok([50, 0, 0, 255])
    case FilledTile => Ok([255, 0, 0, 255])
    case EmptySubtile => Ok([0, 50, 0, 255])
    case FilledSubtile => Ok([0, 255, 0, 255])
    case Empty => Ok([0, 0, 0, 255])
    case Filled => Ok([255, 255, 255, 255])
    case Invalid => Err(())
  }

  /** The colour shows the fill: a filled pixel has a full-intensity
      colour channel and an empty one has none. */
  lemma ColorShowsFill(p: DebugPixel)
    requires p != Invalid
    ensures IsFilled(p).value <==> 255 in AsDebugColor(p).value[..3]
  {
    assert AsDebugColor(p).value[..3] == match p
      case EmptyTile => [50, 0, 0]
      case FilledTile => [255, 0, 0]
      case EmptySubtile => [0, 50, 0]
      case FilledSubtile => [0, 255, 0]
      case Empty => [0, 0, 0]
      case Filled => [255, 255, 255]
      case Invalid => [];
  }

  /** Reads a debug colour back as the kind of pixel it shows. */
  function PixelOfColor(c: seq<u8>): Option<DebugPixel> {
    if |c| != 4 || c[3] != 255 then None
    else if c[0] == 50 && c[1] == 0 && c[2] == 0 then Some(EmptyTile)
    else if c[0] == 255 && c[1] == 0 && c[2] == 0 then Some(FilledTile)
    else if c[0] == 0 && c[1] == 50 && c[2] == 0 then Some(EmptySubtile)
    else if c[0] == 0 && c[1] == 255 && c[2] == 0 then Some(FilledSubtile)
    else if c[0] == 0 && c[1] == 0 && c[2] == 0 then Some(Empty)
    else if c[0] == 255 && c[1] == 255 && c[2] == 255 then Some(Filled)
    else None
  }

  /** The debug colour of every valid pixel can be read back. */
  lemma ColorRoundTrip(p: DebugPixel)
    requires p != Invalid
    ensures PixelOfColor(AsDebugColor(p).value) == Some(p)
  {
  }

  /** Different kinds of pixel get different colours. */
  lemma ColorsDistinct(p: DebugPixel, q: DebugPixel)
    requires p != Invalid && q != Invalid && p != q
    ensures AsDebugColor(p).value != AsDebugColor(q).value
  {
    ColorRoundTrip(p);
    ColorRoundTrip(q);
  }

  ////////////////////////////////////////////////////////////////////////////
  // Arithmetic

  lemma {:induction false} MulAtLeast(d: int, n: int)
    requires d >= 1 && n > 0
    ensures d * n >= n
    decreases d
  {
    if d > 1 {
      MulAtLeast(d - 1, n);
      assert d * n == (d - 1) * n + n;
    }
  }

  /** Euclidean division has one quotient and one remainder. */
  lemma DivModUnique(m: int, n: int, q: int, r: int)
    requires n > 0 && 0 <= r < n && m == q * n + r
    ensures m / n == q && m % n == r
  {
    var q', r' := m / n, m % n;
    assert m == q' * n + r';
    assert (q - q') * n == r' - r && (q' - q) * n == r - r' by {
      assert (q - q') * n == q * n - q' * n;
      assert (q' - q) * n == q' * n - q * n;
    }
    if q > q' {
      MulAtLeast(q - q', n);
      assert false;
    } else if q < q' {
      MulAtLeast(q' - q, n);
      assert false;
    }
  }

  /** The quotient of naturals is a natural. */
  lemma QuotientNat(a: nat, b: nat)
    requires b > 0
    ensures a / b >= 0
  {
  }

  lemma ProductNat(a: nat, b: nat)
    ensures a * b >= 0
  {
  }

  /** A row-major index into a `rows * n` block stays inside it. */
  lemma RowMajorBound(rows: nat, n: nat, row: nat, col: nat)
    requires row < rows && col < n
    ensures row * n + col < rows * n
  {
    assert row * n + col < (row + 1) * n;
    if rows > row + 1 {
      MulAtLeast(rows - (row + 1), n);
      assert rows * n == (row + 1) * n + (rows - (row + 1)) * n;
    }
  }

  /** `size` cut into `step`-long pieces: offset `d` lies in piece `i`
      exactly when `i` is `d / step`. */
  lemma OnePiece(size: nat, step: nat, d: nat, i: nat)
    requires step > 0 && size % step == 0 && d < size
    ensures d / step < size / step
    ensures i * step <= d < i * step + step <==> i == d / step
  {
    var m := size / step;
    DivModUnique(size, step, m, 0);
    if d / step >= m {
      MulAtLeast(d / step - m + 1, step);
      assert false;
    }
    if i * step <= d < i * step + step {
      DivModUnique(d, step, i, d - i * step);
    }
  }

  ////////////////////////////////////////////////////////////////////////////
  // Tile sizes

  /** What `render` asserts of its configuration: at least one tile size
      (the source indexes the first), all sizes positive (a zero divisor
      panics), the image a whole number of top-level tiles, and each tile a
      whole number of the next smaller tiles. */
  predicate TileSizesOk(imageSize: nat, tileSizes: seq<nat>) {
    && |tileSizes| >= 1
    && (forall k :: 0 <= k < |tileSizes| ==> tileSizes[k] > 0)
    && imageSize % tileSizes[0] == 0
    && (forall k :: 0 <= k < |tileSizes| - 1 ==> tileSizes[k] % tileSizes[k + 1] == 0)
  }

  /** Why a configuration is refused. */
  datatype SizeError = NoTileSizes | ZeroTileSize | NotDivisible(level: nat)

  /** The checks at the top of `render`, in the source's order. */
  method CheckTileSizes(imageSize: nat, tileSizes: seq<nat>) returns (r: Result<(), SizeError>)
    ensures r.Ok? <==> TileSizesOk(imageSize, tileSizes)
    ensures r == Err(NoTileSizes) <==> |tileSizes| == 0
  {
    if |tileSizes| == 0 {
      return Err(NoTileSizes);
    }
    if tileSizes[0] == 0 {
      return Err(ZeroTileSize);
    }
    if imageSize % tileSizes[0] != 0 {
      return Err(NotDivisible(0));
    }
    var k := 0;
    while k < |tileSizes| - 1
      invariant 0 <= k <= |tileSizes| - 1
      invariant forall j :: 0 <= j <= k ==> tileSizes[j] > 0
      invariant forall j :: 0 <= j < k ==> tileSizes[j] % tileSizes[j + 1] == 0
    {
      if tileSizes[k + 1] == 0 {
        return Err(ZeroTileSize);
      }
      if tileSizes[k] % tileSizes[k + 1] != 0 {
        return Err(NotDivisible(k + 1));
      }
      k := k + 1;
    }
    return Ok(());
  }

  /** Divisibility is transitive. */
  lemma DividesTrans(a: nat, b: nat, c: nat)
    requires b > 0 && c > 0 && a % b == 0 && b % c == 0
    ensures a % c == 0
  {
    var p, q := a / b, b / c;
    assert a == p * b && b == q * c;
    assert a == (p * q) * c;
    DivModUnique(a, c, p * q, 0);
  }

  /** Under the preconditions every tile size divides the image size, so
      every level of tiles covers the image exactly. */
  lemma {:induction false} EveryLevelDividesImage(imageSize: nat, tileSizes: seq<nat>, k: nat)
    requires TileSizesOk(imageSize, tileSizes) && k < |tileSizes|
    ensures imageSize % tileSizes[k] == 0
    decreases k
  {
    if k > 0 {
      EveryLevelDividesImage(imageSize, tileSizes, k - 1);
      DividesTrans(imageSize, tileSizes[k - 1], tileSizes[k]);
    }
  }

  ////////////////////////////////////////////////////////////////////////////
  // Tiles

  /** The corner of a square tile, in pixels. */
  datatype Corner = Corner(x: nat, y: nat)

  /** Pixel `(x, y)` lies in the `size`-sided tile at `c`. */
  predicate InTile(c: Corner, size: nat, x: nat, y: nat) {
    c.x <= x < c.x + size && c.y <= y < c.y + size
  }

  /** The corner of the `k`-th top-level tile, for `m` tiles of side `t`
      per axis: the first axis varies slowest. */
  function GridCorner(m: nat, t: nat, k: nat): Corner
    requires m > 0
  {
    Corner((k / m) * t, (k % m) * t)
  }

  /** The list of top-level tiles `render` queues. */
  method Tiles(imageSize: nat, t: nat) returns (tiles: seq<Corner>)
    requires t > 0
    ensures |tiles| == (imageSize / t) * (imageSize / t)
    ensures forall k :: 0 <= k < |tiles| ==> tiles[k] == GridCorner(imageSize / t, t, k)
  {
    var m := imageSize / t;
    tiles := [];
    for i := 0 to m
      invariant |tiles| == i * m
      invariant forall k :: 0 <= k < |tiles| ==> tiles[k] == GridCorner(m, t, k)
    {
      for j := 0 to m
        invariant |tiles| == i * m + j
        invariant forall k :: 0 <= k < |tiles| ==> tiles[k] == GridCorner(m, t, k)
      {
        DivModUnique(i * m + j, m, i, j);
        tiles := tiles + [Corner(i * t, j * t)];
      }
    }
  }

  /** The top-level tiles partition the image: every pixel lies in exactly
      one of them. */
  lemma GridPartition(imageSize: nat, t: nat, x: nat, y: nat, k: nat)
    requires t > 0 && imageSize % t == 0 && x < imageSize && y < imageSize
    requires k < (imageSize / t) * (imageSize / t)
    ensures (x / t) * (imageSize / t) + y / t < (imageSize / t) * (imageSize / t)
    ensures InTile(GridCorner(imageSize / t, t, k), t, x, y) <==> k == (x / t) * (imageSize / t) + y / t
  {
    var m := imageSize / t;
    var qx, qy := x / t, y / t;
    OnePiece(imageSize, t, x, k / m);
    OnePiece(imageSize, t, y, k % m);
    RowMajorBound(m, m, qx, qy);
    assert m > 0;
    if k == qx * m + qy {
      DivModUnique(k, m, qx, qy);
    }
    if k / m == qx && k % m == qy {
      assert k == (k / m) * m + k % m;
    }
  }

  /** `render_tile_recurse` splits a tile of side `size` into `n * n`
      subtiles of side `next`, `n = size / next`, with corners at multiples
      of `next`. When `next` divides `size` they partition the tile: every
      pixel of it lies in exactly one subtile. */
  lemma SubtilesPartition(size: nat, next: nat, dx: nat, dy: nat, i: nat, j: nat)
    requires next > 0 && size % next == 0 && dx < size && dy < size
    ensures dx / next < size / next && dy / next < size / next
    ensures InTile(Corner(i * next, j * next), next, dx, dy) <==> i == dx / next && j == dy / next
  {
    OnePiece(size, next, dx, i);
    OnePiece(size, next, dy, j);
  }

  ////////////////////////////////////////////////////////////////////////////
  // Assembling the image

  /** The final image is stored top row first while tile rows count
      upwards, so pixel `(x, y)` of an `orig`-sided image lands at row
      `orig - y - 1`. */
  function FlipIndex(orig: nat, x: nat, y: nat): (o: nat)
    requires x < orig && y < orig
    ensures o < orig * orig
  {
    RowMajorBound(orig, orig, orig - y - 1, x);
    (orig - y - 1) * orig + x
  }

  /** The flipped index determines the pixel: its remainder is the column
      and its quotient the flipped row. */
  lemma FlipRoundTrip(orig: nat, x: nat, y: nat)
    requires x < orig && y < orig
    ensures FlipIndex(orig, x, y) % orig == x
    ensures FlipIndex(orig, x, y) / orig == orig - 1 - y
  {
    DivModUnique(FlipIndex(orig, x, y), orig, orig - y - 1, x);
  }

  /** Every index of the image holds exactly one pixel. */
  lemma FlipOnto(orig: nat, o: nat)
    requires o < orig * orig
    ensures o % orig < orig && o / orig < orig
    ensures FlipIndex(orig, o % orig, orig - 1 - o / orig) == o
  {
    assert orig > 0;
    DivModUnique(orig * orig, orig, orig, 0);
    OnePiece(orig * orig, orig, o, 0);
    var q, r := o / orig, o % orig;
    assert o == q * orig + r;
    assert FlipIndex(orig, r, orig - 1 - q) == q * orig + r;
  }

  /** Distinct pixels land at distinct indices. */
  lemma FlipInjective(orig: nat, x: nat, y: nat, x': nat, y': nat)
    requires x < orig && y < orig && x' < orig && y' < orig
    requires FlipIndex(orig, x, y) == FlipIndex(orig, x', y')
    ensures x == x' && y == y'
  {
    FlipRoundTrip(orig, x, y);
    FlipRoundTrip(orig, x', y');
  }

  /** Pixel `(x, y)` lies in the first `rows` rows of the `t`-sided tile
      at `c`, or in the first `cols` pixels of the row after them. */
  predicate Written(c: Corner, t: nat, x: nat, y: nat, rows: nat, cols: nat) {
    && c.x <= x < c.x + t && c.y <= y
    && (y - c.y < rows || (y - c.y == rows && x - c.x < cols))
  }

  /** Pixel `(dx, dy)` of a tile's data, stored row by row. */
  function TilePixel<T>(data: seq<T>, t: nat, dx: nat, dy: nat): T
    requires |data| == t * t && dx < t && dy < t
  {
    RowMajorBound(t, t, dy, dx);
    data[dy * t + dx]
  }

  /** What a partly written tile has left at pixel `(x, y)`. */
  function AfterWrite<T>(image: seq<T>, orig: nat, t: nat, c: Corner, data: seq<T>,
                         x: nat, y: nat, rows: nat, cols: nat): T
    requires |image| == orig * orig && |data| == t * t && x < orig && y < orig && rows <= t
    requires rows == t ==> cols == 0
  {
    if Written(c, t, x, y, rows, cols) then TilePixel(data, t, x - c.x, y - c.y)
    else image[FlipIndex(orig, x, y)]
  }

  /** Writing pixel `(i, j)` of the tile changes what is left at that
      pixel only. */
  lemma AfterWriteStep<T>(image: seq<T>, orig: nat, t: nat, c: Corner, data: seq<T>,
                          x: nat, y: nat, j: nat, i: nat)
    requires |image| == orig * orig && |data| == t * t && x < orig && y < orig
    requires j < t && i < t
    ensures AfterWrite(image, orig, t, c, data, x, y, j, i + 1) ==
      if x == c.x + i && y == c.y + j then TilePixel(data, t, i, j)
      else AfterWrite(image, orig, t, c, data, x, y, j, i)
  {
  }

  /** One tile of the final assembly loop: every pixel of the tile that
      lies inside the `orig`-sided image is copied from the tile's data
      to its flipped index, and every other index keeps its value. */
  method WriteTile<T>(image: seq<T>, orig: nat, t: nat, c: Corner, data: seq<T>) returns (out: seq<T>)
    requires |image| == orig * orig && |data| == t * t
    ensures |out| == |image|
    ensures forall x: nat, y: nat :: x < orig && y < orig ==>
      out[FlipIndex(orig, x, y)] == AfterWrite(image, orig, t, c, data, x, y, t, 0)
  {
    out := image;
    var index := 0;
    for j := 0 to t
      invariant |out| == |image| && index == j * t
      invariant forall x: nat, y: nat :: x < orig && y < orig ==>
        out[FlipIndex(orig, x, y)] == AfterWrite(image, orig, t, c, data, x, y, j, 0)
    {
      for i := 0 to t
        invariant |out| == |image| && index == j * t + i
        invariant forall x: nat, y: nat :: x < orig && y < orig ==>
          out[FlipIndex(orig, x, y)] == AfterWrite(image, orig, t, c, data, x, y, j, i)
      {
        out := WritePixel(image, out, orig, t, c, data, j, i, index);
        index := index + 1;
      }
      assert forall x: nat, y: nat :: x < orig && y < orig ==>
        AfterWrite(image, orig, t, c, data, x, y, j, t) == AfterWrite(image, orig, t, c, data, x, y, j + 1, 0);
    }
  }

  /** The body of the inner loop: pixel `(i, j)` of the tile, if it lies
      inside the image, gets `data[index]`. */
  method WritePixel<T>(image: seq<T>, cur: seq<T>, orig: nat, t: nat, c: Corner, data: seq<T>,
                       j: nat, i: nat, index: nat)
    returns (out: seq<T>)
    requires |image| == orig * orig && |data| == t * t && |cur| == |image|
    requires j < t && i < t && index == j * t + i
    requires forall x: nat, y: nat :: x < orig && y < orig ==>
      cur[FlipIndex(orig, x, y)] == AfterWrite(image, orig, t, c, data, x, y, j, i)
    ensures |out| == |image|
    ensures forall x: nat, y: nat :: x < orig && y < orig ==>
      out[FlipIndex(orig, x, y)] == AfterWrite(image, orig, t, c, data, x, y, j, i + 1)
  {
    var y := j + c.y;
    var x := i + c.x;
    if y < orig && x < orig {
      var o := (orig - y - 1) * orig + x;
      assert o == FlipIndex(orig, x, y);
      RowMajorBound(t, t, j, i);
      assert TilePixel(data, t, i, j) == data[index];
      out := cur[o := data[index]];
      forall x': nat, y': nat | x' < orig && y' < orig
        ensures out[FlipIndex(orig, x', y')] == AfterWrite(image, orig, t, c, data, x', y', j, i + 1)
      {
        AfterWriteStep(image, orig, t, c, data, x', y', j, i);
        if FlipIndex(orig, x', y') == o {
          FlipInjective(orig, x, y, x', y');
        }
      }
    } else {
      out := cur;
      forall x': nat, y': nat | x' < orig && y' < orig
        ensures out[FlipIndex(orig, x', y')] == AfterWrite(image, orig, t, c, data, x', y', j, i + 1)
      {
        AfterWriteStep(image, orig, t, c, data, x', y', j, i);
      }
    }
  }

  /** A tile as a worker hands it back: its corner and its pixels, row by
      row. */
  datatype RenderedTile<T> = RenderedTile(corner: Corner, data: seq<T>)

  predicate TilesShaped<T>(t: nat, tiles: seq<RenderedTile<T>>) {
    forall k :: 0 <= k < |tiles| ==> |tiles[k].data| == t * t
  }

  /** What the assembled image holds at pixel `(x, y)`: the pixel of the
      last tile that covers it, or the default where none does. */
  function Assembled<T>(t: nat, tiles: seq<RenderedTile<T>>, default: T, x: nat, y: nat): T
    requires TilesShaped(t, tiles)
    decreases |tiles|
  {
    if |tiles| == 0 then default
    else
      var last := tiles[|tiles| - 1];
      if InTile(last.corner, t, x, y) then TilePixel(last.data, t, x - last.corner.x, y - last.corner.y)
      else Assembled(t, tiles[..|tiles| - 1], default, x, y)
  }

  /** The final loop of `render`: a default-filled image of side `orig`
      with every rendered tile written into it, flipped vertically. */
  method Assemble<T>(orig: nat, t: nat, tiles: seq<RenderedTile<T>>, default: T) returns (image: seq<T>)
    requires TilesShaped(t, tiles)
    ensures |image| == orig * orig
    ensures forall x: nat, y: nat :: x < orig && y < orig ==>
      image[FlipIndex(orig, x, y)] == Assembled(t, tiles, default, x, y)
  {
    image := seq(orig * orig, _ => default);
    for n := 0 to |tiles|
      invariant |image| == orig * orig
      invariant forall x: nat, y: nat :: x < orig && y < orig ==>
        image[FlipIndex(orig, x, y)] == Assembled(t, tiles[..n], default, x, y)
    {
      var prev := image;
      image := WriteTile(image, orig, t, tiles[n].corner, tiles[n].data);
      assert tiles[..n + 1][..n] == tiles[..n];
      forall x: nat, y: nat | x < orig && y < orig
        ensures image[FlipIndex(orig, x, y)] == Assembled(t, tiles[..n + 1], default, x, y)
      {
        assert Written(tiles[n].corner, t, x, y, t, 0) <==> InTile(tiles[n].corner, t, x, y);
      }
    }
    assert tiles[..|tiles|] == tiles;
  }

  /** A pixel covered by exactly one tile shows that tile's pixel, whatever
      order the workers returned the tiles in. */
  lemma {:induction false} AssembledByOwner<T>(t: nat, tiles: seq<RenderedTile<T>>, default: T,
                                              x: nat, y: nat, k: nat)
    requires TilesShaped(t, tiles) && k < |tiles| && InTile(tiles[k].corner, t, x, y)
    requires forall k' :: 0 <= k' < |tiles| && k' != k ==> !InTile(tiles[k'].corner, t, x, y)
    ensures Assembled(t, tiles, default, x, y)
      == TilePixel(tiles[k].data, t, x - tiles[k].corner.x, y - tiles[k].corner.y)
    decreases |tiles|
  {
    if k < |tiles| - 1 {
      var init := tiles[..|tiles| - 1];
      assert forall k' :: 0 <= k' < |init| ==> init[k'] == tiles[k'];
      AssembledByOwner(t, init, default, x, y, k);
    }
  }

  /** The index, in the queue `render` builds, of the top-level tile that
      holds pixel `(x, y)`. */
  function GridOwner(imageSize: nat, t: nat, x: nat, y: nat): (k: nat)
    requires t > 0 && imageSize % t == 0 && x < imageSize && y < imageSize
    ensures k < (imageSize / t) * (imageSize / t)
    ensures forall k' :: 0 <= k' < (imageSize / t) * (imageSize / t) ==>
      (InTile(GridCorner(imageSize / t, t, k'), t, x, y) <==> k' == k)
    ensures InTile(GridCorner(imageSize / t, t, k), t, x, y)
  {
    var m := imageSize / t;
    GridPartition(imageSize, t, x, y, 0);
    forall k' | 0 <= k' < m * m
      ensures InTile(GridCorner(m, t, k'), t, x, y) <==> k' == (x / t) * m + y / t
    {
      GridPartition(imageSize, t, x, y, k');
    }
    QuotientNat(x, t);
    QuotientNat(y, t);
    QuotientNat(imageSize, t);
    var qx: nat, qy: nat := x / t, y / t;
    ProductNat(qx, m);
    qx * m + qy
  }

  /** `tiles` holds each of the `m * m` top-level tiles exactly once, in
      any order: entry `j` is the tile the queue held at index `order[j]`.
      This is what the workers hand back between them, each tile popped
      from the queue by exactly one worker. */
  predicate GridOrder<T>(m: nat, t: nat, tiles: seq<RenderedTile<T>>, order: seq<nat>) {
    && |order| == |tiles|
    && (forall j :: 0 <= j < |tiles| ==>
          order[j] < m * m && tiles[j].corner == GridCorner(m, t, order[j]))
    && (forall j, j' :: 0 <= j < j' < |order| ==> order[j] != order[j'])
    && (forall k :: 0 <= k < m * m ==> k in order)
  }

  /** The queue itself, as a single worker returns it, is one such
      order. */
  lemma QueueIsGridOrder<T>(m: nat, t: nat, tiles: seq<RenderedTile<T>>)
    requires |tiles| == m * m
    requires forall k :: 0 <= k < |tiles| ==> tiles[k].corner == GridCorner(m, t, k)
    ensures GridOrder(m, t, tiles, seq(m * m, k => k))
  {
    var order: seq<nat> := seq(m * m, k => k);
    forall k | 0 <= k < m * m
      ensures k in order
    {
      assert order[k] == k;
    }
  }

  /** An entry of a grid order holds pixel `(x, y)` exactly when it is
      the pixel's owner. */
  lemma GridEntryHolds<T>(imageSize: nat, t: nat, tiles: seq<RenderedTile<T>>, order: seq<nat>,
                          x: nat, y: nat, j: nat)
    requires t > 0 && imageSize % t == 0 && x < imageSize && y < imageSize
    requires GridOrder(imageSize / t, t, tiles, order) && j < |tiles|
    ensures InTile(tiles[j].corner, t, x, y) <==> order[j] == GridOwner(imageSize, t, x, y)
  {
    var m := imageSize / t;
    assert order[j] < m * m && tiles[j].corner == GridCorner(m, t, order[j]);
  }

  /** The tiles `render` queues cover the image exactly, so, whatever
      order the workers return them in, every pixel of the output shows
      the pixel of the one top-level tile that holds it. */
  lemma GridAssembled<T>(imageSize: nat, orig: nat, t: nat, tiles: seq<RenderedTile<T>>, order: seq<nat>,
                         default: T, x: nat, y: nat)
    requires t > 0 && imageSize % t == 0 && orig <= imageSize && x < orig && y < orig
    requires TilesShaped(t, tiles) && GridOrder(imageSize / t, t, tiles, order)
    ensures GridOwner(imageSize, t, x, y) in order
    ensures forall j :: 0 <= j < |tiles| ==>
      (InTile(tiles[j].corner, t, x, y) <==> order[j] == GridOwner(imageSize, t, x, y))
    ensures forall j :: 0 <= j < |tiles| && order[j] == GridOwner(imageSize, t, x, y) ==>
      Assembled(t, tiles, default, x, y)
        == TilePixel(tiles[j].data, t, x - tiles[j].corner.x, y - tiles[j].corner.y)
  {
    var k := GridOwner(imageSize, t, x, y);
    assert k in order;
    var j :| 0 <= j < |order| && order[j] == k;
    forall j' | 0 <= j' < |tiles|
      ensures InTile(tiles[j'].corner, t, x, y) <==> order[j'] == k
    {
      GridEntryHolds(imageSize, t, tiles, order, x, y, j');
    }
    forall j' | 0 <= j' < |tiles| && j' != j
      ensures !InTile(tiles[j'].corner, t, x, y)
    {
      if j' < j {
        assert order[j'] != order[j];
      } else {
        assert order[j] != order[j'];
      }
    }
    AssembledByOwner(t, tiles, default, x, y, j);
  }
}

=== FILE: results.dfy ===
/** Failure-carrying datatypes shared by the modules of this model. */
module Results {

  /** A value that may be missing. */
  datatype Option<+T> = None | Some(value: T)

  /** The outcome of an operation that panics in the modelled program:
      `Err` stands for the panic, `Ok` for a normal return. */
  datatype Result<+T, +E> = Ok(value: T) | Err(error: E)
}

=== FILE: ssa_op.dfy ===
/** The SSA operations the register allocator consumes.

    Each operation defines one node of the globally allocated SSA tape
    (`out`) from earlier nodes; node indices are `u32`. The variants are the
    ones the allocator's dispatch distinguishes. */
module SsaOp {
  import opened Results
  import opened VmOp

  datatype Op =
    | Var(out: u32, index: u32)
    | Input(out: u32, index: u32)
    | CopyImm(out: u32, imm: Imm)
    | NegReg(out: u32, arg: u32)
    | AbsReg(out: u32, arg: u32)
    | RecipReg(out: u32, arg: u32)
    | SqrtReg(out: u32, arg: u32)
    | SquareReg(out: u32, arg: u32)
    | ExpReg(out: u32, arg: u32)
    | CopyReg(out: u32, arg: u32)
    | SineReg(out: u32, arg: u32)
    | CosineReg(out: u32, arg: u32)
    | AddRegImm(out: u32, arg: u32, imm: Imm)
    | SubRegImm(out: u32, arg: u32, imm: Imm)
    | SubImmReg(out: u32, arg: u32, imm: Imm)
    | MulRegImm(out: u32, arg: u32, imm: Imm)
    | DivRegImm(out: u32, arg: u32, imm: Imm)
    | DivImmReg(out: u32, arg: u32, imm: Imm)
    | MinRegImm(out: u32, arg: u32, imm: Imm)
    | MaxRegImm(out: u32, arg: u32, imm: Imm)
    | AddRegReg(out: u32, lhs: u32, rhs: u32)
    | SubRegReg(out: u32, lhs: u32, rhs: u32)
    | MulRegReg(out: u32, lhs: u32, rhs: u32)
    | DivRegReg(out: u32, lhs: u32, rhs: u32)
    | MinRegReg(out: u32, lhs: u32, rhs: u32)
    | MaxRegReg(out: u32, lhs: u32, rhs: u32)

  /** The variant's name, as spelled in the source. */
  function Name(op: Op): string {
    match op
    case Var(_, _) => "Var"
    case Input(_, _) => "Input"
    case CopyImm(_, _) => "CopyImm"
    case NegReg(_, _) => "NegReg"
    case AbsReg(_, _) => "AbsReg"
    case RecipReg(_, _) => "RecipReg"
    case SqrtReg(_, _) => "SqrtReg"
    case SquareReg(_, _) => "SquareReg"
    case ExpReg(_, _) => "ExpReg"
    case CopyReg(_, _) => "CopyReg"
    case SineReg(_, _) => "SineReg"
    case CosineReg(_, _) => "CosineReg"
    case AddRegImm(_, _, _) => "AddRegImm"
    case SubRegImm(_, _, _) => "SubRegImm"
    case SubImmReg(_, _, _) => "SubImmReg"
    case MulRegImm(_, _, _) => "MulRegImm"
    case DivRegImm(_, _, _) => "DivRegImm"
    case DivImmReg(_, _, _) => "DivImmReg"
    case MinRegImm(_, _, _) => "MinRegImm"
    case MaxRegImm(_, _, _) => "MaxRegImm"
    case AddRegReg(_, _, _) => "AddRegReg"
    case SubRegReg(_, _, _) => "SubRegReg"
    case MulRegReg(_, _, _) => "MulRegReg"
    case DivRegReg(_, _, _) => "DivRegReg"
    case MinRegReg(_, _, _) => "MinRegReg"
    case MaxRegReg(_, _, _) => "MaxRegReg"
  }

  /** Operations that only write their output. */
  predicate IsOutOnly(op: Op) {
    op.Var? || op.Input? || op.CopyImm?
  }

  /** Operations with one register argument. */
  predicate IsReg(op: Op) {
    op.NegReg? || op.AbsReg? || op.RecipReg? || op.SqrtReg? || op.SquareReg?
    || op.ExpReg? || op.CopyReg? || op.SineReg? || op.CosineReg?
  }

  /** Operations with one register argument and one immediate. */
  predicate IsRegImm(op: Op) {
    op.AddRegImm? || op.SubRegImm? || op.SubImmReg? || op.MulRegImm?
    || op.DivRegImm? || op.DivImmReg? || op.MinRegImm? || op.MaxRegImm?
  }

  /** Operations with two register arguments. */
  predicate IsRegReg(op: Op) {
    op.AddRegReg? || op.SubRegReg? || op.MulRegReg? || op.DivRegReg?
    || op.MinRegReg? || op.MaxRegReg?
  }

  /** The nodes an operation reads, left to right. */
  function Args(op: Op): seq<u32> {
    if IsRegReg(op) then [op.lhs, op.rhs]
    else if IsReg(op) || IsRegImm(op) then [op.arg]
    else []
  }

  /** The immediate an operation carries, if any. */
  function Immediate(op: Op): Option<Imm> {
    if IsRegImm(op) || op.CopyImm? then Some(op.imm) else None
  }

  /** An SSA operation never reads the node it defines. */
  predicate IsSsa(op: Op) {
    op.out !in Args(op)
  }

  /** Every operation has exactly one of the four operand layouts, and its
      argument list is the one that layout names. */
  lemma ArgsShape(op: Op)
    ensures IsOutOnly(op) || IsReg(op) || IsRegImm(op) || IsRegReg(op)
    ensures IsOutOnly(op) ==> !IsReg(op) && !IsRegImm(op) && !IsRegReg(op)
    ensures IsReg(op) ==> !IsRegImm(op) && !IsRegReg(op)
    ensures IsRegImm(op) ==> !IsRegReg(op)
    ensures IsOutOnly(op) ==> Args(op) == []
    ensures IsReg(op) || IsRegImm(op) ==> Args(op) == [op.arg]
    ensures IsRegReg(op) ==> Args(op) == [op.lhs, op.rhs]
  {
  }
}

=== FILE: vm_op.dfy ===
/** The instruction set of the register-limited virtual machine.

    Operations are NOT in SSA form: they name a small number of registers
    (`u8`) and reuse them. Every variant except `Load` and `Store` carries the
    output register as its first field; `Load` and `Store` move a value
    between a register and an (unbounded) memory slot (`u32`). */
module VmOp {
  import opened Results

  /** Rust's `u8`. */
  type u8 = x: int | 0 <= x < 0x100

  /** Rust's `u32`. */
  type u32 = x: int | 0 <= x < 0x1_0000_0000

  /** An `f32` immediate. Its arithmetic is not modelled: it is carried as an
      opaque bit pattern and only ever copied. */
  datatype Imm = Imm(bits: u32)

  datatype Op =
    | Input(out: u8, input: u8)          // read input X, Y or Z
    | Var(out: u8, index: u32)           // read a variable
    | NegReg(out: u8, arg: u8)
    | AbsReg(out: u8, arg: u8)
    | RecipReg(out: u8, arg: u8)
    | SqrtReg(out: u8, arg: u8)
    | SquareReg(out: u8, arg: u8)
    | ExpReg(out: u8, arg: u8)
    | CopyReg(out: u8, arg: u8)
    | AddRegImm(out: u8, arg: u8, imm: Imm)
    | MulRegImm(out: u8, arg: u8, imm: Imm)
    | DivRegImm(out: u8, arg: u8, imm: Imm)
    | DivImmReg(out: u8, arg: u8, imm: Imm)  // imm / arg
    | SubImmReg(out: u8, arg: u8, imm: Imm)  // imm - arg
    | SubRegImm(out: u8, arg: u8, imm: Imm)
    | MinRegImm(out: u8, arg: u8, imm: Imm)
    | MaxRegImm(out: u8, arg: u8, imm: Imm)
    | AddRegReg(out: u8, lhs: u8, rhs: u8)
    | MulRegReg(out: u8, lhs: u8, rhs: u8)
    | DivRegReg(out: u8, lhs: u8, rhs: u8)
    | SubRegReg(out: u8, lhs: u8, rhs: u8)
    | SineReg(out: u8, arg: u8)
    | CosineReg(out: u8, arg: u8)
    | MinRegReg(out: u8, lhs: u8, rhs: u8)
    | MaxRegReg(out: u8, lhs: u8, rhs: u8)
    | CopyImm(out: u8, imm: Imm)
    | Load(reg: u8, mem: u32)            // reg <- memory[mem]
    | Store(reg: u8, mem: u32)           // memory[mem] <- reg

  /** The variant's name, as spelled in the source. */
  function Name(op: Op): string {
    match op
    case Input(_, _) => "Input"
    case Var(_, _) => "Var"
    case NegReg(_, _) => "NegReg"
    case AbsReg(_, _) => "AbsReg"
    case RecipReg(_, _) => "RecipReg"
    case SqrtReg(_, _) => "SqrtReg"
    case SquareReg(_, _) => "SquareReg"
    case ExpReg(_, _) => "ExpReg"
    case CopyReg(_, _) => "CopyReg"
    case AddRegImm(_, _, _) => "AddRegImm"
    case MulRegImm(_, _, _) => "MulRegImm"
    case DivRegImm(_, _, _) => "DivRegImm"
    case DivImmReg(_, _, _) => "DivImmReg"
    case SubImmReg(_, _, _) => "SubImmReg"
    case SubRegImm(_, _, _) => "SubRegImm"
    case MinRegImm(_, _, _) => "MinRegImm"
    case MaxRegImm(_, _, _) => "MaxRegImm"
    case AddRegReg(_, _, _) => "AddRegReg"
    case MulRegReg(_, _, _) => "MulRegReg"
    case DivRegReg(_, _, _) => "DivRegReg"
    case SubRegReg(_, _, _) => "SubRegReg"
    case SineReg(_, _) => "SineReg"
    case CosineReg(_, _) => "CosineReg"
    case MinRegReg(_, _, _) => "MinRegReg"
    case MaxRegReg(_, _, _) => "MaxRegReg"
    case CopyImm(_, _) => "CopyImm"
    case Load(_, _) => "Load"
    case Store(_, _) => "Store"
  }

  /** Spill instructions move values between registers and memory. */
  predicate IsSpill(op: Op) {
    op.Load? || op.Store?
  }

  /** Operations with one register argument. */
  predicate IsUnary(op: Op) {
    op.NegReg? || op.AbsReg? || op.RecipReg? || op.SqrtReg? || op.SquareReg?
    || op.ExpReg? || op.CopyReg? || op.SineReg? || op.CosineReg?
  }

  /** Operations with one register argument and one immediate. */
  predicate IsRegImm(op: Op) {
    op.AddRegImm? || op.MulRegImm? || op.DivRegImm? || op.DivImmReg?
    || op.SubImmReg? || op.SubRegImm? || op.MinRegImm? || op.MaxRegImm?
  }

  /** Operations with two register arguments. */
  predicate IsRegReg(op: Op) {
    op.AddRegReg? || op.MulRegReg? || op.DivRegReg? || op.SubRegReg?
    || op.MinRegReg? || op.MaxRegReg?
  }

  /** The register an operation writes, if any. */
  function Output(op: Op): (r: Option<u8>)
    ensures r.None? <==> op.Store?
    ensures !IsSpill(op) ==> r == Some(op.out)
  {
    match op
    case Store(_, _) => None
    case Load(reg, _) => Some(reg)
    case _ => Some(op.out)
  }

  /** The registers an operation reads, left to right. */
  function Inputs(op: Op): (r: seq<u8>)
    ensures |r| <= 2
    ensures |r| == 2 <==> IsRegReg(op)
    ensures |r| == 1 <==> IsUnary(op) || IsRegImm(op) || op.Store?
  {
    if IsRegReg(op) then [op.lhs, op.rhs]
    else if IsUnary(op) || IsRegImm(op) then [op.arg]
    else if op.Store? then [op.reg]
    else []
  }

  /** The immediate an operation carries, if any. */
  function Immediate(op: Op): (r: Option<Imm>)
    ensures r.Some? <==> IsRegImm(op) || op.CopyImm?
  {
    if IsRegImm(op) || op.CopyImm? then Some(op.imm) else None
  }

  /** The left-hand operand of a register/immediate operation is the
      immediate exactly for `SubImmReg` and `DivImmReg`. */
  predicate ImmOnLeft(op: Op) {
    op.SubImmReg? || op.DivImmReg?
  }

  /** Classifies every operation into exactly one operand layout: the first
      field of each non-spill variant is the register it writes, register
      arguments follow, immediates come last, and only `Load` and `Store`
      name a memory slot. */
  lemma OperandLayout(op: Op)
    ensures !IsSpill(op) ==> Output(op) == Some(op.out)
    ensures op.Load? ==> Output(op) == Some(op.reg) && Inputs(op) == []
    ensures op.Store? ==> Output(op).None? && Inputs(op) == [op.reg]
    ensures op.Input? || op.Var? || op.CopyImm? ==> Inputs(op) == []
    ensures IsUnary(op) ==> Inputs(op) == [op.arg] && Immediate(op).None?
    ensures IsRegImm(op) ==> Inputs(op) == [op.arg] && Immediate(op) == Some(op.imm)
    ensures IsRegReg(op) ==> Inputs(op) == [op.lhs, op.rhs] && Immediate(op).None?
    ensures ImmOnLeft(op) ==> IsRegImm(op)
  {
  }

  /** The operations of `ops` other than `Load` and `Store`, in order. */
  function NonSpills(ops: seq<Op>): (r: seq<Op>)
    ensures |r| <= |ops|
  {
    if ops == [] then []
    else if IsSpill(ops[0]) then NonSpills(ops[1..])
    else [ops[0]] + NonSpills(ops[1..])
  }

  /** `NonSpills` keeps exactly the ops that are not spills: whatever it
      returns is a non-spill op of `ops`, and it returns nothing exactly
      when every op is a spill. */
  lemma {:induction false} NonSpillsFilters(ops: seq<Op>)
    ensures forall i :: 0 <= i < |NonSpills(ops)| ==>
      !IsSpill(NonSpills(ops)[i]) && NonSpills(ops)[i] in ops
    ensures NonSpills(ops) == [] <==> forall i :: 0 <= i < |ops| ==> IsSpill(ops[i])
  {
    if ops != [] {
      NonSpillsFilters(ops[1..]);
      assert forall x :: x in ops[1..] ==> x in ops;
      if !IsSpill(ops[0]) {
        assert NonSpills(ops)[0] == ops[0];
      } else {
        assert forall i :: 1 <= i < |ops| ==> ops[i] == ops[1..][i - 1];
      }
    }
  }

  /** Filtering distributes over concatenation. */
  lemma {:induction false} NonSpillsAppend(x: seq<Op>, y: seq<Op>)
    ensures NonSpills(x + y) == NonSpills(x) + NonSpills(y)
  {
    if x == [] {
      assert x + y == y;
    } else {
      assert (x + y)[1..] == x[1..] + y;
      NonSpillsAppend(x[1..], y);
    }
  }
}

=== FILE: vm_tape.dfy ===
/** The output tape of the register allocator: a list of VM operations plus
    the number of register-or-memory slots they use and the register limit
    they were planned for.

    Operations are pushed in the order the allocator visits them, which is
    the REVERSE of evaluation order: the first op pushed computes the root,
    and evaluation runs the tape back to front. */
module VmTape {
  import opened VmOp

  datatype Tape = Tape(ops: seq<Op>, slotCount: u32, regLimit: u8)

  /** `Tape::default()`: no ops, no slots, no registers. */
  function Default(): (t: Tape)
    ensures IsEmpty(t) && SlotCount(t) == 0 && RegLimit(t) == 0
  {
    Tape([], 0, 0)
  }

  /** `Tape::new`: an empty tape in which slot 0 is already counted. */
  function New(regLimit: u8): (t: Tape)
    ensures IsEmpty(t) && Iter(t) == []
    ensures SlotCount(t) == 1 && RegLimit(t) == regLimit
  {
    Tape([], 1, regLimit)
  }

  /** `Tape::reset`: drops every op and restarts slot counting; the result
      is indistinguishable from a new tape. */
  function Reset(t: Tape, regLimit: u8): (r: Tape)
    ensures r == New(regLimit)
    ensures IsEmpty(r) && SlotCount(r) == 1 && RegLimit(r) == regLimit
  {
    t.(ops := [], slotCount := 1, regLimit := regLimit)
  }

  function RegLimit(t: Tape): u8 {
    t.regLimit
  }

  function SlotCount(t: Tape): nat {
    t.slotCount
  }

  function Len(t: Tape): nat {
    |t.ops|
  }

  predicate IsEmpty(t: Tape) {
    |t.ops| == 0
  }

  /** Front-to-back iteration: push order, root first. */
  function Iter(t: Tape): seq<Op> {
    t.ops
  }

  /** `push`: appends one op after all earlier ones and leaves the slot
      count and register limit alone. */
  function Push(t: Tape, op: Op): (r: Tape)
    ensures Len(r) == Len(t) + 1
    ensures Iter(r)[..Len(t)] == Iter(t) && Iter(r)[Len(t)] == op
    ensures SlotCount(r) == SlotCount(t) && RegLimit(r) == RegLimit(t)
  {
    t.(ops := t.ops + [op])
  }

  /** `is_empty` agrees with `len`. */
  lemma IsEmptyIffLenZero(t: Tape)
    ensures IsEmpty(t) <==> Len(t) == 0
  {
  }

  /** Pushing a sequence of ops one at a time. */
  function PushAll(t: Tape, ops: seq<Op>): Tape
    decreases |ops|
  {
    if |ops| == 0 then t else PushAll(Push(t, ops[0]), ops[1..])
  }

  /** Iteration yields ops in push order, after everything already there. */
  lemma {:induction false} PushAllOrder(t: Tape, ops: seq<Op>)
    ensures Iter(PushAll(t, ops)) == Iter(t) + ops
    ensures SlotCount(PushAll(t, ops)) == SlotCount(t)
    ensures RegLimit(PushAll(t, ops)) == RegLimit(t)
    decreases |ops|
  {
    if |ops| > 0 {
      PushAllOrder(Push(t, ops[0]), ops[1..]);
      assert Iter(Push(t, ops[0])) == Iter(t) + [ops[0]];
      assert [ops[0]] + ops[1..] == ops;
    }
  }

  function Reverse<T>(s: seq<T>): (r: seq<T>)
    ensures |r| == |s|
    ensures forall i :: 0 <= i < |s| ==> r[i] == s[|s| - 1 - i]
  {
    if |s| == 0 then [] else Reverse(s[1..]) + [s[0]]
  }

  /** The order in which an evaluator executes the tape. */
  function EvalOrder(t: Tape): seq<Op> {
    Reverse(Iter(t))
  }

  /** The op pushed last is the one evaluated first: iteration order is
      evaluation order reversed. */
  lemma PushEvaluatesFirst(t: Tape, op: Op)
    ensures EvalOrder(Push(t, op)) == [op] + EvalOrder(t)
  {
    var r := EvalOrder(Push(t, op));
    assert Iter(Push(t, op)) == Iter(t) + [op];
    assert forall i :: 0 <= i < |r| ==> r[i] == ([op] + EvalOrder(t))[i];
  }
}
